=== FILE: README.md ===
# fomc-scheduler translation core in Dafny

This project models the pure core of the fomc-scheduler repository.

- **Translation engine.** The centre is the position-preserving HTML translation engine `PositionBasedTranslationParser`. It has four parts:
  - The **segmenter** walks a parsed document and keeps the translatable text nodes. It finds each node's raw text in the source with a search cursor that only moves forward, and records a half-open range for it.
  - The **verifier** combines a 32-bit rolling checksum with a three-way match test.
  - The **reconstructor** makes one pass that splices each translation in at its recorded range, shifted by the running length difference. When a range no longer verifies, it falls back to the first literal occurrence. At the end it injects a charset declaration after the `<head…>` tag.
  - The **HTML escaper** is used when the raw text cannot be found.
- **Batching glue.** Around the engine sits the glue of the translation pipeline and of the stand-alone reconstruction script:
  - cutting out the `<TEXT>` body;
  - joining the segment texts with the sentinel line `"\n\n␟\n\n"`;
  - normalising CRLF line endings in the answer and splitting it back;
  - the positional id-to-translation map, with its missing-piece warnings.
- **Three smaller pure rules:**
  - the FOMC meeting status machine `pending → statement-fetched → done`;
  - the SEC filing selection and archive-link builder of the earnings polling job;
  - the Korean page template, titles and storage keys of the FOMC document translator.

Modelling conventions:

- **Strings.** A string is `seq<char>`. For text inside the Basic Multilingual Plane, one `char` is one UTF-16 code unit (see "Left out" for other text).
- **Whitespace.** `trim`, `\s` and `parseInt` share one whitespace predicate: the ECMAScript WhiteSpace and LineTerminator code points.
- **The document.** A parsed document is an immutable tree (`Dom.Node`). The model assumes that the parser, asked to leave entities undecoded, does so, and that a text node's data is therefore its raw source slice. Whether it does depends on the markup library's version and back end, and the escaped-form fallback of `findExactPosition` covers the case where it does not.
- **Effects.** Network calls, storage, the clock and the markup parser become parameters of the model:
  - the translation provider and the downloader are functions returning `Option`; the downloader also receives the request's number within the flow, so a retry of the same key may get a different answer;
  - "today" is a string argument;
  - the parsed tree and the preprocessing pass are arguments.
- **Warnings.** Console warnings are modelled as lists of events.

Modules:

| file | module | what it holds |
|---|---|---|
| js_strings.dfy | JsStrings | `trim`, `indexOf`, `substring`, `slice`, `split`/`join`, `padStart`, ASCII case folding, decimal digits |
| verifier.dfy | Verifier | ToInt32, the checksum loop and its closed form, `createVerification`, `verifyPosition` |
| escape.dfy | Escape | the five-pass escaper, a per-character reference escaper, a reference decoder |
| dom.dfy | Dom | the document tree and the text walk with excluded tags |
| segments.dfy | Segments | the segment record, its invariants, the id-keyed object fill |
| segmenter.dfy | Segmenter | `isTranslatable`, `findExactPosition`, `findTextPositions`, `validateRecovery`, `getTranslationMap` |
| reconstructor.dfy | Reconstructor | `reconstructHtml`, `fallbackReplace`, the charset injection, the reference splice |
| batching.dfy | Batching | `<TEXT>` extraction, sentinel join/split, CRLF normalisation, positional map, missing-piece warnings |
| pipeline.dfy | Pipeline | `runTranslatePipeline` and the stand-alone reconstruction script, end to end |
| meeting_scheduler.dfy | MeetingScheduler | one run of `runMeetingScheduler` and the status update it issues |
| polling_job.dfy | PollingJob | CIK padding, today's first 8-K, `makelink`, the job's stop/fetch decision |
| fomc_wrapper.dfy | FomcWrapper | document titles, `parseInt` of the date fields, the page template, storage keys, the upload flow |

## Model

| member | source | states |
|---|---|---|
| JsStrings.TrimStripsPadding | src/jobs/translate/libs/parser.js:27 | `trim` of a trimmed string wrapped in any whitespace gives exactly that string back |
| JsStrings.TrimIsTrimmed | src/jobs/translate/libs/parser.js:33 | `trim` yields a string with no whitespace at either end, and trimming twice is trimming once |
| JsStrings.TrimEmptyIffWhitespace | src/jobs/translate/libs/parser.js:131-132 | `trim` gives the empty string exactly when the input is all whitespace |
| JsStrings.IndexOf | src/jobs/translate/libs/parser.js:71 | the result is an occurrence at or after the clamped start with none before it, and "not found" means no occurrence from the start on |
| JsStrings.Split | src/jobs/translate/translatePipeline.js:96 | splitting gives at least one piece, no piece contains the separator, every cut is at the leftmost separator occurrence, and joining the pieces with it rebuilds the input |
| JsStrings.SplitJoin | src/jobs/translate/translatePipeline.js:51-96 | splitting a joined list gives the list back when no piece contains a character that pins down the separator |
| JsStrings.PadStart | src/jobs/runPollingJob.js:27 | the result has width `max(len, width)`, ends with the input, and everything in front is the fill character |
| JsStrings.NatTextValue | src/jobs/fomc-translate/fomc-function.js:84 | the decimal text of a number reads back as that number |
| Verifier.ToInt32 | src/jobs/translate/libs/parser.js:124-125 | the result is a signed 32-bit value congruent to the argument modulo 2^32 |
| Verifier.ChecksumStepIsMultiplyAdd | src/jobs/translate/libs/parser.js:124-125 | `(h << 5) - h + c` followed by `h & h` equals `ToInt32(31*h + c)` |
| Verifier.ChecksumAppend | src/jobs/translate/libs/parser.js:122-126 | appending one code unit advances the closed-form checksum by exactly one loop turn |
| Verifier.SimpleChecksum | src/jobs/translate/libs/parser.js:120-128 | the loop returns the text's base-31 value reduced to a signed 32-bit integer |
| Verifier.CreateVerification | src/jobs/translate/libs/parser.js:102-118 | records the raw length and checksum, up to ten code units ending at the position, and up to ten following the text |
| Verifier.WhitespaceDriftVerifies | src/jobs/translate/libs/parser.js:184 | the trimmed text surrounded by any whitespace still verifies |
| Verifier.ChecksumCollision | src/jobs/translate/libs/parser.js:182-183 | the checksum test accepts a different text: `BB` passes for a span recorded as `Aa` |
| Escape.EscapeEach | src/jobs/translate/libs/parser.js:81-88 | per-character reference escaper: never shorter, leaves no `<` `>` `"` `'`, identity on text without the five special characters |
| Escape.EscapeHtmlAppend | src/jobs/translate/libs/parser.js:81-88 | the five global passes distribute over concatenation |
| Escape.EscapeHtmlChar | src/jobs/translate/libs/parser.js:82-87 | on one character the five passes give that character's reference: later passes never re-escape what `&amp;` wrote |
| Escape.EscapeHtmlPerChar | src/jobs/translate/libs/parser.js:81-88 | the five passes, `&` first, equal escaping every character on its own |
| Escape.UnescapeEscape | src/jobs/translate/libs/parser.js:81-88 | escaping loses nothing: decoding the five references gives the text back |
| Dom.VisitedTextsAppend | src/jobs/translate/libs/parser.js:54-62 | the walk over two child lists in a row is the walk over each in turn |
| Dom.ExcludedSubtreeIsSilent | src/jobs/translate/libs/parser.js:58-67 | an element named script, style, noscript or template, in any letter case, contributes no text whatever it holds |
| Dom.OtherNodeIsSilent | src/jobs/translate/libs/parser.js:55-60 | nodes that are neither text nor "tag" contribute no text |
| Segments.MapByIdContents | src/jobs/translate/libs/parser.js:203-208 | filling an object by id: every id is a key, there are no other keys, and the last write for an id wins |
| Segments.MapByIdDense | src/jobs/translate/libs/parser.js:203-208 | with ids 0..n-1 the keys are exactly 0..n-1 and key `i` holds the `i`-th value |
| Segmenter.MatchesNumberishIff | src/jobs/translate/libs/parser.js:133 | the anchored starred class matches exactly when every character is a digit, whitespace or listed punctuation |
| Segmenter.TranslatableIff | src/jobs/translate/libs/parser.js:130-135 | translatable exactly when at least two code units long with at least one character outside digits, whitespace and `.,;:!?-()` |
| Segmenter.FindExactPosition | src/jobs/translate/libs/parser.js:70-79 | a found position lies at or after the cursor, inside the source, where the raw text or its escaped form occurs |
| Segmenter.FindExactPositionChoice | src/jobs/translate/libs/parser.js:70-79 | the raw form is preferred (its first occurrence wins); without a raw occurrence the first occurrence of the escaped form wins; and the search fails exactly when neither form occurs from the cursor on |
| Segmenter.LocateHits | src/jobs/translate/libs/parser.js:26-46 | the forward-cursor fold reports translatable visited texts in walk order, each at the position `findExactPosition` gives from the current cursor, in ascending disjoint ranges; and every visited text without a hit is untranslatable or occurs in neither form from the cursor current at it |
| Segmenter.LocateProperties | src/jobs/translate/libs/parser.js:22-46 | the walk's segments have ids 0..n-1, ascending disjoint ranges, trimmed translatable text, raw-length ranges, and their context record |
| Segmenter.InsertKeepsSorted | src/jobs/translate/libs/parser.js:48 | inserting by start position into a sorted list keeps it sorted |
| Segmenter.SortByStart | src/jobs/translate/libs/parser.js:48 | the sort yields a list in start order that is a permutation of its input |
| Segmenter.SortSortedIsIdentity | src/jobs/translate/libs/parser.js:48 | the stable sort leaves a list already in start order unchanged |
| Segmenter.RenumberDenseIsIdentity | src/jobs/translate/libs/parser.js:49-51 | renumbering a list already numbered 0..n-1 changes nothing |
| Segmenter.FindTextPositionsIsLocate | src/jobs/translate/libs/parser.js:22-52 | the sort and renumbering are no-ops on the walk's list, so the result is ordered, densely numbered and well formed |
| Segmenter.PlainSegmentsRecover | src/jobs/translate/libs/parser.js:28-36 | every segment of `findTextPositions` whose raw text has none of `& < > " '` holds that text at its recorded range |
| Segmenter.EscapedHitMissesRange | src/jobs/translate/libs/parser.js:34-36 | a segment found only through the escaped form gets a range of the raw length and does not hold its text there |
| Segmenter.RecoveryIssues | src/jobs/translate/libs/parser.js:213-226 | every segment whose range no longer holds its raw text gets its issue, there are no more issues than segments, and no issue is reported exactly when every range holds |
| Segmenter.RecoveryIssuesInOrder | src/jobs/translate/libs/parser.js:213-226 | the issues are exactly those of the failing segments, one each, in segment order: an increasing list of indices picks out precisely the failing segments, and issue `k` belongs to the `k`-th of them |
| Segmenter.RecoveryIssuesSound | src/jobs/translate/libs/parser.js:218-225 | every issue belongs to a segment whose range fails, and records its id, expected text, found text and position |
| Segmenter.ValidateRecovery | src/jobs/translate/libs/parser.js:210-232 | `valid` holds exactly when every range holds its raw text |
| Segmenter.ValidateRecoveryIff | src/jobs/translate/libs/parser.js:210-232 | for ranges inside the source, `valid` holds exactly when every segment recovers its text |
| Segmenter.TranslationMapDense | src/jobs/translate/libs/parser.js:203-208 | on ids 0..n-1 the map's keys are exactly 0..n-1 and id `i` holds the `i`-th trimmed text |
| Reconstructor.FallbackReplaceSpec | src/jobs/translate/libs/parser.js:188-201 | the fallback succeeds exactly when the raw text occurs, then replaces its first occurrence; otherwise it changes nothing |
| Reconstructor.SpliceShape | src/jobs/translate/libs/parser.js:152-154 | cutting `[a, b)` out and putting the translation in keeps the prefix and the suffix and shifts the length by the difference |
| Reconstructor.ApplySkipped | src/jobs/translate/libs/parser.js:142 | a segment with no map entry changes neither the string, the adjustment nor the warnings |
| Reconstructor.ApplyVerified | src/jobs/translate/libs/parser.js:144-157 | a verified segment is spliced at its shifted range with everything else kept, the adjustment grows by the length difference, and no warning is emitted |
| Reconstructor.ApplyUnverified | src/jobs/translate/libs/parser.js:158-167 | an unverified segment goes through the fallback with the adjustment unchanged, leaving one warning, or two when the fallback finds nothing |
| Reconstructor.ReplaySegments | src/jobs/translate/libs/parser.js:141-169 | the pass only appends warnings, at most two per segment |
| Reconstructor.HeadTag | src/jobs/translate/libs/parser.js:173-174 | the match is the first case-insensitive `<head` with the first `>` after it; there is none exactly when no `<head` is followed by a `>` |
| Reconstructor.ApplyStep | src/jobs/translate/libs/parser.js:144-157 | with the built prefix in front of the untouched source tail, a recovering segment verifies and extends the prefix by its translation |
| Reconstructor.ReplayIsWoven | src/jobs/translate/libs/parser.js:141-169 | over in-order recovering segments, the pass equals the reference splice: every range verifies, no warning is emitted, and the adjustment is the length difference |
| Reconstructor.ReconstructIsWoven | src/jobs/translate/libs/parser.js:137-178 | reconstruction over in-order recovering segments is the reference splice plus the charset line, with no warnings; with no segments the page is the body plus the charset line |
| Reconstructor.SelfSplice | src/jobs/translate/libs/parser.js:146-157 | splicing a recovering segment's own raw text back over it leaves the string unchanged |
| Reconstructor.ReconstructIdentity | src/jobs/translate/libs/parser.js:137-178 | when every id maps to its own raw text, in any order, the result is the source plus the charset line, with no warnings; with no segments the page is the body plus the charset line |
| Batching.SentinelMarked | src/jobs/translate/translatePipeline.js:51 | the separator character U+241F occurs once in the sentinel and pins down an occurrence of it |
| Batching.FindTextBlock | src/jobs/translate/translatePipeline.js:25 | the block is the first case-insensitive `<TEXT>` and the nearest `</TEXT>` after it; there is none exactly when no such pair exists |
| Batching.ExtractTextBody | src/jobs/translate/translatePipeline.js:25-30 | the lazy match: the body starts right after the first case-insensitive `<TEXT>`, is followed by a `</TEXT>`, and contains the start of none; it is missing exactly when no `<TEXT>` is followed by a `</TEXT>` |
| Batching.NormalizeCrlfIsSplitJoin | src/jobs/translate/translatePipeline.js:95 | normalisation is `replaceAll` with a string pattern: splitting at every CRLF, leftmost first, and joining the parts with a line feed |
| Batching.NormalizeCrlfIdentityIff | src/jobs/translate/translatePipeline.js:95 | CRLF normalisation leaves a string unchanged exactly when it holds no CRLF |
| Batching.NormalizeWithoutCr | src/jobs/translate/translatePipeline.js:95 | a string without carriage returns is left alone |
| Batching.NormalizeNotIdempotent | src/jobs/translate/translatePipeline.js:95 | the single left-to-right pass is not idempotent: `\r\r\n` becomes `\r\n` |
| Batching.BatchRoundTrip | src/jobs/translate/translatePipeline.js:94-96 | an echoed batch splits back into exactly its pieces when no piece holds a carriage return or U+241F |
| Batching.CrBeforeSentinelIsLost | src/jobs/translate/translatePipeline.js:94-96 | a piece ending in a carriage return does not survive the echo round trip |
| Batching.PositionalMapDense | src/jobs/translate/translatePipeline.js:104-107 | on ids 0..n-1 the map's keys are exactly 0..n-1, and id `i` holds the `i`-th piece, or the segment's text where that piece is missing or empty |
| Batching.PositionalMapCoversIds | src/jobs/translate/5_reconstruct_translated_html.js:45 | whatever the ids, every segment's id is a key of the map |
| Batching.MissingPieces | src/jobs/translate/5_reconstruct_translated_html.js:39-44 | one warning per segment past the last piece, in index order, carrying its index and the first thirty code units of its text |
| Batching.MissingPiecesExactly | src/jobs/translate/5_reconstruct_translated_html.js:40-44 | a warning names index `idx` exactly when `idx` is at or past the number of pieces |
| Batching.EchoMapIsTextMap | src/jobs/translate/translatePipeline.js:104-107 | when the pieces are the segments' own non-empty texts, the positional map is the text map `getTranslationMap` builds |
| Pipeline.PipelineStages | src/jobs/translate/translatePipeline.js:25-83 | the run stops before locating segments exactly when there is no `<TEXT>` pair; the batch is the joined trimmed texts, and splitting it gives them back when there is at least one and none holds a carriage return or U+241F; it stops without a page exactly when the provider fails |
| Pipeline.PipelineReconstructs | src/jobs/translate/translatePipeline.js:98-109 | the page is rebuilt from the preprocessed body with segments located in the raw body, and every segment has a map entry |
| Pipeline.OrderedInOrder | src/jobs/translate/libs/parser.js:43-48 | ascending disjoint ranges that each recover their text are in order for the reference splice |
| Pipeline.EchoMap | src/jobs/translate/translatePipeline.js:94-107 | when the provider echoes the batch, the positional map equals `getTranslationMap`, also when there are no segments |
| Pipeline.PipelineEcho | src/jobs/translate/translatePipeline.js:25-109 | with an identity preprocessing pass and an echoing provider, the page is the body with each raw text replaced by its trimmed text, plus the charset line, with no warnings; with no segments the page is the body plus the charset line |
| Pipeline.ScriptWarnsForMissing | src/jobs/translate/5_reconstruct_translated_html.js:39-46 | the script warns exactly for indices past the last piece, and every segment gets a map entry |
| Pipeline.ScriptAgreesWithPipeline | src/jobs/translate/5_reconstruct_translated_html.js:28-49 | given the same preprocessed page, segments and raw translation as a pipeline run, the script computes that run's page and warnings |
| MeetingScheduler.Fire | src/cron/meetingScheduler.js:14-27 | a due meeting fires at its own index with its statement date as the update key |
| MeetingScheduler.ScanFrom | src/cron/meetingScheduler.js:11-28 | the scan fires the first due meeting from the start position, and is idle exactly when none is due |
| MeetingScheduler.RunScheduler | src/cron/meetingScheduler.js:11-28 | a run fires the first due meeting in list order, with that meeting's polls and new status, and does nothing exactly when no meeting is due |
| MeetingScheduler.ReadStatusText | src/cron/meetingScheduler.js:14-23 | a status reads back as the one written, and only texts other than the three known values are read as unknown |
| MeetingScheduler.UpdateStatusKeepsDates | src/db/meetingDates.js:38-48 | the update keeps every row's dates, and a later re-issue leaves the table as if only the later one had been issued, since it rewrites the same status and a newer `updated_at` |
| MeetingScheduler.FireAdvances | src/cron/meetingScheduler.js:14-26 | a fired meeting moves exactly one step along `pending → statement-fetched → done` |
| MeetingScheduler.FireBranches | src/cron/meetingScheduler.js:14-26 | the statement branch polls statement, implementation note and transcript, in that order, for the statement date; the minutes branch polls the minutes for the minutes date |
| MeetingScheduler.DoneIsTerminal | src/cron/meetingScheduler.js:14-23 | a `done` meeting, or one with any status off the path, is never due |
| MeetingScheduler.RunChangesAtMostOne | src/cron/meetingScheduler.js:11-28 | with distinct statement dates a run changes at most the first due meeting, which advances one step |
| MeetingScheduler.RunIsMonotone | src/cron/meetingScheduler.js:11-28 | with distinct statement dates no status moves backwards |
| MeetingScheduler.SharedKeyRewritesBoth | src/cron/meetingScheduler.js:19-25 | the update is keyed by statement date alone, so two rows sharing it are both rewritten and a `done` row can move back |
| MeetingScheduler.SecondRunSameDay | src/cron/meetingScheduler.js:14-27 | a second run on the same day fires the same meeting again only when its minutes date equals its statement date |
| PollingJob.PadCik | src/jobs/runPollingJob.js:27 | the CIK is left-padded with `0` to ten characters and left as is when already that long |
| PollingJob.PadCikIdempotent | src/jobs/runPollingJob.js:127 | padding again inside the link builder changes nothing |
| PollingJob.PadCikValue | src/jobs/runPollingJob.js:27 | a numeric CIK keeps its value after padding |
| PollingJob.RemoveDashesChars | src/jobs/runPollingJob.js:128 | exactly the dashes disappear from the accession number |
| PollingJob.RemoveDashesAppend | src/jobs/runPollingJob.js:128 | dash removal distributes over concatenation |
| PollingJob.AccessionDashes | src/jobs/runPollingJob.js:128 | an accession number `A-Y-N` becomes `AYN` |
| PollingJob.MakeLinkShape | src/jobs/runPollingJob.js:131 | the link is the archive prefix, the padded CIK, `/`, the dash-free accession number, `/`, and the document name (`undefined` when absent) |
| PollingJob.MakeLinkSplits | src/jobs/runPollingJob.js:124-132 | after the fixed prefix, the link splits on `/` into exactly the padded CIK, the dash-free accession number and the document name |
| PollingJob.FirstEightK | src/jobs/runPollingJob.js:66-80 | the chosen filing is the lowest index dated today whose form is `8-K` |
| PollingJob.DecidePollingFetch | src/jobs/runPollingJob.js:22-131 | the job fetches exactly when a CIK, a symbol, the index and its four arrays are present and today's first 8-K has an accession number; the accession number and the document both come from that filing |
| PollingJob.DecidePollingStops | src/jobs/runPollingJob.js:22-93 | the job stops for no CIK, no index, no filing dated today, or no accession number on today's first 8-K, each under its own condition |
| PollingJob.DecidePollingThrows | src/jobs/runPollingJob.js:59-129 | the job's `catch` ends it exactly on a missing `filingDate`, a missing `form` when a filing is dated today, a missing accession-number or document array when today's 8-K is read, or a NULL symbol when the link is built |
| FomcWrapper.DocumentTitleDistinguishes | src/jobs/fomc-translate/fomc-function.js:58-71 | the four known types get four distinct titles, none of them the generic one, and every other type gets the generic title |
| FomcWrapper.DigitPrefix | src/jobs/fomc-translate/fomc-function.js:76-77 | the digit run read by `parseInt` is the longest prefix of decimal digits |
| FomcWrapper.ParseIntNatText | src/jobs/fomc-translate/fomc-function.js:76-77 | `parseInt` reads a number's decimal text back as that number |
| FomcWrapper.TwoDigitField | src/jobs/fomc-translate/fomc-function.js:76-77 | a two-digit field reads as its decimal value and shows without a leading zero |
| FomcWrapper.FomcPageSlotted | src/jobs/fomc-translate/fomc-function.js:80-111 | the page template starts with the HTML5 doctype and has the title, heading and body slots in place |
| FomcWrapper.UnwrapWrap | src/jobs/fomc-translate/fomc-function.js:107-111 | the body is put into the page verbatim and can be cut back out unchanged |
| FomcWrapper.WrapUnwrap | src/jobs/fomc-translate/fomc-function.js:80-111 | every page that unwraps is the wrapping of what it unwraps to |
| FomcWrapper.WrapTitleSlot | src/jobs/fomc-translate/fomc-function.js:80-84 | the page starts with `<!DOCTYPE html>` and its `<title>` carries the heading |
| FomcWrapper.WrapHeadingSlot | src/jobs/fomc-translate/fomc-function.js:107-111 | the `<h1>` carries the same heading as the title, and the body sits verbatim between the heading line and the closing tags |
| FomcWrapper.HeadingOfDate | src/jobs/fomc-translate/fomc-function.js:74-84 | for an eight-digit date, the heading shows the year verbatim and the month and day without a leading zero, followed by the type's title |
| FomcWrapper.FallbackKeyDropsL | src/jobs/fomc-translate/fomc-function.js:148 | the fallback key is the original key minus the `l` of the first `.html` |
| FomcWrapper.FallbackKeyOfStem | src/jobs/fomc-translate/fomc-function.js:148 | a key `stem.html` with a dot-free stem falls back to `stem.htm` |
| FomcWrapper.TranslatedKey | src/jobs/fomc-translate/fomc-function.js:170 | the translated key ends in `.htm` |
| FomcWrapper.TranslatedKeySplits | src/jobs/fomc-translate/fomc-function.js:170 | under `fomc_files/ko/` the key splits into the type and the date's file name |
| FomcWrapper.TranslatedKeyInjective | src/jobs/fomc-translate/fomc-function.js:170 | distinct slash-free type/date pairs never share a translated key |
| FomcWrapper.TranslateAndUpload | src/jobs/fomc-translate/fomc-function.js:140-153 | at most two downloads are attempted |
| FomcWrapper.RetrySameKeyUploads | src/jobs/fetchAndProcessFomc.js:111-115 | for the key the caller passes, the fallback is the same key, and a first request that fails followed by a second that succeeds still ends in an upload |
| FomcWrapper.FallbackKeyOfHtm | src/jobs/fomc-translate/fomc-function.js:148 | a `.htm` key with no other dot holds no `.html`, so its fallback key is itself |
| FomcWrapper.PdfSkipped | src/jobs/fomc-translate/fomc-function.js:135-138 | a key ending in `.pdf` ends the flow before any download, with no upload |
| FomcWrapper.FallbackOnlyOnFailure | src/jobs/fomc-translate/fomc-function.js:142-153 | the original key is the first request, and the fallback key is the second request exactly when the first fails |
| FomcWrapper.UploadIff | src/jobs/fomc-translate/fomc-function.js:133-178 | an upload happens exactly when the key is not a PDF, the first request or else the second succeeded with an HTML content type, and the translation is non-empty |
| FomcWrapper.UploadContents | src/jobs/fomc-translate/fomc-function.js:163-171 | the upload goes under the translated key, and the translation can be cut back out of the stored page |

## Left out

- The markup parser (cheerio) is not modelled. Its loading and serialisation are replaced by the `Dom.Node` tree given alongside the source string, whose text data is the raw slice.
- `getParentInfo` is left out: its snapshot of the parent element is diagnostic and relies on the parser's serialiser.
- `positionMap` is created by the constructor and filled in `extractTextsWithPositions`, but nothing reads it, so it is not modelled.
- `debugInfo` and all console logging are left out. The reconstruction and missing-piece warnings are kept as event lists.
- The class constructor and `extractTextsWithPositions` only store state and return it. They are modelled by passing the source and the segment list explicitly (`Segmenter.FindTextPositions`).
- The preprocessing passes `removeDisplayNone` and `removeUselessTags` (src/jobs/translate/libs/preprocessor.js) are not modelled. They depend on the parser's re-serialisation, and `RunTranslatePipeline` takes the pass as a function parameter.
- File reads and writes of the intermediate artefacts are left out, and so is the JSON round trip of the parser object. Both are taken to return what was written, so the saved segments are the located ones.
- The DeepL requests are modelled as a function parameter that gives nothing on failure. `translateHtmlWithDeepL` itself is not modelled.
- S3 downloads and uploads, the upload URL and the database queries are left out. The database query is modelled only by the update it performs, `MeetingScheduler.UpdateStatus`.
- The scraping in `makeRealLink` and the `fetchAndProcessEarningDoc` call are left out. The model ends with the `makelink` archive link, which the job passes on as the referer link (`Fetch.refererLink`); the page link that `makeRealLink` scrapes from it is not modelled.
- Clock and calendar arithmetic is left out. This covers the `isBefore2pm` choice of today or yesterday and the `toISOString` date of the scheduler, so "today" is a parameter. The database's `NOW()` is a parameter too (`now`), and the stamp it writes is kept as opaque text.
- In `makelink`, the lower-cased symbol and the `format(date, "yyyyMMdd")` value are computed but never used in the link, so they are not modelled. Nor is any failure of that library call.
- Decoding the downloaded buffer as UTF-8 is left out: the download parameter yields text.
- The scheduler imports its database functions from `src/db/meetingModel`, which is not part of this model. The update is modelled on `updateMeetingStatus` in src/db/meetingDates.js, which issues the same `UPDATE … WHERE statementDate = ?`.
- Characters outside the Basic Multilingual Plane are left out. A Dafny `char` is a Unicode scalar value, so such a character is one `char` in the model but two UTF-16 code units in JavaScript. On such text the model's positions, `position + length` ranges, ten-unit context windows, thirty-unit previews and checksums all differ from the program's.
- `toLowerCase` and the `/i` flag are modelled by ASCII case folding, which agrees with them on the ASCII keywords the engine compares against (`script`, `<head`, `<TEXT>`). Non-ASCII case mappings are not modelled.
- Reconstructor.ReplayIsWoven: the whole-pass characterisation is stated only for segments in ascending disjoint ranges that recover their text. For other segment lists, only the per-segment lemmas (`ApplySkipped`, `ApplyVerified`, `ApplyUnverified`) describe a turn.
- Batching.BatchRoundTrip: requires that no piece holds a carriage return or U+241F, which is stronger than "no sentinel and no CRLF". `Batching.CrBeforeSentinelIsLost` shows that a trailing carriage return is lost, but the pipeline's pieces are trimmed texts and never end in one. For them the loss that matters is an inner CRLF, which normalisation turns into a line feed (`Batching.NormalizeCrlfIsSplitJoin`). A piece may contain the sentinel's other characters.
- Pipeline.ScriptAgreesWithPipeline: holds only when the script is given the pipeline's files. It reads `./data/DHR_20250722_clean.html`, `./data/DHR_20250722_parser.json` and `./data/DHR_20250722_translated.txt`, with the base name fixed in the script (5_reconstruct_translated_html.js:6-12). The pipeline writes `data/preprocessed/<base>_clean.html`, `data/segments/<base>_parser.json` and `data/translations/<base>_translated.txt` (translatePipeline.js:37, 46, 85). So the script reads a run's output only after the files are copied there, and only for that base name. The lemma takes its inputs as given and does not model the paths.
- FomcWrapper.ParseInt: values beyond 2^53 are kept exact, whereas JavaScript numbers lose precision there. The date fields are two digits, so this never arises.
- MeetingScheduler.RunScheduler: the model assumes that `statementDate` and `minutesDate` arrive as `yyyy-MM-dd` text, which `===` can find equal to today's date. The rows come from `SELECT *` on a connection pool that sets no `dateStrings` option. If those columns are SQL `DATE` columns, the driver yields date objects, no comparison with a string ever holds, and the scheduler never fires. The table schema is not part of this model.
- PollingJob.DecidePolling: the CIK column is taken as text, with an empty value as missing. A numeric `0`, which the job would also treat as missing, is not distinguished from the text `"0"`.
- PollingJob.DecidePolling: `makeRealLink` and `fetchAndProcessEarningDoc` can also throw, and the job then returns `false`; the model ends at the `Fetch` decision and does not model those failures.
- PollingJob.Filings: array elements are taken as strings; an accession number of another type, whose `replace` call would throw, is not modelled.

=== FILE: batching.dfy ===
/**
 * The string glue around the translator: cutting the `<TEXT>` body out of a
 * filing, joining the segment texts into one batch with a sentinel line,
 * normalising the returned blob's line endings and splitting it back, and
 * the positional id-to-translation map with its missing-piece warnings.
 */
module Batching {
  import opened JsStrings
  import opened Segments

  /** The batch separator: a blank line, the SYMBOL FOR UNIT SEPARATOR, and
      another blank line. */
  const Sentinel: string := "\n\n\U{241F}\n\n"

  const SentinelMark: char := '\U{241F}'

  /** The separator is pinned down by its third character. */
  lemma SentinelMarked()
    ensures MarksSeparator(Sentinel, 2, SentinelMark)
  {
  }

  // ---------------------------------------------------------------------
  // The <TEXT> body
  // ---------------------------------------------------------------------

  /** Where `/<TEXT>([\s\S]*?)<\/TEXT>/i` matches: the first case-insensitive
      `<TEXT>`, and the nearest `</TEXT>` after it. A later `<TEXT>` could
      only close on a `</TEXT>` the first one also reaches, so the first one
      decides. */
  function FindTextBlock(raw: string): (r: Option<(nat, nat)>)
    ensures r.Some? ==> BlockAt(raw, r.value.0, r.value.1)
    ensures r.None? <==> TextUnclosed(raw)
  {
    match IndexOfIgnoreCase(raw, "<TEXT>", 0)
    case None => None
    case Some(k) =>
      match IndexOfIgnoreCase(raw, "</TEXT>", k + 6)
      case None => None
      case Some(e) => Some((k, e))
  }

  /** No `<TEXT>` is followed by a `</TEXT>`. */
  ghost predicate TextUnclosed(raw: string) {
    forall k, e :: OccursAtIgnoreCase(raw, "<TEXT>", k) && k + 6 <= e ==> !OccursAtIgnoreCase(raw, "</TEXT>", e)
  }

  /** The first `<TEXT>` is at `k` and the nearest `</TEXT>` after it at `e`. */
  ghost predicate BlockAt(raw: string, k: nat, e: nat) {
    && OccursAtIgnoreCase(raw, "<TEXT>", k)
    && (forall j :: 0 <= j < k ==> !OccursAtIgnoreCase(raw, "<TEXT>", j))
    && k + 6 <= e && OccursAtIgnoreCase(raw, "</TEXT>", e)
    && (forall j :: k + 6 <= j < e ==> !OccursAtIgnoreCase(raw, "</TEXT>", j))
  }

  /** The captured group of `/<TEXT>([\s\S]*?)<\/TEXT>/i`: there is none
      exactly when no `<TEXT>` is followed by a `</TEXT>`; otherwise the body
      starts right after the first `<TEXT>`, is followed by a `</TEXT>`, and
      no `</TEXT>` starts inside it (the lazy match). */
  function ExtractTextBody(raw: string): (r: Option<string>)
    ensures r.None? <==> TextUnclosed(raw)
    ensures r.Some? ==> exists k :: BodyAt(raw, k, r.value)
  {
    match FindTextBlock(raw)
    case None => None
    case Some((k, e)) =>
      BlockBody(raw, k, e);
      Some(raw[k + 6..e])
  }

  /** The text between a block's tags is its lazy capture. */
  lemma BlockBody(raw: string, k: nat, e: nat)
    requires BlockAt(raw, k, e)
    ensures e <= |raw| && BodyAt(raw, k, raw[k + 6..e])
  {
  }

  /** `body` is the lazy capture of a `<TEXT>` block opened by the first
      `<TEXT>` at `k`: it follows that tag, is followed by `</TEXT>`, and no
      `</TEXT>` starts inside it. */
  predicate BodyAt(raw: string, k: nat, body: string) {
    && OccursAtIgnoreCase(raw, "<TEXT>", k)
    && (forall j :: 0 <= j < k ==> !OccursAtIgnoreCase(raw, "<TEXT>", j))
    && k + 6 + |body| <= |raw| && raw[k + 6..k + 6 + |body|] == body
    && OccursAtIgnoreCase(raw, "</TEXT>", k + 6 + |body|)
    && (forall j :: k + 6 <= j < k + 6 + |body| ==> !OccursAtIgnoreCase(raw, "</TEXT>", j))
  }

  // ---------------------------------------------------------------------
  // Join, normalise, split
  // ---------------------------------------------------------------------

  /** The batch sent for translation: the segments' trimmed texts in list
      order, joined by the sentinel. */
  function SegmentTexts(segs: seq<Segment>): (r: seq<string>)
    ensures |r| == |segs|
    ensures forall i :: 0 <= i < |segs| ==> r[i] == segs[i].text
  {
    seq(|segs|, i requires 0 <= i < |segs| => segs[i].text)
  }

  function BatchText(segs: seq<Segment>): string {
    Join(SegmentTexts(segs), Sentinel)
  }

  /** `s.replaceAll("\r\n", "\n")`, scanning left to right. */
  function NormalizeCrlf(s: string): (r: string)
    ensures |r| <= |s|
    decreases |s|
  {
    if |s| >= 2 && s[0] == '\r' && s[1] == '\n' then "\n" + NormalizeCrlf(s[2..])
    else if |s| == 0 then []
    else [s[0]] + NormalizeCrlf(s[1..])
  }

  /** Normalisation leaves a string alone exactly when it holds no CRLF. */
  lemma {:induction false} NormalizeCrlfIdentityIff(s: string)
    ensures NormalizeCrlf(s) == s <==> forall k :: !OccursAt(s, "\r\n", k)
    decreases |s|
  {
    if |s| >= 2 && s[0] == '\r' && s[1] == '\n' {
      assert OccursAt(s, "\r\n", 0) by { assert s[0..2] == "\r\n"; }
      assert |NormalizeCrlf(s)| < |s|;
    } else if |s| > 0 {
      var t := s[1..];
      NormalizeCrlfIdentityIff(t);
      assert !OccursAt(s, "\r\n", 0) by {
        if |s| >= 2 { assert s[0..2] == [s[0], s[1]]; }
      }
      forall k | 0 <= k ensures OccursAt(s, "\r\n", k + 1) <==> OccursAt(t, "\r\n", k) {
        if k + 3 <= |s| { assert s[k + 1..k + 3] == t[k..k + 2]; }
      }
      if forall k :: !OccursAt(s, "\r\n", k) {
        assert forall k :: !OccursAt(t, "\r\n", k) by {
          forall k | 0 <= k ensures !OccursAt(t, "\r\n", k) {
            assert !OccursAt(s, "\r\n", k + 1);
          }
        }
      }
      if NormalizeCrlf(s) == s {
        assert NormalizeCrlf(t) == t;
        forall k | 0 <= k ensures !OccursAt(s, "\r\n", k) {
          if k > 0 { assert !OccursAt(t, "\r\n", k - 1); }
        }
      }
    }
  }

  /** `replaceAll` with a string pattern is splitting on the pattern and
      joining with the replacement: every CRLF, taken leftmost first, becomes
      a line feed. */
  lemma {:induction false} NormalizeCrlfIsSplitJoin(s: string)
    ensures NormalizeCrlf(s) == Join(Split(s, "\r\n"), "\n")
    decreases |s|
  {
    var crlf: string := "\r\n";
    match IndexOf(s, crlf, 0)
    case None =>
      assert Split(s, crlf) == [s];
      NormalizeCrlfIdentityIff(s);
    case Some(k) =>
      var tail := s[k + 2..];
      var rest := Split(tail, crlf);
      assert Split(s, crlf) == [s[..k]] + rest;
      NormalizeCrlfIsSplitJoin(tail);
      JoinCons(s[..k], rest, "\n");
      CutAtCrlf(s, k);
  }

  /** Normalising cuts at the first CRLF: what precedes it is copied, the
      CRLF becomes a line feed, and the rest is normalised. */
  lemma CutAtCrlf(s: string, k: nat)
    requires IndexOf(s, "\r\n", 0) == Some(k)
    ensures NormalizeCrlf(s) == s[..k] + "\n" + NormalizeCrlf(s[k + 2..])
  {
    var crlf: string := "\r\n";
    assert OccursAt(s, crlf, k);
    assert s[k] == '\r' && s[k + 1] == '\n' by {
      assert s[k..k + 2][0] == s[k] && s[k..k + 2][1] == s[k + 1];
    }
    NormalizeAfterClean(s, k);
    var u := s[k..];
    assert u[2..] == s[k + 2..];
  }

  /** Scanning a prefix in which no CRLF starts copies it through. */
  lemma {:induction false} NormalizeAfterClean(s: string, k: nat)
    requires k <= |s|
    requires forall j :: 0 <= j < k ==> !OccursAt(s, "\r\n", j)
    ensures NormalizeCrlf(s) == s[..k] + NormalizeCrlf(s[k..])
    decreases k
  {
    if k == 0 {
      assert s[..0] + NormalizeCrlf(s[0..]) == NormalizeCrlf(s);
    } else {
      NormalizeCopies(s);
      var t := s[1..];
      CleanShifts(s, k);
      NormalizeAfterClean(t, k - 1);
      assert t[..k - 1] == s[1..k] && t[k - 1..] == s[k..];
      calc {
        NormalizeCrlf(s);
        [s[0]] + NormalizeCrlf(t);
        [s[0]] + (s[1..k] + NormalizeCrlf(s[k..]));
        { assert s[..k] == [s[0]] + s[1..k]; }
        s[..k] + NormalizeCrlf(s[k..]);
      }
    }
  }

  /** Where no CRLF starts, the first character is copied. */
  lemma NormalizeCopies(s: string)
    requires |s| > 0 && !OccursAt(s, "\r\n", 0)
    ensures NormalizeCrlf(s) == [s[0]] + NormalizeCrlf(s[1..])
  {
  }

  /** A CRLF-free prefix stays CRLF-free, one shorter, after the first
      character is dropped. */
  lemma CleanShifts(s: string, k: nat)
    requires 0 < k <= |s|
    requires forall j :: 0 <= j < k ==> !OccursAt(s, "\r\n", j)
    ensures forall j :: 0 <= j < k - 1 ==> !OccursAt(s[1..], "\r\n", j)
  {
    forall j | 0 <= j < k - 1 ensures !OccursAt(s[1..], "\r\n", j) {
      OccursShift(s, "\r\n", j);
    }
  }

  /** An occurrence after the first character is an occurrence one place
      further on in the whole string. */
  lemma OccursShift(s: string, pat: string, j: nat)
    requires |s| > 0
    ensures OccursAt(s[1..], pat, j) ==> OccursAt(s, pat, j + 1)
  {
    if j + |pat| <= |s[1..]| {
      assert s[1..][j..j + |pat|] == s[j + 1..j + 1 + |pat|];
    }
  }

  /** A string without carriage returns is left alone. */
  lemma {:induction false} NormalizeWithoutCr(s: string)
    requires '\r' !in s
    ensures NormalizeCrlf(s) == s
    decreases |s|
  {
    if |s| > 0 {
      assert s[0] in s;
      assert forall c :: c in s[1..] ==> c in s;
      NormalizeWithoutCr(s[1..]);
    }
  }

  /** The replacement is a single pass: a carriage return in front of a CRLF
      becomes a new CRLF, so a second pass changes the string again. */
  lemma NormalizeNotIdempotent()
    ensures NormalizeCrlf("\r\r\n") == "\r\n"
    ensures NormalizeCrlf(NormalizeCrlf("\r\r\n")) == "\n"
  {
    var s: string := "\r\r\n";
    assert s[1..] == "\r\n";
    assert NormalizeCrlf(s[1..][2..]) == [];
    assert NormalizeCrlf(s[1..]) == "\n";
    var u: string := "\r\n";
    assert NormalizeCrlf(u[2..]) == [];
  }

  /** The response cut back into pieces. */
  function SplitTranslation(translated: string): (pieces: seq<string>)
    ensures |pieces| >= 1
  {
    Split(NormalizeCrlf(translated), Sentinel)
  }

  /** Characters of a joined string come from the pieces or the separator. */
  lemma {:induction false} JoinChars(pieces: seq<string>, sep: string, c: char)
    requires c in Join(pieces, sep)
    ensures c in sep || exists i :: 0 <= i < |pieces| && c in pieces[i]
    decreases |pieces|
  {
    if |pieces| > 1 {
      var rest := Join(pieces[1..], sep);
      if c !in pieces[0] && c !in sep {
        assert c in rest;
        JoinChars(pieces[1..], sep, c);
        var i :| 0 <= i < |pieces[1..]| && c in pieces[1..][i];
        assert pieces[i + 1] == pieces[1..][i];
      }
    }
  }

  /** Pieces the sentinel can be told apart from. */
  predicate SafePiece(p: string) {
    SentinelMark !in p && '\r' !in p
  }

  /** When the provider hands the batch back unchanged, splitting gives back
      exactly the pieces, provided none holds a carriage return or the
      separator symbol and there is at least one. */
  lemma BatchRoundTrip(pieces: seq<string>)
    requires |pieces| >= 1
    requires forall i :: 0 <= i < |pieces| ==> SafePiece(pieces[i])
    ensures SplitTranslation(Join(pieces, Sentinel)) == pieces
  {
    var joined := Join(pieces, Sentinel);
    SafeJoinHasNoCr(pieces);
    NormalizeWithoutCr(joined);
    SentinelMarked();
    SplitJoin(pieces, Sentinel, 2, SentinelMark);
  }

  lemma SafeJoinHasNoCr(pieces: seq<string>)
    requires forall i :: 0 <= i < |pieces| ==> SafePiece(pieces[i])
    ensures '\r' !in Join(pieces, Sentinel)
  {
    if '\r' in Join(pieces, Sentinel) {
      JoinChars(pieces, Sentinel, '\r');
    }
  }

  /** A carriage return is not safe: the piece "a\r" is split back as "a",
      because the carriage return and the separator's first newline are
      normalised into one newline. */
  lemma CrBeforeSentinelIsLost()
    ensures SplitTranslation(Join(["a\r", "b"], Sentinel)) != ["a\r", "b"]
  {
    var pieces: seq<string> := ["a\r", "b"];
    var joined := Join(pieces, Sentinel);
    assert pieces[1..] == ["b"];
    assert joined == "a\r\n\n\U{241F}\n\nb";
    var normal := NormalizeCrlf(joined);
    var pieces2 := SplitTranslation(joined);
    assert forall i :: 0 <= i < |pieces2| ==> IndexOf(pieces2[i], Sentinel, 0).None?;
    assert |normal| < |joined| by {
      assert joined[1..][0] == '\r' && joined[1..][1] == '\n';
      assert NormalizeCrlf(joined[1..]) == "\n" + NormalizeCrlf(joined[1..][2..]);
    }
    assert Join(pieces2, Sentinel) == normal;
  }

  // ---------------------------------------------------------------------
  // The positional translation map
  // ---------------------------------------------------------------------

  /** `pieces[idx] || fallback`: an absent or empty piece falls back. */
  function PieceOr(pieces: seq<string>, idx: nat, fallback: string): (r: string)
    ensures idx < |pieces| && pieces[idx] != [] ==> r == pieces[idx]
    ensures idx >= |pieces| || pieces[idx] == [] ==> r == fallback
  {
    if idx < |pieces| && pieces[idx] != [] then pieces[idx] else fallback
  }

  /** The values the `forEach` writes, in list order. */
  function PositionalValues(segs: seq<Segment>, pieces: seq<string>): (r: seq<string>)
    ensures |r| == |segs|
    ensures forall i :: 0 <= i < |segs| ==> r[i] == PieceOr(pieces, i, segs[i].text)
  {
    seq(|segs|, i requires 0 <= i < |segs| => PieceOr(pieces, i, segs[i].text))
  }

  /** `translationMap[seg.id] = pieces[idx] || seg.text`. */
  function PositionalMap(segs: seq<Segment>, pieces: seq<string>): map<int, string> {
    MapById(segs, PositionalValues(segs, pieces))
  }

  /** Every segment gets an entry; with ids 0..n-1 the entry for `i` is the
      `i`-th piece, or the segment's own text where that piece is missing or
      empty. */
  lemma PositionalMapDense(segs: seq<Segment>, pieces: seq<string>)
    requires DenseIds(segs)
    ensures forall k :: k in PositionalMap(segs, pieces) <==> 0 <= k < |segs|
    ensures forall i :: 0 <= i < |segs| && i < |pieces| && pieces[i] != [] ==> PositionalMap(segs, pieces)[i] == pieces[i]
    ensures forall i :: 0 <= i < |segs| && (i >= |pieces| || pieces[i] == []) ==> PositionalMap(segs, pieces)[i] == segs[i].text
  {
    MapByIdDense(segs, PositionalValues(segs, pieces));
  }

  /** Whatever the ids, every segment's id is a key. */
  lemma PositionalMapCoversIds(segs: seq<Segment>, pieces: seq<string>)
    ensures forall i :: 0 <= i < |segs| ==> segs[i].id in PositionalMap(segs, pieces)
  {
    MapByIdContents(segs, PositionalValues(segs, pieces));
  }

  /** One missing-translation warning: the index and the first thirty code
      units of the segment's text. */
  datatype MissingPiece = MissingPiece(index: nat, preview: string)

  /** The warnings the `forEach` emits, in index order: one for each index
      whose piece is undefined. */
  function MissingPieces(segs: seq<Segment>, pieces: seq<string>): (r: seq<MissingPiece>)
    ensures |r| == if |segs| > |pieces| then |segs| - |pieces| else 0
    ensures forall k :: 0 <= k < |r| ==>
      var idx := |pieces| + k;
      r[k] == MissingPiece(idx, Slice(segs[idx].text, 0, 30))
    decreases |segs|
  {
    if |segs| == 0 then []
    else
      var n := |segs| - 1;
      var prior := MissingPieces(segs[..n], pieces);
      assert forall i :: 0 <= i < n ==> segs[..n][i] == segs[i];
      if n < |pieces| then prior else prior + [MissingPiece(n, Slice(segs[n].text, 0, 30))]
  }

  /** Some warning names index `idx`. */
  predicate Warned(missing: seq<MissingPiece>, idx: int) {
    exists k :: 0 <= k < |missing| && missing[k].index == idx
  }

  /** A warning names an index exactly when that index has no piece. */
  lemma MissingPiecesExactly(segs: seq<Segment>, pieces: seq<string>)
    ensures forall idx :: 0 <= idx < |segs| ==> (Warned(MissingPieces(segs, pieces), idx) <==> idx >= |pieces|)
  {
    var r := MissingPieces(segs, pieces);
    forall idx | 0 <= idx < |segs| ensures Warned(r, idx) <==> idx >= |pieces| {
      if idx >= |pieces| {
        var k := idx - |pieces|;
        assert 0 <= k < |r| && r[k].index == idx;
      } else {
        forall k | 0 <= k < |r| ensures r[k].index != idx {
          assert r[k].index == |pieces| + k;
        }
      }
    }
  }

  /** The echo case: pieces equal to the segment texts give back the map
      `getTranslationMap` builds, provided no text is empty. */
  lemma EchoMapIsTextMap(segs: seq<Segment>)
    requires forall i :: 0 <= i < |segs| ==> segs[i].text != []
    ensures PositionalMap(segs, SegmentTexts(segs)) == MapById(segs, SegmentTexts(segs))
  {
    assert PositionalValues(segs, SegmentTexts(segs)) == SegmentTexts(segs);
  }
}

=== FILE: dom.dfy ===
/**
 * The parsed document the segmenter walks. The markup parser itself is not
 * modelled: a document is given as its root's child list, and because the
 * parser runs with entity decoding switched off, a text node's data is the
 * raw slice of the source it came from.
 */
module Dom {
  import opened JsStrings

  datatype Node =
    | Text(data: string)
    /** An element the parser reports with node type "tag". */
    | Tag(name: string, children: seq<Node>)
    /** Every other node kind: comments, directives, CDATA sections, and the
        script and style elements the parser types on their own. */
    | Other(children: seq<Node>)

  /** Elements whose content is never rendered as prose; compared without
      regard to letter case. */
  predicate IsExcludedTag(name: string) {
    var n := LowerAsciiString(name);
    n == "script" || n == "style" || n == "noscript" || n == "template"
  }

  /** What the walk reports for one child: a text node's data, the walk of
      a "tag" child that is not excluded, and nothing for anything else. */
  function VisitedNode(n: Node): seq<string>
    decreases n
  {
    match n
    case Text(d) => [d]
    case Tag(name, kids) => if IsExcludedTag(name) then [] else VisitedTexts(kids)
    case Other(_) => []
  }

  /** The data of the text nodes the walk hands to its callback, in document
      order. */
  function VisitedTexts(nodes: seq<Node>): seq<string>
    decreases nodes
  {
    if |nodes| == 0 then [] else VisitedNode(nodes[0]) + VisitedTexts(nodes[1..])
  }

  /** The walk over a child list is the walk over each part in turn. */
  lemma {:induction false} VisitedTextsAppend(a: seq<Node>, b: seq<Node>)
    ensures VisitedTexts(a + b) == VisitedTexts(a) + VisitedTexts(b)
    decreases |a|
  {
    if |a| == 0 {
      assert a + b == b;
    } else {
      assert (a + b)[0] == a[0];
      assert (a + b)[1..] == a[1..] + b;
      VisitedTextsAppend(a[1..], b);
    }
  }

  /** Whatever an excluded element holds, it contributes nothing to the walk:
      the document reads as if the element were absent. */
  lemma ExcludedSubtreeIsSilent(before: seq<Node>, name: string, kids: seq<Node>, after: seq<Node>)
    requires IsExcludedTag(name)
    ensures VisitedTexts(before + [Tag(name, kids)] + after) == VisitedTexts(before) + VisitedTexts(after)
  {
    var t := [Tag(name, kids)];
    assert VisitedNode(t[0]) == [];
    assert t[1..] == [];
    assert VisitedTexts(t) == [];
    VisitedTextsAppend(before + t, after);
    VisitedTextsAppend(before, t);
    assert VisitedTexts(before + t) == VisitedTexts(before);
  }

  /** The same holds for comments, directives and the other non-"tag" nodes. */
  lemma OtherNodeIsSilent(before: seq<Node>, kids: seq<Node>, after: seq<Node>)
    ensures VisitedTexts(before + [Other(kids)] + after) == VisitedTexts(before) + VisitedTexts(after)
  {
    var t := [Other(kids)];
    assert VisitedNode(t[0]) == [];
    assert t[1..] == [];
    assert VisitedTexts(t) == [];
    VisitedTextsAppend(before + t, after);
    VisitedTextsAppend(before, t);
    assert VisitedTexts(before + t) == VisitedTexts(before);
  }
}

=== FILE: escape.dfy ===
/**
 * The HTML escaper the segmenter falls back on when a text node's raw data
 * cannot be found in the source: five global replacements, `&` first.
 */
module Escape {

  /** `s.replace(/c/g, rep)` for a one-character pattern. */
  function ReplaceAllChar(s: string, c: char, rep: string): string
    decreases |s|
  {
    if |s| == 0 then []
    else (if s[0] == c then rep else [s[0]]) + ReplaceAllChar(s[1..], c, rep)
  }

  /** The five-pass escaper, in the order the passes run. */
  function EscapeHtml(s: string): string {
    ReplaceAllChar(
      ReplaceAllChar(
        ReplaceAllChar(
          ReplaceAllChar(
            ReplaceAllChar(s, '&', "&amp;"),
            '<', "&lt;"),
          '>', "&gt;"),
        '"', "&quot;"),
      '\'', "&#x27;")
  }

  /** The characters the escaper rewrites into references. */
  predicate IsSpecial(c: char) {
    c == '&' || c == '<' || c == '>' || c == '"' || c == '\''
  }

  /** The characters that never survive escaping. */
  predicate IsMarkupChar(c: char) {
    c == '<' || c == '>' || c == '"' || c == '\''
  }

  /** The character references one character escapes to. */
  function EscapeChar(c: char): string {
    if c == '&' then "&amp;"
    else if c == '<' then "&lt;"
    else if c == '>' then "&gt;"
    else if c == '"' then "&quot;"
    else if c == '\'' then "&#x27;"
    else [c]
  }

  /** Reference escaper: every character escaped on its own, left to right. */
  function EscapeEach(s: string): (r: string)
    ensures |r| >= |s|
    ensures forall i :: 0 <= i < |r| ==> !IsMarkupChar(r[i])
    ensures (forall i :: 0 <= i < |s| ==> !IsSpecial(s[i])) ==> r == s
    decreases |s|
  {
    if |s| == 0 then [] else EscapeChar(s[0]) + EscapeEach(s[1..])
  }

  lemma {:induction false} ReplaceAllCharAppend(a: string, b: string, c: char, rep: string)
    ensures ReplaceAllChar(a + b, c, rep) == ReplaceAllChar(a, c, rep) + ReplaceAllChar(b, c, rep)
    decreases |a|
  {
    if |a| == 0 {
      assert a + b == b;
    } else {
      assert (a + b)[0] == a[0];
      assert (a + b)[1..] == a[1..] + b;
      ReplaceAllCharAppend(a[1..], b, c, rep);
    }
  }

  lemma EscapeHtmlAppend(a: string, b: string)
    ensures EscapeHtml(a + b) == EscapeHtml(a) + EscapeHtml(b)
  {
    var a1, b1 := ReplaceAllChar(a, '&', "&amp;"), ReplaceAllChar(b, '&', "&amp;");
    ReplaceAllCharAppend(a, b, '&', "&amp;");
    var a2, b2 := ReplaceAllChar(a1, '<', "&lt;"), ReplaceAllChar(b1, '<', "&lt;");
    ReplaceAllCharAppend(a1, b1, '<', "&lt;");
    var a3, b3 := ReplaceAllChar(a2, '>', "&gt;"), ReplaceAllChar(b2, '>', "&gt;");
    ReplaceAllCharAppend(a2, b2, '>', "&gt;");
    var a4, b4 := ReplaceAllChar(a3, '"', "&quot;"), ReplaceAllChar(b3, '"', "&quot;");
    ReplaceAllCharAppend(a3, b3, '"', "&quot;");
    ReplaceAllCharAppend(a4, b4, '\'', "&#x27;");
  }

  /** A replacement pass leaves a string without its character alone. */
  lemma {:induction false} ReplaceAbsent(s: string, c: char, rep: string)
    requires c !in s
    ensures ReplaceAllChar(s, c, rep) == s
    decreases |s|
  {
    if |s| > 0 {
      assert s[0] in s;
      assert forall x :: x in s[1..] ==> x in s;
      ReplaceAbsent(s[1..], c, rep);
    }
  }

  lemma ReplaceSingle(c: char, x: char, rep: string)
    ensures ReplaceAllChar([c], x, rep) == if c == x then rep else [c]
  {
    assert [c][1..] == [];
  }

  lemma EscapeHtmlChar(c: char)
    ensures EscapeHtml([c]) == EscapeChar(c)
  {
    var p1 := ReplaceAllChar([c], '&', "&amp;");
    ReplaceSingle(c, '&', "&amp;");
    if c == '&' {
      LaterPassesKeep(p1);
    } else {
      assert p1 == [c];
      EscapeHtmlNonAmpersand(c);
    }
  }

  lemma EscapeHtmlNonAmpersand(c: char)
    requires c != '&'
    ensures ReplaceAllChar(ReplaceAllChar(ReplaceAllChar(ReplaceAllChar([c], '<', "&lt;"), '>', "&gt;"), '"', "&quot;"), '\'', "&#x27;") == EscapeChar(c)
  {
    var p2 := ReplaceAllChar([c], '<', "&lt;");
    ReplaceSingle(c, '<', "&lt;");
    if c == '<' {
      PassesFromGtKeep(p2);
    } else {
      assert p2 == [c];
      var p3 := ReplaceAllChar(p2, '>', "&gt;");
      ReplaceSingle(c, '>', "&gt;");
      if c == '>' {
        PassesFromQuoteKeep(p3);
      } else {
        assert p3 == [c];
        var p4 := ReplaceAllChar(p3, '"', "&quot;");
        ReplaceSingle(c, '"', "&quot;");
        if c == '"' {
          ReplaceAbsent(p4, '\'', "&#x27;");
        } else {
          assert p4 == [c];
          ReplaceSingle(c, '\'', "&#x27;");
        }
      }
    }
  }

  /** What the first pass writes is not touched by the later ones. */
  lemma LaterPassesKeep(s: string)
    requires '<' !in s && '>' !in s && '"' !in s && '\'' !in s
    ensures ReplaceAllChar(ReplaceAllChar(ReplaceAllChar(ReplaceAllChar(s, '<', "&lt;"), '>', "&gt;"), '"', "&quot;"), '\'', "&#x27;") == s
  {
    ReplaceAbsent(s, '<', "&lt;");
    PassesFromGtKeep(s);
  }

  lemma PassesFromGtKeep(s: string)
    requires '>' !in s && '"' !in s && '\'' !in s
    ensures ReplaceAllChar(ReplaceAllChar(ReplaceAllChar(s, '>', "&gt;"), '"', "&quot;"), '\'', "&#x27;") == s
  {
    ReplaceAbsent(s, '>', "&gt;");
    PassesFromQuoteKeep(s);
  }

  lemma PassesFromQuoteKeep(s: string)
    requires '"' !in s && '\'' !in s
    ensures ReplaceAllChar(ReplaceAllChar(s, '"', "&quot;"), '\'', "&#x27;") == s
  {
    ReplaceAbsent(s, '"', "&quot;");
    ReplaceAbsent(s, '\'', "&#x27;");
  }

  /** Five global passes amount to escaping every character on its own; in
      particular escaping never shortens a string, removes every `<`, `>`, `"`
      and `'`, and leaves a string without the five characters unchanged. */
  lemma {:induction false} EscapeHtmlPerChar(s: string)
    ensures EscapeHtml(s) == EscapeEach(s)
    decreases |s|
  {
    if |s| > 0 {
      assert s == [s[0]] + s[1..];
      EscapeHtmlAppend([s[0]], s[1..]);
      EscapeHtmlChar(s[0]);
      EscapeHtmlPerChar(s[1..]);
    }
  }

  /** Reference decoder for the five references the escaper emits; any other
      ampersand is kept as it stands. */
  function UnescapeHtml(s: string): string
    decreases |s|
  {
    if |s| == 0 then []
    else if s[0] != '&' then [s[0]] + UnescapeHtml(s[1..])
    else if |s| >= 5 && s[..5] == "&amp;" then "&" + UnescapeHtml(s[5..])
    else if |s| >= 4 && s[..4] == "&lt;" then "<" + UnescapeHtml(s[4..])
    else if |s| >= 4 && s[..4] == "&gt;" then ">" + UnescapeHtml(s[4..])
    else if |s| >= 6 && s[..6] == "&quot;" then "\"" + UnescapeHtml(s[6..])
    else if |s| >= 6 && s[..6] == "&#x27;" then "'" + UnescapeHtml(s[6..])
    else "&" + UnescapeHtml(s[1..])
  }

  /** Decoding one reference in front of `rest`: the decoder recognises it
      by its second character and skips exactly its length. */
  lemma {:induction false} UnescapeRef(ref: string, c: char, rest: string)
    requires (ref, c) in {("&amp;", '&'), ("&lt;", '<'), ("&gt;", '>'), ("&quot;", '"'), ("&#x27;", '\'')}
    ensures UnescapeHtml(ref + rest) == [c] + UnescapeHtml(rest)
  {
    var e := ref + rest;
    assert e[..|ref|] == ref;
    assert e[|ref|..] == rest;
    assert e[0] == '&' && e[1] == ref[1];
  }

  lemma {:induction false} UnescapeHead(c: char, rest: string)
    ensures UnescapeHtml(EscapeChar(c) + rest) == [c] + UnescapeHtml(rest)
  {
    var ref := EscapeChar(c);
    if IsSpecial(c) {
      UnescapeRef(ref, c, rest);
    } else {
      var e := ref + rest;
      assert e[0] == c && e[1..] == rest;
    }
  }

  /** Escaping loses nothing: decoding the five references gives the text back. */
  lemma {:induction false} UnescapeEscape(s: string)
    ensures UnescapeHtml(EscapeHtml(s)) == s
    decreases |s|
  {
    EscapeHtmlPerChar(s);
    UnescapeEscapeEach(s);
  }

  lemma {:induction false} UnescapeEscapeEach(s: string)
    ensures UnescapeHtml(EscapeEach(s)) == s
    decreases |s|
  {
    if |s| > 0 {
      UnescapeHead(s[0], EscapeEach(s[1..]));
      UnescapeEscapeEach(s[1..]);
      assert s == [s[0]] + s[1..];
    }
  }
}

=== FILE: fomc_wrapper.dfy ===
/**
 * The Korean page the translated FOMC document is wrapped in, the title for
 * each document type, the storage keys, and the order of the steps that turn
 * an original document into an uploaded translation.
 */
module FomcWrapper {
  import opened JsStrings

  // ---------------------------------------------------------------------
  // Titles
  // ---------------------------------------------------------------------

  const StatementTitle: string := "\U{D1B5}\U{D654} \U{C815}\U{CC45} \U{C131}\U{BA85}\U{C11C}"
  const MinutesTitle: string := "\U{C758}\U{C0AC}\U{B85D} \U{C694}\U{C57D}"
  const ImplementationNoteTitle: string := "\U{D1B5}\U{D654}\U{C815}\U{CC45} \U{C2DC}\U{D589} \U{BB38}\U{C11C}"
  const TranscriptTitle: string := "\U{D68C}\U{C758}\U{B85D} \U{C804}\U{CCB4} (Transcript)"
  const DefaultTitle: string := "FOMC \U{BB38}\U{C11C}"

  /** `getDocumentTitleByType`. */
  function DocumentTitle(docType: string): string {
    if docType == "statement" then StatementTitle
    else if docType == "minutes" then MinutesTitle
    else if docType == "implementation_note" then ImplementationNoteTitle
    else if docType == "transcript" then TranscriptTitle
    else DefaultTitle
  }

  /** The four known types. */
  predicate KnownType(docType: string) {
    docType in {"statement", "minutes", "implementation_note", "transcript"}
  }

  /** The title tells the document type apart: distinct known types get
      distinct titles, and no known type gets the generic one. */
  lemma DocumentTitleDistinguishes(a: string, b: string)
    ensures KnownType(a) && KnownType(b) && a != b ==> DocumentTitle(a) != DocumentTitle(b)
    ensures KnownType(a) ==> DocumentTitle(a) != DefaultTitle
    ensures !KnownType(a) ==> DocumentTitle(a) == DefaultTitle
  {
    assert |StatementTitle| == 9 && |MinutesTitle| == 6 && |ImplementationNoteTitle| == 10;
    assert |TranscriptTitle| == 19 && |DefaultTitle| == 7;
  }

  // ---------------------------------------------------------------------
  // parseInt(_, 10) and number display
  // ---------------------------------------------------------------------

  /** The longest prefix of decimal digits. */
  function DigitPrefix(s: string): (r: string)
    ensures |r| <= |s| && r == s[..|r|] && AllDigits(r)
    ensures |r| < |s| ==> !IsDigit(s[|r|])
    decreases |s|
  {
    if |s| > 0 && IsDigit(s[0]) then [s[0]] + DigitPrefix(s[1..]) else []
  }

  /** `parseInt(s, 10)`: leading white space is skipped, one sign is
      accepted, then as many digits as follow; no digit at all is `NaN`,
      written `None`. */
  function ParseInt(s: string): (r: Option<int>)
  {
    var t := TrimStart(s);
    var negative := |t| > 0 && t[0] == '-';
    var u := if |t| > 0 && (t[0] == '-' || t[0] == '+') then t[1..] else t;
    var d := DigitPrefix(u);
    var v: int := DigitsValue(d);
    if d == [] then None
    else if negative then Some(-v)
    else Some(v)
  }

  /** How a template literal shows the number; `-0` shows as `0`. */
  function NumberText(v: Option<int>): (r: string)
    ensures |r| >= 1
  {
    match v
    case None => "NaN"
    case Some(n) => if n < 0 then "-" + NatText(-n) else NatText(n)
  }

  /** Reading a number's decimal text gives the number back. */
  lemma {:induction false} ParseIntNatText(n: nat)
    ensures ParseInt(NatText(n)) == Some(n)
  {
    var s := NatText(n);
    assert TrimStart(s) == s by { assert !IsWhitespace(s[0]); }
    assert DigitPrefix(s) == s by { DigitPrefixOfDigits(s); }
    NatTextValue(n);
  }

  lemma {:induction false} DigitPrefixOfDigits(s: string)
    requires AllDigits(s)
    ensures DigitPrefix(s) == s
    decreases |s|
  {
    if |s| > 0 {
      assert IsDigit(s[0]);
      DigitPrefixOfDigits(s[1..]);
    }
  }

  /** Two digits read as their decimal value, and the displayed value
      drops a leading zero: `"06"` shows as `"6"`. */
  lemma {:induction false} TwoDigitField(a: char, b: char)
    requires IsDigit(a) && IsDigit(b)
    ensures ParseInt([a, b]) == Some(10 * (a as int - '0' as int) + (b as int - '0' as int))
    ensures a == '0' ==> NumberText(ParseInt([a, b])) == [b]
  {
    TwoDigitValue(a, b);
    if a == '0' {
      DigitText(b);
    }
  }

  lemma {:induction false} TwoDigitValue(a: char, b: char)
    requires IsDigit(a) && IsDigit(b)
    ensures ParseInt([a, b]) == Some(10 * (a as int - '0' as int) + (b as int - '0' as int))
  {
    var s := [a, b];
    assert TrimStart(s) == s by { assert !IsWhitespace(s[0]); }
    assert AllDigits(s);
    DigitPrefixOfDigits(s);
    assert s[..1] == [a];
    assert [a][..0] == [];
    assert DigitsValue([a]) == DigitsValue([]) * 10 + (a as int - '0' as int);
    assert DigitsValue(s) == DigitsValue([a]) * 10 + (b as int - '0' as int);
    assert !(s[0] == '-' || s[0] == '+');
  }

  /** A single digit's value is shown as that digit. */
  lemma DigitText(b: char)
    requires IsDigit(b)
    ensures NatText(b as int - '0' as int) == [b]
  {
  }

  // ---------------------------------------------------------------------
  // The page template
  // ---------------------------------------------------------------------

  /** The fixed text of a page: what comes before the heading in `<title>`,
      what comes between `</title>` and the heading in `<h1>`, what follows
      that heading, and what follows the body. */
  datatype PageTemplate = PageTemplate(head: string, style: string, close: string, tail: string)

  /** The slots the headings and the body go into. */
  predicate Slotted(t: PageTemplate) {
    && |t.head| >= 15 && t.head[..15] == "<!DOCTYPE html>"
    && t.head[|t.head| - 7..] == "<title>"
    && |t.style| >= 8 && t.style[..8] == "</title>" && t.style[|t.style| - 4..] == "<h1>"
    && |t.close| >= 5 && t.close[..5] == "</h1>"
  }

  const Doctype: string := "<!DOCTYPE html>"

  const HeadStart: string := "\n<html lang=\"ko\">\n<head>\n  <meta charset=\"UTF-8\">\n  "

  /** The inline style sheet, from `<style>` to `</style>`. */
  const StyleSheet: string :=
    "  <style>\n" +
    "    body {\n" +
    "      font-family: 'Pretendard', sans-serif;\n" +
    "      background-color: #fefefe;\n" +
    "      color: #111;\n" +
    "      line-height: 1.7;\n" +
    "      padding: 40px;\n" +
    "      max-width: 800px;\n" +
    "      margin: auto;\n" +
    "    }\n" +
    "    h1 {\n" +
    "      font-size: 26px;\n" +
    "      font-weight: bold;\n" +
    "      border-bottom: 2px solid #ccc;\n" +
    "      padding-bottom: 8px;\n" +
    "      margin-bottom: 24px;\n" +
    "    }\n" +
    "    p {\n" +
    "      margin-bottom: 18px;\n" +
    "    }\n" +
    "  </style>\n"

  const BodyStart: string := "</head>\n<body>\n  "

  /** The template the FOMC translations are wrapped in. */
  const FomcPage: PageTemplate := PageTemplate(
    Doctype + HeadStart + "<title>",
    "</title>\n" + StyleSheet + BodyStart + "<h1>",
    "</h1>\n  ",
    "\n</body>\n</html>")

  lemma FomcPageSlotted()
    ensures Slotted(FomcPage)
  {
    var h, st := FomcPage.head, FomcPage.style;
    assert h[..15] == Doctype;
    assert h[|h| - 7..] == "<title>";
    var pre: string := "</title>\n";
    assert st[..8] == pre[..8];
    assert st[|st| - 4..] == "<h1>";
  }

  /** The date and type of a document as shown in its heading. */
  function Heading(dateStr: string, docType: string): string {
    Slice(dateStr, 0, 4) + "\U{B144} " + NumberText(ParseInt(Slice(dateStr, 4, 6))) + "\U{C6D4} "
      + NumberText(ParseInt(Slice(dateStr, 6, 8))) + "\U{C77C} " + DocumentTitle(docType)
  }

  /** The page up to where the translated body goes. */
  function Opening(t: PageTemplate, h: string): string {
    t.head + h + t.style + h + t.close
  }

  /** A page of template `t` with heading `h` around `body`. */
  function Wrap(t: PageTemplate, h: string, body: string): string {
    Opening(t, h) + body + t.tail
  }

  /** Cut the body back out of a page of template `t` with heading `h`. */
  function Unwrap(t: PageTemplate, h: string, page: string): (r: Option<string>)
    ensures r.Some? ==> |r.value| <= |page|
  {
    var open := Opening(t, h);
    if |page| >= |open| + |t.tail| && page[..|open|] == open && page[|page| - |t.tail|..] == t.tail
    then Some(page[|open|..|page| - |t.tail|])
    else None
  }

  /** `wrapTranslatedHtmlWithStyle`. */
  function WrapTranslatedHtml(body: string, dateStr: string, docType: string): string {
    Wrap(FomcPage, Heading(dateStr, docType), body)
  }

  /** The body goes in and comes out verbatim. */
  lemma {:induction false} UnwrapWrap(t: PageTemplate, h: string, body: string)
    ensures Unwrap(t, h, Wrap(t, h, body)) == Some(body)
  {
    var open := Opening(t, h);
    var p := open + body + t.tail;
    assert p[..|open|] == open;
    assert p[|p| - |t.tail|..] == t.tail;
    assert p[|open|..|p| - |t.tail|] == body;
  }

  /** Every page that unwraps is the wrapping of what it unwraps to. */
  lemma {:induction false} WrapUnwrap(t: PageTemplate, h: string, page: string)
    requires Unwrap(t, h, page).Some?
    ensures Wrap(t, h, Unwrap(t, h, page).value) == page
  {
    var open := Opening(t, h);
    var i, j := |open|, |page| - |t.tail|;
    assert page == page[..i] + page[i..j] + page[j..];
  }

  /** In a slotted template the page starts with the HTML5 doctype and the
      `<title>` carries the heading. */
  lemma {:induction false} WrapTitleSlot(t: PageTemplate, h: string, body: string)
    requires Slotted(t)
    ensures var page := Wrap(t, h, body);
      && page[..15] == "<!DOCTYPE html>"
      && OccursAt(page, "<title>" + h + "</title>", |t.head| - 7)
  {
    var pre := t.head + h + t.style;
    var page := pre + (h + t.close + body + t.tail);
    assert Wrap(t, h, body) == page;
    PrefixKept(pre, h + t.close + body + t.tail, 15);
    TitleInPrefix(t, h);
    PrefixKept(pre, h + t.close + body + t.tail, |t.head| + |h| + 8);
  }

  /** The title tag sits across the end of the head and the start of the
      style part. */
  lemma {:induction false} TitleInPrefix(t: PageTemplate, h: string)
    requires Slotted(t)
    ensures OccursAt(t.head + h + t.style, "<title>" + h + "</title>", |t.head| - 7)
  {
    var a := |t.head|;
    var pre := t.head + h + t.style;
    assert pre[a - 7..a + |h| + 8] == t.head[a - 7..] + h + t.style[..8];
  }

  /** Whatever occurs within the first `n` characters of `pre` survives
      appending. */
  lemma {:induction false} PrefixKept(pre: string, rest: string, n: nat)
    requires n <= |pre|
    ensures (pre + rest)[..n] == pre[..n]
    ensures forall k, pat :: 0 <= k && k + |pat| <= n && OccursAt(pre, pat, k) ==> OccursAt(pre + rest, pat, k)
  {
    forall k, pat | 0 <= k && k + |pat| <= n && OccursAt(pre, pat, k) ensures OccursAt(pre + rest, pat, k) {
      assert (pre + rest)[k..k + |pat|] == pre[k..k + |pat|];
    }
  }

  /** The `<h1>` carries the same heading as the title, and the body sits
      verbatim between the heading line and the tail. */
  lemma {:induction false} WrapHeadingSlot(t: PageTemplate, h: string, body: string)
    requires Slotted(t)
    ensures var page := Wrap(t, h, body);
      && OccursAt(page, "<h1>" + h + "</h1>", |t.head| + |h| + |t.style| - 4)
      && OccursAt(page, body + t.tail, |Opening(t, h)|)
  {
    var page := Wrap(t, h, body);
    var b := |t.head| + |h| + |t.style|;
    var open := Opening(t, h);
    assert page[b - 4..b + |h| + 5] == t.style[|t.style| - 4..] + h + t.close[..5];
    assert page[|open|..|open| + |body + t.tail|] == body + t.tail;
  }

  /** For an eight-digit date the heading shows the year verbatim and the
      month and day without a leading zero. */
  lemma {:induction false} HeadingOfDate(y: string, m0: char, m1: char, d0: char, d1: char, docType: string)
    requires |y| == 4 && IsDigit(m0) && IsDigit(m1) && IsDigit(d0) && IsDigit(d1)
    ensures var dateStr := y + [m0, m1, d0, d1];
      Heading(dateStr, docType) == y + "\U{B144} " + NatText(10 * (m0 as int - '0' as int) + (m1 as int - '0' as int))
        + "\U{C6D4} " + NatText(10 * (d0 as int - '0' as int) + (d1 as int - '0' as int)) + "\U{C77C} "
        + DocumentTitle(docType)
  {
    var dateStr := y + [m0, m1, d0, d1];
    assert Slice(dateStr, 0, 4) == y;
    assert Slice(dateStr, 4, 6) == [m0, m1];
    assert Slice(dateStr, 6, 8) == [d0, d1];
    TwoDigitField(m0, m1);
    TwoDigitField(d0, d1);
  }

  // ---------------------------------------------------------------------
  // Storage keys
  // ---------------------------------------------------------------------

  /** `key.replace(".html", ".htm")`: a string pattern, so only the first
      occurrence is replaced. */
  function FallbackKey(key: string): (r: string)
    ensures IndexOf(key, ".html", 0).None? ==> r == key
    ensures IndexOf(key, ".html", 0).Some? ==>
      var k := IndexOf(key, ".html", 0).value;
      r == key[..k] + ".htm" + key[k + 5..]
  {
    match IndexOf(key, ".html", 0)
    case None => key
    case Some(k) => key[..k] + ".htm" + key[k + 5..]
  }

  /** Replacing `.html` by `.htm` drops one `l`: the fallback key is the
      original key without the character at the first match's fifth
      position. */
  lemma {:induction false} FallbackKeyDropsL(key: string)
    requires IndexOf(key, ".html", 0).Some?
    ensures var k := IndexOf(key, ".html", 0).value;
      |FallbackKey(key)| == |key| - 1 && key[k + 4] == 'l'
      && FallbackKey(key) == key[..k + 4] + key[k + 5..]
  {
    var k := IndexOf(key, ".html", 0).value;
    assert key[k..k + 5] == ".html";
    assert key[k + 4] == key[k..k + 5][4];
    assert key[..k + 4] == key[..k] + key[k..k + 4];
    var html: string := ".html";
    assert key[k..k + 4] == key[k..k + 5][..4] == html[..4];
  }

  /** A key whose stem has no dot ends in `.htm` after the fallback. */
  lemma {:induction false} FallbackKeyOfStem(stem: string)
    requires '.' !in stem
    ensures FallbackKey(stem + ".html") == stem + ".htm"
  {
    var key := stem + ".html";
    assert OccursAt(key, ".html", |stem|) by { assert key[|stem|..|stem| + 5] == ".html"; }
    forall j | 0 <= j < |stem| ensures !OccursAt(key, ".html", j) {
      assert key[j] == stem[j];
      assert stem[j] in stem;
    }
    var r := IndexOf(key, ".html", 0);
    assert r == Some(|stem|);
    assert key[..|stem|] == stem;
    assert key[|stem| + 5..] == [];
  }

  const TranslatedPrefix: string := "fomc_files/ko/"

  /** The key the translated page is stored under. */
  function TranslatedKey(docType: string, date: string): (r: string)
    ensures EndsWith(r, ".htm")
  {
    TranslatedPrefix + docType + "/" + date + ".htm"
  }

  /** Under the fixed prefix the key names the type and then the file, so
      different types or dates never share a key when neither holds a
      slash. */
  lemma {:induction false} TranslatedKeySplits(docType: string, date: string)
    requires '/' !in docType && '/' !in date
    ensures var key := TranslatedKey(docType, date);
      key[..|TranslatedPrefix|] == TranslatedPrefix
      && Split(key[|TranslatedPrefix|..], "/") == [docType, date + ".htm"]
  {
    var key := TranslatedKey(docType, date);
    var file := date + ".htm";
    assert '/' !in file;
    var pieces := [docType, file];
    assert pieces[1..] == [file];
    assert Join(pieces, "/") == docType + "/" + file;
    assert key == TranslatedPrefix + Join(pieces, "/");
    SplitJoin(pieces, "/", 0, '/');
  }

  /** Distinct type/date pairs get distinct keys. */
  lemma TranslatedKeyInjective(t1: string, d1: string, t2: string, d2: string)
    requires '/' !in t1 && '/' !in d1 && '/' !in t2 && '/' !in d2
    requires TranslatedKey(t1, d1) == TranslatedKey(t2, d2)
    ensures t1 == t2 && d1 == d2
  {
    TranslatedKeySplits(t1, d1);
    TranslatedKeySplits(t2, d2);
    var a: string := d1 + ".htm";
    var b: string := d2 + ".htm";
    assert a[..|a| - 4] == d1 && b[..|b| - 4] == d2;
  }

  // ---------------------------------------------------------------------
  // translateAndUploadOriginalFomcHtml
  // ---------------------------------------------------------------------

  /** A downloaded object: its decoded text and its content type, if any. */
  datatype Download = Download(text: string, contentType: Option<string>)

  /** The page to be stored and the key it goes under. */
  datatype Upload = Upload(key: string, page: string)

  /** The keys the flow tried to download, in order, and the upload it
      ends with; no upload is the `null` result. */
  datatype FlowRun = FlowRun(downloads: seq<string>, upload: Option<Upload>)

  /** The steps of `translateAndUploadOriginalFomcHtml`, with storage and
      translation as parameters: `download(k, n)` is the answer to the
      `n`-th request of the flow (0 or 1), for key `k`, and gives nothing
      when the object cannot be read; `translate` gives nothing when the
      provider fails. Numbering the requests lets a retry of the same key
      succeed after a transient failure. */
  function TranslateAndUpload(key: string, docType: string, date: string,
                              download: (string, nat) -> Option<Download>,
                              translate: string -> Option<string>): (r: FlowRun)
    ensures |r.downloads| <= 2
  {
    if EndsWith(key, ".pdf") then FlowRun([], None)
    else
      var primary := download(key, 0);
      var tried := if primary.Some? then [key] else [key, FallbackKey(key)];
      var got := if primary.Some? then primary else download(FallbackKey(key), 1);
      if got.None? then FlowRun(tried, None)
      else if got.value.contentType.None? || !Includes(got.value.contentType.value, "html") then FlowRun(tried, None)
      else
        var translated := translate(got.value.text);
        if translated.None? || translated.value == [] then FlowRun(tried, None)
        else FlowRun(tried, Some(Upload(TranslatedKey(docType, date), WrapTranslatedHtml(translated.value, date, docType))))
  }

  /** PDFs are skipped before anything is downloaded. */
  lemma PdfSkipped(key: string, docType: string, date: string,
                   download: (string, nat) -> Option<Download>, translate: string -> Option<string>)
    requires EndsWith(key, ".pdf")
    ensures TranslateAndUpload(key, docType, date, download, translate) == FlowRun([], None)
  {
  }

  /** The fallback key is tried only when the original key fails. */
  lemma FallbackOnlyOnFailure(key: string, docType: string, date: string,
                              download: (string, nat) -> Option<Download>, translate: string -> Option<string>)
    requires !EndsWith(key, ".pdf")
    ensures var r := TranslateAndUpload(key, docType, date, download, translate);
      && r.downloads[0] == key
      && (|r.downloads| == 2 <==> download(key, 0).None?)
      && (|r.downloads| == 2 ==> r.downloads[1] == FallbackKey(key))
  {
  }

  /** An upload happens exactly when some download succeeded with an HTML
      content type and the translation is non-empty. */
  lemma UploadIff(key: string, docType: string, date: string,
                  download: (string, nat) -> Option<Download>, translate: string -> Option<string>)
    ensures var r := TranslateAndUpload(key, docType, date, download, translate);
      var got := if download(key, 0).Some? then download(key, 0) else download(FallbackKey(key), 1);
      r.upload.Some? <==>
        && !EndsWith(key, ".pdf") && got.Some?
        && got.value.contentType.Some? && Includes(got.value.contentType.value, "html")
        && translate(got.value.text).Some? && translate(got.value.text).value != []
  {
  }

  /** The upload stores the wrapped translation under the translated key,
      and the translation can be cut back out of the stored page. */
  lemma UploadContents(key: string, docType: string, date: string,
                       download: (string, nat) -> Option<Download>, translate: string -> Option<string>)
    ensures var r := TranslateAndUpload(key, docType, date, download, translate);
      var got := if download(key, 0).Some? then download(key, 0) else download(FallbackKey(key), 1);
      r.upload.Some? ==>
        && r.upload.value.key == TranslatedKey(docType, date)
        && got.Some? && Unwrap(FomcPage, Heading(date, docType), r.upload.value.page) == translate(got.value.text)
  {
    var got := if download(key, 0).Some? then download(key, 0) else download(FallbackKey(key), 1);
    if TranslateAndUpload(key, docType, date, download, translate).upload.Some? {
      UploadedPage(key, docType, date, download, translate);
      UnwrapWrap(FomcPage, Heading(date, docType), translate(got.value.text).value);
    }
  }

  /** What an upload holds: the wrapped translation of the text downloaded. */
  lemma UploadedPage(key: string, docType: string, date: string,
                     download: (string, nat) -> Option<Download>, translate: string -> Option<string>)
    requires TranslateAndUpload(key, docType, date, download, translate).upload.Some?
    ensures var got := if download(key, 0).Some? then download(key, 0) else download(FallbackKey(key), 1);
      && got.Some? && translate(got.value.text).Some?
      && TranslateAndUpload(key, docType, date, download, translate).upload.value
         == Upload(TranslatedKey(docType, date), WrapTranslatedHtml(translate(got.value.text).value, date, docType))
  {
  }

  /** The key the only caller passes, `fomc_files/<type>/<date>.htm`, holds
      no `.html`, so the fallback asks for the same key again; a transient
      failure on the first request followed by a good second answer still
      ends in an upload. */
  lemma RetrySameKeyUploads()
    ensures var key := "fomc_files/statement/20250730.htm";
      var download := (k: string, n: nat) => if n == 0 then None else Some(Download("<p>x</p>", Some("text/html")));
      var r := TranslateAndUpload(key, "statement", "20250730", download, (t: string) => Some(t));
      && FallbackKey(key) == key
      && r.downloads == [key, key]
      && r.upload.Some?
  {
    var stem := "fomc_files/statement/20250730";
    var key := "fomc_files/statement/20250730.htm";
    assert key == stem + ".htm";
    FallbackKeyOfHtm(stem);
    assert !EndsWith(key, ".pdf");
    assert OccursAt("text/html", "html", 5);
  }

  /** A key ending in `.htm` with no other dot holds no `.html`, so its
      fallback key is itself. */
  lemma FallbackKeyOfHtm(stem: string)
    requires '.' !in stem
    ensures FallbackKey(stem + ".htm") == stem + ".htm"
  {
    var key := stem + ".htm";
    forall k | 0 <= k ensures !OccursAt(key, ".html", k) {
      if k + 5 <= |key| {
        assert key[k..k + 5][0] == stem[k];
      }
    }
  }
}

=== FILE: js_strings.dfy ===
/**
 * The JavaScript string primitives the translation engine leans on, stated
 * over `seq<char>` with one char standing for one UTF-16 code unit:
 * `trim`, `indexOf`, `substring`, `split`, `join`, `padStart`, `toLowerCase`
 * (as far as it matters for ASCII keywords) and the `\s` character class.
 */
module JsStrings {

  datatype Option<+T> = None | Some(value: T)

  /** The ECMAScript WhiteSpace and LineTerminator code points: exactly what
      `String.prototype.trim` strips, what `\s` matches and what `parseInt`
      skips. */
  predicate IsWhitespace(c: char) {
    || c == '\t' || c == '\n' || c == '\U{000B}' || c == '\U{000C}' || c == '\r' || c == ' '
    || c == '\U{00A0}' || c == '\U{1680}' || ('\U{2000}' <= c <= '\U{200A}')
    || c == '\U{2028}' || c == '\U{2029}' || c == '\U{202F}' || c == '\U{205F}'
    || c == '\U{3000}' || c == '\U{FEFF}'
  }

  predicate AllWhitespace(s: string) {
    forall i :: 0 <= i < |s| ==> IsWhitespace(s[i])
  }

  predicate IsDigit(c: char) {
    '0' <= c <= '9'
  }

  /** `trimStart`: drops the whitespace run at the front. */
  function TrimStart(s: string): (r: string)
    decreases |s|
  {
    if |s| > 0 && IsWhitespace(s[0]) then TrimStart(s[1..]) else s
  }

  /** What `trimStart` drops is a whitespace prefix, and what it keeps does
      not start with whitespace. */
  lemma {:induction false} TrimStartShape(s: string)
    ensures |TrimStart(s)| <= |s| && TrimStart(s) == s[|s| - |TrimStart(s)|..]
    ensures AllWhitespace(s[..|s| - |TrimStart(s)|])
    ensures TrimStart(s) == [] || !IsWhitespace(TrimStart(s)[0])
    decreases |s|
  {
    if |s| > 0 && IsWhitespace(s[0]) {
      TrimStartShape(s[1..]);
      var n := |s| - |TrimStart(s)|;
      assert s[..n] == [s[0]] + s[1..][..n - 1];
    }
  }

  /** `trimEnd`: drops the whitespace run at the back. */
  function TrimEnd(s: string): (r: string)
    decreases |s|
  {
    if |s| > 0 && IsWhitespace(s[|s| - 1]) then TrimEnd(s[..|s| - 1]) else s
  }

  /** What `trimEnd` drops is a whitespace suffix, and what it keeps does not
      end with whitespace. */
  lemma {:induction false} TrimEndShape(s: string)
    ensures |TrimEnd(s)| <= |s| && TrimEnd(s) == s[..|TrimEnd(s)|]
    ensures AllWhitespace(s[|TrimEnd(s)|..])
    ensures TrimEnd(s) == [] || !IsWhitespace(TrimEnd(s)[|TrimEnd(s)| - 1])
    decreases |s|
  {
    if |s| > 0 && IsWhitespace(s[|s| - 1]) {
      var p := s[..|s| - 1];
      TrimEndShape(p);
      var n := |TrimEnd(s)|;
      assert s[n..] == p[n..] + [s[|s| - 1]];
      assert p[..n] == s[..n];
    }
  }

  /** `String.prototype.trim`. */
  function Trim(s: string): string {
    TrimEnd(TrimStart(s))
  }

  /** A string that `trim` leaves alone. */
  predicate IsTrimmed(x: string) {
    x == [] || (!IsWhitespace(x[0]) && !IsWhitespace(x[|x| - 1]))
  }

  /** Trimming removes exactly the surrounding whitespace runs: whatever
      whitespace is put around a trimmed string, `trim` gives it back. */
  lemma {:induction false} TrimStripsPadding(pre: string, x: string, post: string)
    requires AllWhitespace(pre) && AllWhitespace(post) && IsTrimmed(x)
    ensures Trim(pre + x + post) == x
  {
    if x == [] {
      assert pre + x + post == pre + post;
      assert AllWhitespace(pre + post);
      TrimStartPadding(pre + post, []);
      assert pre + post + [] == pre + post;
    } else {
      assert pre + x + post == pre + (x + post);
      TrimStartPadding(pre, x + post);
      TrimEndPadding(x, post);
    }
  }

  /** `trimStart` drops a whitespace prefix in front of a string that does
      not itself start with whitespace. */
  lemma {:induction false} TrimStartPadding(pre: string, y: string)
    requires AllWhitespace(pre) && (y == [] || !IsWhitespace(y[0]))
    ensures TrimStart(pre + y) == y
    decreases |pre|
  {
    if |pre| > 0 {
      assert (pre + y)[1..] == pre[1..] + y;
      TrimStartPadding(pre[1..], y);
    } else {
      assert pre + y == y;
    }
  }

  /** `trimEnd` drops a whitespace suffix behind a string that does not
      itself end with whitespace. */
  lemma {:induction false} TrimEndPadding(y: string, post: string)
    requires AllWhitespace(post) && (y == [] || !IsWhitespace(y[|y| - 1]))
    ensures TrimEnd(y + post) == y
    decreases |post|
  {
    if |post| > 0 {
      var p := post[..|post| - 1];
      assert (y + post)[..|y + post| - 1] == y + p;
      TrimEndPadding(y, p);
    } else {
      assert y + post == y;
    }
  }


  /** Trimming is idempotent and yields a trimmed string. */
  lemma {:induction false} TrimIsTrimmed(s: string)
    ensures IsTrimmed(Trim(s))
    ensures Trim(Trim(s)) == Trim(s)
  {
    var a := TrimStart(s);
    var b := TrimEnd(a);
    assert IsTrimmed(b) by {
      TrimStartShape(s);
      TrimEndShape(a);
      if b != [] {
        assert b[0] == a[0];
      }
    }
    assert TrimStart(b) == b by {
      TrimStartPadding([], b);
      assert [] + b == b;
    }
    assert TrimEnd(b) == b by {
      TrimEndPadding(b, []);
      assert b + [] == b;
    }
  }

  /** `trim` empties a string exactly when it is all whitespace. */
  lemma {:induction false} TrimEmptyIffWhitespace(s: string)
    ensures Trim(s) == [] <==> AllWhitespace(s)
  {
    var a := TrimStart(s);
    TrimStartShape(s);
    TrimEndShape(a);
    if AllWhitespace(s) {
      TrimStripsPadding(s, [], []);
      assert s + [] + [] == s;
    }
    if Trim(s) == [] {
      assert AllWhitespace(a[0..]);
      assert a == [];
      assert s[..|s|] == s;
    }
  }

  /** `pat` occurs in `s` starting at index `k`. */
  predicate OccursAt(s: string, pat: string, k: int) {
    0 <= k && k + |pat| <= |s| && s[k..k + |pat|] == pat
  }

  /** The start index `String.prototype.indexOf` uses for `position`. */
  function ClampIndex(x: int, n: nat): (r: nat)
    ensures r <= n
    ensures 0 <= x <= n ==> r == x
  {
    if x < 0 then 0 else if x > n then n else x
  }

  /** `s.indexOf(pat, from)`: the first occurrence at or after the clamped
      start, `None` standing for -1. */
  function IndexOf(s: string, pat: string, from: int): (r: Option<nat>)
    ensures r.Some? ==> ClampIndex(from, |s|) <= r.value && OccursAt(s, pat, r.value)
    ensures r.Some? ==> forall k :: ClampIndex(from, |s|) <= k < r.value ==> !OccursAt(s, pat, k)
    ensures r.None? ==> forall k :: ClampIndex(from, |s|) <= k ==> !OccursAt(s, pat, k)
    decreases |s| - ClampIndex(from, |s|)
  {
    var start := ClampIndex(from, |s|);
    if start + |pat| > |s| then None
    else if s[start..start + |pat|] == pat then Some(start)
    else IndexOf(s, pat, start + 1)
  }

  /** `s.includes(pat)`. */
  predicate Includes(s: string, pat: string) {
    IndexOf(s, pat, 0).Some?
  }

  /** `s.endsWith(suffix)`. */
  predicate EndsWith(s: string, suffix: string) {
    |suffix| <= |s| && s[|s| - |suffix|..] == suffix
  }

  /** `s.substring(a, b)`: both ends clamped to the string, then ordered. */
  function Substring(s: string, a: int, b: int): (r: string)
    ensures |r| <= |s|
    ensures 0 <= a <= b <= |s| ==> r == s[a..b]
  {
    var x := ClampIndex(a, |s|);
    var y := ClampIndex(b, |s|);
    if x <= y then s[x..y] else s[y..x]
  }

  /** `s.substring(a)`. */
  function SubstringFrom(s: string, a: int): (r: string)
    ensures 0 <= a <= |s| ==> r == s[a..]
    ensures a > |s| ==> r == []
  {
    s[ClampIndex(a, |s|)..]
  }

  /** `s.slice(a, b)` for non-negative `a` and `b`. */
  function Slice(s: string, a: nat, b: nat): (r: string)
    ensures |r| <= |s|
    ensures a <= b <= |s| ==> r == s[a..b]
  {
    var x := if a > |s| then |s| else a;
    var y := if b > |s| then |s| else b;
    if x <= y then s[x..y] else []
  }

  /** ASCII letter case folding; for the ASCII keywords the engine compares
      against (`script`, `<head`, `<TEXT>` ...) this agrees with both
      `toLowerCase` and the `/i` regular-expression flag. */
  function LowerAscii(c: char): char {
    if 'A' <= c <= 'Z' then (c as int + 32) as char else c
  }

  function LowerAsciiString(s: string): (r: string)
    ensures |r| == |s|
    ensures forall i :: 0 <= i < |s| ==> r[i] == LowerAscii(s[i])
  {
    seq(|s|, i requires 0 <= i < |s| => LowerAscii(s[i]))
  }

  /** `pat` occurs at `k` when letters are compared without regard to case. */
  predicate OccursAtIgnoreCase(s: string, pat: string, k: int) {
    0 <= k && k + |pat| <= |s| && LowerAsciiString(s[k..k + |pat|]) == LowerAsciiString(pat)
  }

  /** The first case-insensitive occurrence of `pat` at or after `from`. */
  function IndexOfIgnoreCase(s: string, pat: string, from: nat): (r: Option<nat>)
    ensures r.Some? ==> from <= r.value && OccursAtIgnoreCase(s, pat, r.value)
    ensures r.Some? ==> forall k :: from <= k < r.value ==> !OccursAtIgnoreCase(s, pat, k)
    ensures r.None? ==> forall k :: from <= k ==> !OccursAtIgnoreCase(s, pat, k)
    decreases |s| - from
  {
    if from + |pat| > |s| then None
    else if LowerAsciiString(s[from..from + |pat|]) == LowerAsciiString(pat) then Some(from)
    else IndexOfIgnoreCase(s, pat, from + 1)
  }

  /** `pieces.join(sep)`. */
  function Join(pieces: seq<string>, sep: string): string
    decreases |pieces|
  {
    if |pieces| == 0 then []
    else if |pieces| == 1 then pieces[0]
    else pieces[0] + sep + Join(pieces[1..], sep)
  }

  lemma JoinCons(p: string, rest: seq<string>, sep: string)
    requires |rest| >= 1
    ensures Join([p] + rest, sep) == p + sep + Join(rest, sep)
  {
    assert ([p] + rest)[1..] == rest;
  }

  /** An occurrence inside a prefix is an occurrence in the whole string. */
  lemma OccursInPrefix(s: string, pat: string, k: nat, j: int)
    requires k <= |s| && OccursAt(s[..k], pat, j)
    ensures OccursAt(s, pat, j) && j + |pat| <= k
  {
    assert s[..k][j..j + |pat|] == s[j..j + |pat|];
  }

  /** The text before the first occurrence of `pat` contains no occurrence. */
  lemma NoneBeforeFirst(s: string, pat: string, k: nat)
    requires |pat| > 0 && IndexOf(s, pat, 0) == Some(k)
    ensures IndexOf(s[..k], pat, 0).None?
  {
    forall j | OccursAt(s[..k], pat, j) ensures OccursAt(s, pat, j) && j < k {
      OccursInPrefix(s, pat, k, j);
    }
  }

  /** The first occurrence is still the first in the prefix ending with it. */
  lemma FirstInPrefix(s: string, pat: string, k: nat)
    requires IndexOf(s, pat, 0) == Some(k)
    ensures IndexOf(s[..k + |pat|], pat, 0) == Some(k)
  {
    var t := s[..k + |pat|];
    assert OccursAt(t, pat, k) by {
      assert t[k..k + |pat|] == s[k..k + |pat|];
    }
    forall j | 0 <= j < k ensures !OccursAt(t, pat, j) {
      if OccursAt(t, pat, j) {
        OccursInPrefix(s, pat, k + |pat|, j);
      }
    }
  }

  /** `s.split(sep)` for a non-empty separator string: the pieces hold no
      separator, join back to `s`, and every cut is made at the leftmost
      occurrence, so each piece but the last ends right before the first
      separator found after it. */
  function Split(s: string, sep: string): (r: seq<string>)
    requires |sep| > 0
    ensures |r| >= 1
    ensures forall i :: 0 <= i < |r| ==> IndexOf(r[i], sep, 0).None?
    ensures forall i :: 0 <= i < |r| - 1 ==> IndexOf(r[i] + sep, sep, 0) == Some(|r[i]|)
    ensures Join(r, sep) == s
    decreases |s|
  {
    match IndexOf(s, sep, 0)
    case None => [s]
    case Some(k) =>
      var rest := Split(s[k + |sep|..], sep);
      SplitConsClean(s, sep, k, rest);
      SplitConsLeftmost(s, sep, k, rest);
      SplitConsJoin(s, sep, k, rest);
      [s[..k]] + rest
  }

  /** Neither the cut before the first separator nor a later piece holds a
      separator. */
  lemma SplitConsClean(s: string, sep: string, k: nat, rest: seq<string>)
    requires |sep| > 0 && IndexOf(s, sep, 0) == Some(k)
    requires forall i :: 0 <= i < |rest| ==> IndexOf(rest[i], sep, 0).None?
    ensures var r := [s[..k]] + rest;
      forall i :: 0 <= i < |r| ==> IndexOf(r[i], sep, 0).None?
  {
    var r := [s[..k]] + rest;
    NoneBeforeFirst(s, sep, k);
    forall i | 1 <= i < |r| ensures IndexOf(r[i], sep, 0).None? {
      assert r[i] == rest[i - 1];
    }
  }

  /** The cut before the first separator is a leftmost cut, and so are the
      later ones. */
  lemma SplitConsLeftmost(s: string, sep: string, k: nat, rest: seq<string>)
    requires IndexOf(s, sep, 0) == Some(k)
    requires forall i :: 0 <= i < |rest| - 1 ==> IndexOf(rest[i] + sep, sep, 0) == Some(|rest[i]|)
    ensures var r := [s[..k]] + rest;
      forall i :: 0 <= i < |r| - 1 ==> IndexOf(r[i] + sep, sep, 0) == Some(|r[i]|)
  {
    var r := [s[..k]] + rest;
    forall i | 0 <= i < |r| - 1 ensures IndexOf(r[i] + sep, sep, 0) == Some(|r[i]|) {
      if i == 0 {
        assert s[..k] + sep == s[..k + |sep|];
        FirstInPrefix(s, sep, k);
      } else {
        assert r[i] == rest[i - 1];
      }
    }
  }

  /** The cut, the separator and the joined later pieces make up `s`. */
  lemma SplitConsJoin(s: string, sep: string, k: nat, rest: seq<string>)
    requires IndexOf(s, sep, 0) == Some(k)
    requires |rest| >= 1 && Join(rest, sep) == s[k + |sep|..]
    ensures Join([s[..k]] + rest, sep) == s
  {
    JoinCons(s[..k], rest, sep);
    SliceAround(s, sep, k);
  }

  /** A string is the text before an occurrence, the occurrence and the
      text after it. */
  lemma SliceAround(s: string, pat: string, k: nat)
    requires OccursAt(s, pat, k)
    ensures s == s[..k] + pat + s[k + |pat|..]
  {
    var u := s[..k] + pat + s[k + |pat|..];
    assert |u| == |s|;
    forall i | 0 <= i < |s| ensures u[i] == s[i] {
      if k <= i < k + |pat| {
        assert s[k..k + |pat|][i - k] == s[i];
      }
    }
  }

  /** `marker` is a character of `sep` that no earlier character of `sep`
      repeats: a separator occurrence is pinned down by where its marker sits. */
  predicate MarksSeparator(sep: string, mi: nat, marker: char) {
    mi < |sep| && sep[mi] == marker && forall j :: 0 <= j < mi ==> sep[j] != marker
  }

  /** Splitting undoes joining, provided the pieces never contain the
      separator's marker character. */
  lemma {:induction false} SplitJoin(pieces: seq<string>, sep: string, mi: nat, marker: char)
    requires |pieces| >= 1
    requires MarksSeparator(sep, mi, marker)
    requires forall i :: 0 <= i < |pieces| ==> marker !in pieces[i]
    ensures Split(Join(pieces, sep), sep) == pieces
    decreases |pieces|
  {
    var p := pieces[0];
    if |pieces| == 1 {
      var s := Join(pieces, sep);
      assert s == p;
      forall k | 0 <= k ensures !OccursAt(s, sep, k) {
        if k + |sep| <= |s| {
          assert s[k + mi] != marker;
          assert s[k..k + |sep|][mi] != sep[mi];
        }
      }
      assert IndexOf(s, sep, 0).None?;
    } else {
      var rest := Join(pieces[1..], sep);
      var s := p + sep + rest;
      assert Join(pieces, sep) == s;
      assert OccursAt(s, sep, |p|) by {
        assert s[|p|..|p| + |sep|] == sep;
      }
      forall k | 0 <= k < |p| ensures !OccursAt(s, sep, k) {
        if k + |sep| <= |s| {
          if k + mi < |p| {
            assert s[k + mi] == p[k + mi];
          } else {
            assert s[k + mi] == sep[k + mi - |p|];
          }
          assert s[k..k + |sep|][mi] != sep[mi];
        }
      }
      assert IndexOf(s, sep, 0) == Some(|p|);
      assert s[..|p|] == p;
      assert s[|p| + |sep|..] == rest;
      SplitJoin(pieces[1..], sep, mi, marker);
    }
  }

  /** `s.padStart(width, fill)` with a one-character fill. */
  function PadStart(s: string, width: nat, fill: char): (r: string)
    ensures |r| == if |s| >= width then |s| else width
    ensures r[|r| - |s|..] == s
    ensures forall i :: 0 <= i < |r| - |s| ==> r[i] == fill
  {
    if |s| >= width then s else seq(width - |s|, _ => fill) + s
  }

  predicate AllDigits(s: string) {
    forall i :: 0 <= i < |s| ==> IsDigit(s[i])
  }

  /** The value of a run of decimal digits, most significant first. */
  function DigitsValue(s: string): nat
    requires AllDigits(s)
    decreases |s|
  {
    if |s| == 0 then 0
    else DigitsValue(s[..|s| - 1]) * 10 + (s[|s| - 1] as int - '0' as int)
  }

  /** Leading zeros do not change the value. */
  lemma {:induction false} LeadingZeroValue(s: string)
    requires AllDigits(s)
    ensures AllDigits("0" + s) && DigitsValue("0" + s) == DigitsValue(s)
    decreases |s|
  {
    var z := "0" + s;
    assert AllDigits(z) by {
      forall i | 0 <= i < |z| ensures IsDigit(z[i]) {
        if i > 0 { assert z[i] == s[i - 1]; }
      }
    }
    if |s| > 0 {
      var p := s[..|s| - 1];
      assert z[..|z| - 1] == "0" + p;
      assert AllDigits(p) by {
        forall i | 0 <= i < |p| ensures IsDigit(p[i]) { assert p[i] == s[i]; }
      }
      LeadingZeroValue(p);
    }
  }

  /** The decimal text of a natural number, without leading zeros. */
  function NatText(n: nat): (r: string)
    ensures |r| >= 1 && AllDigits(r)
    ensures |r| > 1 ==> r[0] != '0'
    decreases n
  {
    var d := [(('0' as int) + n % 10) as char];
    if n < 10 then d else NatText(n / 10) + d
  }

  /** Reading the decimal text back gives the number. */
  lemma {:induction false} NatTextValue(n: nat)
    ensures DigitsValue(NatText(n)) == n
    decreases n
  {
    if n >= 10 {
      NatTextValue(n / 10);
      var r := NatText(n);
      assert r[..|r| - 1] == NatText(n / 10);
    }
  }
}

=== FILE: meeting_scheduler.dfy ===
/**
 * The FOMC meeting status machine `pending -> statement-fetched -> done`
 * driven by one run of the scheduler: scan the meetings in list order, fire
 * the first one that is due today, record the documents to poll and the
 * status update, and stop.
 */
module MeetingScheduler {
  /** The `status` column. Values other than the three the scheduler
      compares against are kept as they were read; rows are read through
      `ReadStatus`, so such a value never spells a known one. */
  datatype Status = Pending | StatementFetched | Done | OtherStatus(raw: string)

  /** The text stored in the `status` column. */
  function StatusText(s: Status): string {
    match s
    case Pending => "pending"
    case StatementFetched => "statement-fetched"
    case Done => "done"
    case OtherStatus(raw) => raw
  }

  /** A status as the scheduler's `===` comparisons see it: one of the three
      known values, or some other text. */
  function ReadStatus(text: string): (s: Status)
    ensures StatusText(s) == text
    ensures s.OtherStatus? <==> text != "pending" && text != "statement-fetched" && text != "done"
  {
    if text == "pending" then Pending
    else if text == "statement-fetched" then StatementFetched
    else if text == "done" then Done
    else OtherStatus(text)
  }

  /** A status reading never confuses an unknown text with a known one. */
  predicate Canonical(s: Status) {
    s.OtherStatus? ==> s.raw != "pending" && s.raw != "statement-fetched" && s.raw != "done"
  }

  /** Reading back what was written gives the status written, for every
      status a row can hold. */
  lemma ReadStatusText(s: Status)
    requires Canonical(s)
    ensures ReadStatus(StatusText(s)) == s
  {
  }

  /** One row of the meeting table; dates are `yyyy-MM-dd` strings, and
      `updatedAt` is the `updated_at` stamp the status update writes. */
  datatype Meeting = Meeting(statementDate: string, minutesDate: string, status: Status, updatedAt: string)

  datatype DocKind = Statement | ImplementationNote | Transcript | Minutes

  /** A call to start polling for one document of the meeting on `date`. */
  datatype Poll = Poll(kind: DocKind, date: string)

  /** What one run does: nothing, or for the meeting at `index` the polls it
      starts and the status written to every row keyed by `key`. */
  datatype Run =
    | Idle
    | Fired(index: nat, polls: seq<Poll>, key: string, newStatus: Status)

  /** The statement branch's guard. */
  predicate StatementDue(m: Meeting, today: string) {
    today == m.statementDate && m.status == Pending
  }

  /** The minutes branch's guard. */
  predicate MinutesDue(m: Meeting, today: string) {
    today == m.minutesDate && m.status == StatementFetched
  }

  predicate Due(m: Meeting, today: string) {
    StatementDue(m, today) || MinutesDue(m, today)
  }

  /** The effect of the loop body on a due meeting. */
  function Fire(i: nat, m: Meeting, today: string): (r: Run)
    requires Due(m, today)
    ensures r.Fired? && r.index == i && r.key == m.statementDate
  {
    if StatementDue(m, today) then
      Fired(i, [Poll(Statement, m.statementDate), Poll(ImplementationNote, m.statementDate),
                Poll(Transcript, m.statementDate)], m.statementDate, StatementFetched)
    else
      Fired(i, [Poll(Minutes, m.minutesDate)], m.statementDate, Done)
  }

  /** The loop from position `from` on. */
  function ScanFrom(meetings: seq<Meeting>, today: string, from: nat): (r: Run)
    requires from <= |meetings|
    ensures r.Fired? ==> from <= r.index < |meetings| && Due(meetings[r.index], today)
    ensures r.Fired? ==> forall j :: from <= j < r.index ==> !Due(meetings[j], today)
    ensures r.Fired? ==> r == Fire(r.index, meetings[r.index], today)
    ensures r.Idle? <==> forall j :: from <= j < |meetings| ==> !Due(meetings[j], today)
    decreases |meetings| - from
  {
    if from == |meetings| then Idle
    else if Due(meetings[from], today) then Fire(from, meetings[from], today)
    else ScanFrom(meetings, today, from + 1)
  }

  /** One run of the scheduler over the rows read from the table. */
  function RunScheduler(meetings: seq<Meeting>, today: string): (r: Run)
    ensures r.Fired? ==> r.index < |meetings| && Due(meetings[r.index], today)
    ensures r.Fired? ==> forall j :: 0 <= j < r.index ==> !Due(meetings[j], today)
    ensures r.Idle? <==> forall j :: 0 <= j < |meetings| ==> !Due(meetings[j], today)
    ensures r.Fired? ==> r == Fire(r.index, meetings[r.index], today)
  {
    ScanFrom(meetings, today, 0)
  }

  /** `UPDATE ... SET status = ?, updated_at = NOW() WHERE statementDate = ?`
      with the database clock reading `now`: every row with the key gets the
      status and the stamp, every other row is untouched. */
  function UpdateStatus(rows: seq<Meeting>, key: string, status: Status, now: string): (r: seq<Meeting>)
    ensures |r| == |rows|
    ensures forall i :: 0 <= i < |rows| && rows[i].statementDate == key ==>
      r[i] == rows[i].(status := status, updatedAt := now)
    ensures forall i :: 0 <= i < |rows| && rows[i].statementDate != key ==> r[i] == rows[i]
  {
    seq(|rows|, i requires 0 <= i < |rows| =>
      if rows[i].statementDate == key then rows[i].(status := status, updatedAt := now) else rows[i])
  }

  /** The update changes the status and the stamp only: every row keeps its
      dates, and an update issued again later leaves the table as if only the
      later one had been issued. */
  lemma UpdateStatusKeepsDates(rows: seq<Meeting>, key: string, status: Status, earlier: string, later: string)
    ensures var r := UpdateStatus(rows, key, status, earlier);
      && (forall i :: 0 <= i < |rows| ==>
            r[i].statementDate == rows[i].statementDate && r[i].minutesDate == rows[i].minutesDate)
      && UpdateStatus(r, key, status, later) == UpdateStatus(rows, key, status, later)
  {
  }

  /** The table after one run, with the database clock reading `now`. */
  function Apply(rows: seq<Meeting>, run: Run, now: string): seq<Meeting> {
    match run
    case Idle => rows
    case Fired(_, _, key, status) => UpdateStatus(rows, key, status, now)
  }

  /** Position of a status on the path; other values are off the path. */
  function Rank(s: Status): int {
    match s
    case Pending => 0
    case StatementFetched => 1
    case Done => 2
    case OtherStatus(_) => -1
  }

  /** The status edges: a due meeting advances exactly one step. */
  lemma FireAdvances(i: nat, m: Meeting, today: string)
    requires Due(m, today)
    ensures Rank(Fire(i, m, today).newStatus) == Rank(m.status) + 1
  {
  }

  /** A `pending` meeting whose statement date is today starts polling for
      the statement, the implementation note and the transcript, in that
      order, and becomes `statement-fetched`; one whose minutes date is today
      while `statement-fetched` polls the minutes and becomes `done`. */
  lemma FireBranches(i: nat, m: Meeting, today: string)
    requires Due(m, today)
    ensures StatementDue(m, today) ==>
      && Fire(i, m, today).newStatus == StatementFetched
      && |Fire(i, m, today).polls| == 3
      && forall k :: 0 <= k < 3 ==> Fire(i, m, today).polls[k].date == m.statementDate
    ensures StatementDue(m, today) ==>
      Fire(i, m, today).polls[0].kind == Statement && Fire(i, m, today).polls[1].kind == ImplementationNote
      && Fire(i, m, today).polls[2].kind == Transcript
    ensures MinutesDue(m, today) ==>
      Fire(i, m, today).newStatus == Done && Fire(i, m, today).polls == [Poll(Minutes, m.minutesDate)]
  {
  }

  /** `done` is terminal, and so is any status off the path: such a meeting
      is never due. */
  lemma DoneIsTerminal(m: Meeting, today: string)
    requires m.status == Done || m.status.OtherStatus?
    ensures !Due(m, today)
  {
  }

  /** Statement dates act as the table's key. */
  predicate KeyedByStatementDate(rows: seq<Meeting>) {
    forall i, j :: 0 <= i < j < |rows| ==> rows[i].statementDate != rows[j].statementDate
  }

  /** With distinct statement dates a run changes at most one meeting: the
      first due one advances one step and every other row is left as it
      was. */
  lemma RunChangesAtMostOne(rows: seq<Meeting>, today: string, now: string)
    requires KeyedByStatementDate(rows)
    ensures var after := Apply(rows, RunScheduler(rows, today), now);
      |after| == |rows|
      && forall i :: 0 <= i < |rows| && after[i] != rows[i] ==>
        && RunScheduler(rows, today).Fired? && i == RunScheduler(rows, today).index
        && Rank(after[i].status) == Rank(rows[i].status) + 1
  {
    var run := RunScheduler(rows, today);
    if run.Fired? {
      var n := run.index;
      FireAdvances(n, rows[n], today);
      forall i | 0 <= i < |rows| && i != n ensures rows[i].statementDate != run.key {
        if i < n { assert rows[i].statementDate != rows[n].statementDate; }
      }
    }
  }

  /** Statuses never move backwards along the path when statement dates are
      distinct. */
  lemma RunIsMonotone(rows: seq<Meeting>, today: string, now: string)
    requires KeyedByStatementDate(rows)
    ensures var after := Apply(rows, RunScheduler(rows, today), now);
      forall i :: 0 <= i < |rows| ==> Rank(after[i].status) >= Rank(rows[i].status)
  {
    RunChangesAtMostOne(rows, today, now);
  }

  /** The update is keyed by statement date alone, so when two rows share a
      statement date the run rewrites both: here a finished meeting is moved
      back to `statement-fetched` because another row with its statement
      date was due. */
  lemma SharedKeyRewritesBoth()
    ensures var rows := [Meeting("2025-06-18", "2025-07-09", Pending, "2025-06-01 09:00:00"), Meeting("2025-06-18", "2025-07-09", Done, "2025-07-09 09:00:00")];
      Apply(rows, RunScheduler(rows, "2025-06-18"), "2025-06-18 09:00:00")[1].status == StatementFetched
  {
    var rows := [Meeting("2025-06-18", "2025-07-09", Pending, "2025-06-01 09:00:00"), Meeting("2025-06-18", "2025-07-09", Done, "2025-07-09 09:00:00")];
    assert Due(rows[0], "2025-06-18");
  }

  /** Running twice on the same day fires the same meeting twice only when
      its minutes date equals its statement date. */
  lemma SecondRunSameDay(rows: seq<Meeting>, today: string, now: string)
    requires KeyedByStatementDate(rows)
    requires RunScheduler(rows, today).Fired?
    ensures var first := RunScheduler(rows, today);
      var second := RunScheduler(Apply(rows, first, now), today);
      second.Fired? && second.index == first.index ==>
        rows[first.index].minutesDate == today == rows[first.index].statementDate
  {
    var first := RunScheduler(rows, today);
    var after := Apply(rows, first, now);
    var n := first.index;
    RunChangesAtMostOne(rows, today, now);
    assert after[n] == rows[n].(status := first.newStatus, updatedAt := now);
  }
}

=== FILE: pipeline.dfy ===
/**
 * The order of the translation pipeline: cut out the `<TEXT>` body, locate
 * the segments in it, send the joined batch to the provider, split the
 * answer back, map it onto the segments by position and rebuild the
 * preprocessed page; and the stand-alone reconstruction step that redoes the
 * last part from a page, segments and a translation read from files.
 */
module Pipeline {
  import opened JsStrings
  import opened Dom
  import opened Segments
  import opened Segmenter
  import opened Reconstructor
  import opened Batching

  /** How a run ends: no `<TEXT>` block, the provider failing on the batch,
      or a rebuilt page with the reconstruction warnings. */
  datatype PipelineRun =
    | NoTextBlock
    | ProviderFailed(batch: string)
    | Translated(batch: string, html: string, warnings: seq<Warning>)

  /** `runTranslatePipeline` on the raw filing. The preprocessing passes,
      the HTML parser and the translation provider are parameters: the
      provider gives nothing when the request fails. */
  function RunTranslatePipeline(raw: string, preprocess: string -> string, parse: string -> seq<Node>,
                                provider: string -> Option<string>): PipelineRun
  {
    match ExtractTextBody(raw)
    case None => NoTextBlock
    case Some(body) =>
      var cleaned := preprocess(body);
      var segs := FindTextPositions(body, parse(body));
      var batch := BatchText(segs);
      match provider(batch)
      case None => ProviderFailed(batch)
      case Some(translated) =>
        var pieces := SplitTranslation(translated);
        var (html, warnings) := ReconstructHtml(cleaned, segs, PositionalMap(segs, pieces));
        Translated(batch, html, warnings)
  }

  /** The run stops before any segment is located exactly when there is no
      `<TEXT>` pair, and stops with no page exactly when the provider fails;
      the batch is the located segments' trimmed texts joined by the
      sentinel, and splitting it gives those texts back when there is at
      least one and none holds a carriage return or the separator symbol. */
  lemma PipelineStages(raw: string, preprocess: string -> string, parse: string -> seq<Node>,
                       provider: string -> Option<string>)
    ensures var r := RunTranslatePipeline(raw, preprocess, parse, provider);
      r.NoTextBlock? <==> FindTextBlock(raw).None?
    ensures var r := RunTranslatePipeline(raw, preprocess, parse, provider);
      !r.NoTextBlock? ==>
        var body := ExtractTextBody(raw).value;
        var segs := FindTextPositions(body, parse(body));
        && r.batch == Join(SegmentTexts(segs), Sentinel)
        && (r.ProviderFailed? <==> provider(r.batch).None?)
    ensures var r := RunTranslatePipeline(raw, preprocess, parse, provider);
      !r.NoTextBlock? ==>
        var body := ExtractTextBody(raw).value;
        var segs := FindTextPositions(body, parse(body));
        (|segs| >= 1 && forall i :: 0 <= i < |segs| ==> SafePiece(segs[i].text)) ==>
          SplitTranslation(r.batch) == SegmentTexts(segs)
  {
    var r := RunTranslatePipeline(raw, preprocess, parse, provider);
    if !r.NoTextBlock? {
      var body := ExtractTextBody(raw).value;
      var segs := FindTextPositions(body, parse(body));
      if |segs| >= 1 && forall i :: 0 <= i < |segs| ==> SafePiece(segs[i].text) {
        BatchRoundTrip(SegmentTexts(segs));
      }
    }
  }

  /** The reconstruction runs on the preprocessed body with segments
      located in the unprocessed one; whatever the provider answers, every
      segment has an entry in the map it uses. */
  lemma PipelineReconstructs(raw: string, preprocess: string -> string, parse: string -> seq<Node>,
                             provider: string -> Option<string>)
    ensures var r := RunTranslatePipeline(raw, preprocess, parse, provider);
      r.Translated? ==>
        var body := ExtractTextBody(raw).value;
        var segs := FindTextPositions(body, parse(body));
        var m := PositionalMap(segs, SplitTranslation(provider(r.batch).value));
        && (forall i :: 0 <= i < |segs| ==> segs[i].id in m)
        && (r.html, r.warnings) == ReconstructHtml(preprocess(body), segs, m)
  {
    var r := RunTranslatePipeline(raw, preprocess, parse, provider);
    if r.Translated? {
      var body := ExtractTextBody(raw).value;
      var segs := FindTextPositions(body, parse(body));
      PositionalMapCoversIds(segs, SplitTranslation(provider(r.batch).value));
    }
  }

  /** Ordered segments that each recover their text are in order for the
      reference splice. */
  lemma {:induction false} OrderedInOrder(html: string, segs: seq<Segment>, q: int)
    requires Ordered(segs)
    requires forall i :: 0 <= i < |segs| ==> Recovers(html, segs[i]) && q <= segs[i].startPos
    ensures InOrderFrom(html, segs, q)
    decreases |segs|
  {
    if |segs| > 0 {
      var rest := segs[1..];
      assert Ordered(rest) by {
        forall i | 0 <= i < |rest| ensures 0 <= rest[i].startPos < rest[i].endPos {
          assert rest[i] == segs[i + 1];
        }
        forall i, j | 0 <= i < j < |rest| ensures rest[i].endPos <= rest[j].startPos {
          assert rest[i] == segs[i + 1] && rest[j] == segs[j + 1];
        }
      }
      forall i | 0 <= i < |rest| ensures Recovers(html, rest[i]) && segs[0].endPos <= rest[i].startPos {
        assert rest[i] == segs[i + 1];
      }
      OrderedInOrder(html, rest, segs[0].endPos);
    }
  }

  /** The map an echoed batch produces is `getTranslationMap`'s. */
  lemma EchoMap(segs: seq<Segment>)
    requires forall i :: 0 <= i < |segs| ==> IsTranslatable(segs[i].text) && SafePiece(segs[i].text)
    ensures PositionalMap(segs, SplitTranslation(BatchText(segs))) == GetTranslationMap(segs)
  {
    if |segs| > 0 {
      var texts := SegmentTexts(segs);
      BatchRoundTrip(texts);
      forall i | 0 <= i < |segs| ensures texts[i] != [] {
        assert |segs[i].text| >= 2;
      }
      EchoMapIsTextMap(segs);
      assert texts == seq(|segs|, i requires 0 <= i < |segs| => segs[i].text);
    }
  }

  /** When preprocessing changes nothing, the provider hands the batch back
      unchanged, every located segment was found through its raw text and
      no text holds a carriage return or the separator symbol, the run
      emits no warning and its page is the body with every located raw text
      replaced by its trimmed text, plus the charset declaration: the white
      space around each text node is lost. */
  lemma PipelineEcho(raw: string, preprocess: string -> string, parse: string -> seq<Node>,
                     provider: string -> Option<string>)
    requires ExtractTextBody(raw).Some?
    requires var body := ExtractTextBody(raw).value;
      var segs := FindTextPositions(body, parse(body));
      && preprocess(body) == body
      && provider(BatchText(segs)) == Some(BatchText(segs))
      && forall i :: 0 <= i < |segs| ==> Recovers(body, segs[i]) && SafePiece(segs[i].text)
    ensures var body := ExtractTextBody(raw).value;
      var segs := FindTextPositions(body, parse(body));
      && InOrderFrom(body, segs, 0)
      && RunTranslatePipeline(raw, preprocess, parse, provider)
        == Translated(BatchText(segs), InjectCharsetMeta(Woven(body, segs, GetTranslationMap(segs), 0)), [])
  {
    var body := ExtractTextBody(raw).value;
    var segs := FindTextPositions(body, parse(body));
    FindTextPositionsIsLocate(body, parse(body));
    forall i | 0 <= i < |segs| ensures IsTranslatable(segs[i].text) {
      assert WellFormed(body, segs[i]);
    }
    EchoMap(segs);
    forall i | 0 <= i < |segs| ensures 0 <= segs[i].startPos {
      assert WellFormed(body, segs[i]);
    }
    OrderedInOrder(body, segs, 0);
    ReconstructIsWoven(body, segs, GetTranslationMap(segs));
  }

  /** What the stand-alone reconstruction step produces: the page, the
      reconstruction warnings and the missing-translation warnings. */
  datatype ScriptRun = ScriptRun(html: string, warnings: seq<Warning>, missing: seq<MissingPiece>)

  /** The stand-alone step over the saved preprocessed page, the saved
      segments and the saved translation. */
  function ReconstructFromArtefacts(html: string, segs: seq<Segment>, translatedRaw: string): ScriptRun {
    var pieces := SplitTranslation(translatedRaw);
    var (out, warnings) := ReconstructHtml(html, segs, PositionalMap(segs, pieces));
    ScriptRun(out, warnings, MissingPieces(segs, pieces))
  }

  /** The stand-alone step warns exactly for the segments past the end of
      the translation's pieces, and every segment gets a map entry. */
  lemma ScriptWarnsForMissing(html: string, segs: seq<Segment>, translatedRaw: string)
    ensures var pieces := SplitTranslation(translatedRaw);
      forall idx :: 0 <= idx < |segs| ==>
        (Warned(ReconstructFromArtefacts(html, segs, translatedRaw).missing, idx) <==> idx >= |pieces|)
    ensures forall i :: 0 <= i < |segs| ==> segs[i].id in PositionalMap(segs, SplitTranslation(translatedRaw))
  {
    MissingPiecesExactly(segs, SplitTranslation(translatedRaw));
    PositionalMapCoversIds(segs, SplitTranslation(translatedRaw));
  }

  /** Given the same preprocessed page, segments and raw translation as a
      pipeline run, the stand-alone step computes that run's page and
      warnings. */
  lemma ScriptAgreesWithPipeline(raw: string, preprocess: string -> string, parse: string -> seq<Node>,
                                 provider: string -> Option<string>)
    ensures var r := RunTranslatePipeline(raw, preprocess, parse, provider);
      r.Translated? ==>
        var body := ExtractTextBody(raw).value;
        var segs := FindTextPositions(body, parse(body));
        var s := ReconstructFromArtefacts(preprocess(body), segs, provider(r.batch).value);
        s.html == r.html && s.warnings == r.warnings
  {
  }
}

=== FILE: polling_job.dfy ===
/**
 * The pure part of the SEC polling job: pad the company's CIK, pick today's
 * first 8-K from the submissions index, and build the archive link to its
 * primary document; every other path ends the job with `false`.
 */
module PollingJob {
  import opened JsStrings

  /** The stock row the job looks up; a column is absent when it holds
      NULL, and `cik` is also absent when it holds an empty value. */
  datatype StockRow = StockRow(cik: Option<string>, symbol: Option<string>)

  /** The parallel arrays of `filings.recent`, each possibly missing from
      the index. They are not required to have equal lengths: reading past
      the end of one yields `undefined`. */
  datatype Filings = Filings(
    filingDate: Option<seq<string>>,
    accessionNumber: Option<seq<string>>,
    form: Option<seq<string>>,
    primaryDocument: Option<seq<string>>)

  /** Why the job stopped with `false`: one of its four checks, or an
      exception caught by the job's `catch`. */
  datatype StopReason = NoCik | NoFilings | NotFiledToday | NoAccession | Threw

  /** A fetch carries the `makelink` archive link, which the job hands on as
      the referer; the page link itself is scraped from it and is not
      modelled. */
  datatype Outcome =
    | Stop(reason: StopReason)
    | Fetch(symbol: string, date: string, refererLink: string)

  /** `xs[i]`, or nothing past the end. */
  function At(xs: seq<string>, i: nat): (r: Option<string>)
    ensures r.Some? <==> i < |xs|
    ensures r.Some? ==> r.value == xs[i]
  {
    if i < |xs| then Some(xs[i]) else None
  }

  /** `cik.toString().padStart(10, "0")`. */
  function PadCik(cik: string): (r: string)
    ensures |r| == if |cik| >= 10 then |cik| else 10
    ensures r[|r| - |cik|..] == cik
    ensures forall i :: 0 <= i < |r| - |cik| ==> r[i] == '0'
  {
    PadStart(cik, 10, '0')
  }

  /** Padding twice is padding once, so re-padding inside the link builder
      changes nothing. */
  lemma PadCikIdempotent(cik: string)
    ensures PadCik(PadCik(cik)) == PadCik(cik)
  {
  }

  /** A numeric CIK keeps its value: only zeros are added in front. */
  lemma {:induction false} PadCikValue(cik: string)
    requires AllDigits(cik)
    ensures AllDigits(PadCik(cik)) && DigitsValue(PadCik(cik)) == DigitsValue(cik)
    decreases 10 - |cik|
  {
    if |cik| < 10 {
      LeadingZeroValue(cik);
      var z := "0" + cik;
      PadCikValue(z);
      assert PadCik(z) == PadCik(cik);
    }
  }

  /** `s.replace(/-/g, "")`. */
  function RemoveDashes(s: string): (r: string)
    ensures |r| <= |s|
    decreases |s|
  {
    if |s| == 0 then []
    else (if s[0] == '-' then [] else [s[0]]) + RemoveDashes(s[1..])
  }

  /** Exactly the dashes go: every other character stays. */
  lemma {:induction false} RemoveDashesChars(s: string)
    ensures forall c :: c in RemoveDashes(s) <==> c in s && c != '-'
    decreases |s|
  {
    if |s| > 0 {
      RemoveDashesChars(s[1..]);
      assert s == [s[0]] + s[1..];
    }
  }

  /** Removal works piecewise: it distributes over concatenation. */
  lemma {:induction false} RemoveDashesAppend(a: string, b: string)
    ensures RemoveDashes(a + b) == RemoveDashes(a) + RemoveDashes(b)
    decreases |a|
  {
    if |a| > 0 {
      assert (a + b)[0] == a[0];
      assert (a + b)[1..] == a[1..] + b;
      RemoveDashesAppend(a[1..], b);
    } else {
      assert a + b == b;
    }
  }

  /** A string without dashes is left alone; in particular removal is
      idempotent. */
  lemma {:induction false} RemoveDashesIdentity(s: string)
    requires '-' !in s
    ensures RemoveDashes(s) == s
    decreases |s|
  {
    if |s| > 0 {
      assert s[0] in s;
      RemoveDashesIdentity(s[1..]);
    }
  }

  /** An accession number `AAAAAAAAAA-YY-NNNNNN` loses exactly its two
      dashes. */
  lemma {:induction false} AccessionDashes(a: string, y: string, n: string)
    requires '-' !in a && '-' !in y && '-' !in n
    ensures RemoveDashes(a + "-" + y + "-" + n) == a + y + n
  {
    var dash: string := "-";
    assert RemoveDashes(dash) == [] by { assert dash[1..] == []; }
    RemoveDashesIdentity(a);
    RemoveDashesIdentity(y);
    RemoveDashesIdentity(n);
    var u1 := a + dash;
    RemoveDashesAppend(a, dash);
    assert RemoveDashes(u1) == a;
    var u2 := u1 + y;
    RemoveDashesAppend(u1, y);
    assert RemoveDashes(u2) == a + y;
    var u3 := u2 + dash;
    RemoveDashesAppend(u2, dash);
    assert RemoveDashes(u3) == a + y;
    RemoveDashesAppend(u3, n);
  }

  /** A template literal shows an absent array element as `undefined`. */
  function Shown(v: Option<string>): string {
    match v
    case Some(s) => s
    case None => "undefined"
  }

  /** The fixed part of every archive link. */
  const ArchivePrefix: string := "https://www.sec.gov/Archives/edgar/data/"

  /** `makelink`: the archive URL of the primary document, the padded CIK,
      the dash-free accession number and the document name joined by
      slashes after the fixed prefix. */
  function MakeLink(cik: string, accession: string, primaryDoc: Option<string>): string {
    ArchivePrefix + Join([PadCik(cik), RemoveDashes(accession), Shown(primaryDoc)], "/")
  }

  lemma {:induction false} JoinThree(a: string, b: string, c: string, sep: string)
    ensures Join([a, b, c], sep) == a + sep + b + sep + c
  {
    assert [a, b, c][1..] == [b, c];
    assert [b, c][1..] == [c];
    assert Join([b, c], sep) == b + sep + c;
    assert Join([a, b, c], sep) == a + sep + (b + sep + c);
  }

  /** Spelled out, the link is the prefix, the padded CIK, a slash, the
      accession number without dashes, a slash and the document. */
  lemma {:induction false} MakeLinkShape(cik: string, accession: string, primaryDoc: Option<string>)
    ensures MakeLink(cik, accession, primaryDoc)
      == ArchivePrefix + PadCik(cik) + "/" + RemoveDashes(accession) + "/" + Shown(primaryDoc)
  {
    JoinThree(PadCik(cik), RemoveDashes(accession), Shown(primaryDoc), "/");
  }

  /** When CIK, accession number and document name hold no slash, the path
      after the fixed prefix splits back into exactly the padded CIK, the
      dash-free accession number and the document name. */
  lemma {:induction false} MakeLinkSplits(cik: string, accession: string, primaryDoc: Option<string>)
    requires '/' !in cik && '/' !in accession && '/' !in Shown(primaryDoc)
    ensures MakeLink(cik, accession, primaryDoc)[..|ArchivePrefix|] == ArchivePrefix
    ensures Split(MakeLink(cik, accession, primaryDoc)[|ArchivePrefix|..], "/")
      == [PadCik(cik), RemoveDashes(accession), Shown(primaryDoc)]
  {
    var c, a, d := PadCik(cik), RemoveDashes(accession), Shown(primaryDoc);
    var p := [c, a, d];
    assert '/' !in c by {
      forall i | 0 <= i < |c| ensures c[i] != '/' {
        if i >= |c| - |cik| { assert c[i] == c[|c| - |cik|..][i - (|c| - |cik|)]; }
      }
    }
    assert '/' !in a by { RemoveDashesChars(accession); }
    var path := Join(p, "/");
    assert (ArchivePrefix + path)[|ArchivePrefix|..] == path;
    assert (ArchivePrefix + path)[..|ArchivePrefix|] == ArchivePrefix;
    SplitJoin(p, "/", 0, '/');
  }

  /** Handing `makelink` a padded CIK makes no difference. */
  lemma MakeLinkPadded(cik: string, accession: string, primaryDoc: Option<string>)
    ensures MakeLink(PadCik(cik), accession, primaryDoc) == MakeLink(cik, accession, primaryDoc)
  {
    PadCikIdempotent(cik);
  }

  /** The first index dated today whose form is `8-K`, the loop over
      `matchingIndexes`. */
  function FirstEightK(dates: seq<string>, form: seq<string>, today: string, from: nat): (r: Option<nat>)
    ensures r.Some? ==> from <= r.value < |dates| && dates[r.value] == today && At(form, r.value) == Some("8-K")
    ensures r.Some? ==> forall j :: from <= j < r.value && dates[j] == today ==> At(form, j) != Some("8-K")
    ensures r.None? ==> forall j :: from <= j < |dates| && dates[j] == today ==> At(form, j) != Some("8-K")
    decreases |dates| - from
  {
    if from >= |dates| then None
    else if dates[from] == today && At(form, from) == Some("8-K") then Some(from)
    else FirstEightK(dates, form, today, from + 1)
  }

  /** `findIndex(date => date === today) !== -1`. */
  predicate FiledToday(dates: seq<string>, today: string) {
    exists i :: 0 <= i < |dates| && dates[i] == today
  }

  predicate NoCikIn(row: Option<StockRow>) {
    row.None? || row.value.cik.None? || row.value.cik.value == []
  }

  /** The decision of `runPollingJob` for the looked-up row, the submissions
      index and the reporting date. Reading a missing array, or lower-casing
      a NULL symbol in `makelink`, throws, and the job's `catch` returns
      `false`. */
  function DecidePolling(row: Option<StockRow>, recent: Option<Filings>, today: string): (r: Outcome)
  {
    if NoCikIn(row) then Stop(NoCik)
    else if recent.None? then Stop(NoFilings)
    else if recent.value.filingDate.None? then Stop(Threw)
    else if !FiledToday(recent.value.filingDate.value, today) then Stop(NotFiledToday)
    else if recent.value.form.None? then Stop(Threw)
    else
      var f := recent.value;
      ReadFiling(row.value.cik.value, row.value.symbol, f, today, FirstEightK(f.filingDate.value, f.form.value, today, 0))
  }

  /** What follows the loop once a filing is dated today: the chosen 8-K's
      accession number and document are read, checked and made into the
      link. */
  function ReadFiling(cik: string, symbol: Option<string>, f: Filings, today: string, chosen: Option<nat>): Outcome {
    if chosen.None? then Stop(NoAccession)
    else if f.accessionNumber.None? || f.primaryDocument.None? then Stop(Threw)
    else
      var accession := At(f.accessionNumber.value, chosen.value);
      if accession.None? || accession.value == [] then Stop(NoAccession)
      else if symbol.None? then Stop(Threw)
      else Fetch(symbol.value, today, MakeLink(PadCik(cik), accession.value, At(f.primaryDocument.value, chosen.value)))
  }

  /** The job fetches exactly when a CIK, a symbol and all four arrays are
      present and the first 8-K dated today has an accession number; the
      link's accession number and document both come from that filing. */
  lemma DecidePollingFetch(row: Option<StockRow>, recent: Option<Filings>, today: string)
    ensures DecidePolling(row, recent, today).Fetch? <==>
      && !NoCikIn(row) && row.value.symbol.Some?
      && recent.Some? && recent.value.filingDate.Some? && recent.value.form.Some?
      && recent.value.accessionNumber.Some? && recent.value.primaryDocument.Some?
      && var f := recent.value;
         var c := FirstEightK(f.filingDate.value, f.form.value, today, 0);
         c.Some? && c.value < |f.accessionNumber.value| && f.accessionNumber.value[c.value] != []
    ensures DecidePolling(row, recent, today).Fetch? ==>
      var f := recent.value;
      var i := FirstEightK(f.filingDate.value, f.form.value, today, 0).value;
      DecidePolling(row, recent, today)
        == Fetch(row.value.symbol.value, today,
                 MakeLink(row.value.cik.value, f.accessionNumber.value[i], At(f.primaryDocument.value, i)))
  {
    if !NoCikIn(row) && recent.Some? && recent.value.filingDate.Some? && recent.value.form.Some? {
      var f := recent.value;
      var chosen := FirstEightK(f.filingDate.value, f.form.value, today, 0);
      if chosen.Some? {
        assert FiledToday(f.filingDate.value, today) by {
          assert f.filingDate.value[chosen.value] == today;
        }
        ReadFilingFetch(row.value.cik.value, row.value.symbol, f, today, chosen);
      }
    }
  }

  /** Once an 8-K is chosen, the filing is read into a fetch exactly when
      the symbol and both remaining arrays are present and the accession
      number is non-empty. */
  lemma ReadFilingFetch(cik: string, symbol: Option<string>, f: Filings, today: string, chosen: Option<nat>)
    requires chosen.Some?
    ensures ReadFiling(cik, symbol, f, today, chosen).Fetch? <==>
      && symbol.Some? && f.accessionNumber.Some? && f.primaryDocument.Some?
      && chosen.value < |f.accessionNumber.value| && f.accessionNumber.value[chosen.value] != []
    ensures ReadFiling(cik, symbol, f, today, chosen).Fetch? ==>
      ReadFiling(cik, symbol, f, today, chosen)
        == Fetch(symbol.value, today,
                 MakeLink(cik, f.accessionNumber.value[chosen.value], At(f.primaryDocument.value, chosen.value)))
  {
    var i := chosen.value;
    if && symbol.Some? && f.accessionNumber.Some? && f.primaryDocument.Some?
       && i < |f.accessionNumber.value| && f.accessionNumber.value[i] != []
    {
      ReadFilingLink(cik, symbol.value, f.accessionNumber.value, f.primaryDocument.value, f, today, i);
    }
  }

  /** The fetch built from a chosen filing links to its accession number and
      document, whatever padding the CIK was given first. */
  lemma ReadFilingLink(cik: string, symbol: string, accessions: seq<string>, docs: seq<string>,
                       f: Filings, today: string, i: nat)
    requires f.accessionNumber == Some(accessions) && f.primaryDocument == Some(docs)
    requires i < |accessions| && accessions[i] != []
    ensures ReadFiling(cik, Some(symbol), f, today, Some(i))
      == Fetch(symbol, today, MakeLink(cik, accessions[i], At(docs, i)))
  {
    MakeLinkPadded(cik, accessions[i], At(docs, i));
  }

  /** Each way of stopping, with the condition that leads to it. */
  lemma DecidePollingStops(row: Option<StockRow>, recent: Option<Filings>, today: string)
    ensures DecidePolling(row, recent, today) == Stop(NoCik) <==> NoCikIn(row)
    ensures DecidePolling(row, recent, today) == Stop(NoFilings) <==> !NoCikIn(row) && recent.None?
    ensures DecidePolling(row, recent, today) == Stop(NotFiledToday) <==>
      && !NoCikIn(row) && recent.Some? && recent.value.filingDate.Some?
      && forall i :: 0 <= i < |recent.value.filingDate.value| ==> recent.value.filingDate.value[i] != today
    ensures DecidePolling(row, recent, today) == Stop(NoAccession) ==>
      var f := recent.value;
      && FiledToday(f.filingDate.value, today)
      && var c := FirstEightK(f.filingDate.value, f.form.value, today, 0);
         (c.None? || At(f.accessionNumber.value, c.value) in {None, Some([])})
  {
  }

  /** Exceptions end the job exactly on a missing `filingDate`, a missing
      `form` when some filing is dated today, a missing accession-number or
      document array when today's 8-K is read from them, or a NULL symbol
      when the link is about to be built. */
  lemma DecidePollingThrows(row: Option<StockRow>, recent: Option<Filings>, today: string)
    requires !NoCikIn(row) && recent.Some?
    ensures var f := recent.value;
      DecidePolling(row, recent, today) == Stop(Threw) <==>
        || f.filingDate.None?
        || (FiledToday(f.filingDate.value, today) && f.form.None?)
        || (FiledToday(f.filingDate.value, today)
            && FirstEightK(f.filingDate.value, f.form.value, today, 0).Some?
            && (f.accessionNumber.None? || f.primaryDocument.None?))
        || (&& FiledToday(f.filingDate.value, today)
            && FirstEightK(f.filingDate.value, f.form.value, today, 0).Some?
            && f.accessionNumber.Some? && f.primaryDocument.Some?
            && At(f.accessionNumber.value, FirstEightK(f.filingDate.value, f.form.value, today, 0).value)
                 !in {None, Some([])}
            && row.value.symbol.None?)
  {
  }
}

=== FILE: reconstructor.dfy ===
/**
 * The reconstruction pass: one walk over the segments that splices each
 * translation into the current string at the recorded range, shifted by the
 * running length difference, falls back to replacing the first literal
 * occurrence when the range no longer verifies, and finally injects a charset
 * declaration after the `<head>` tag.
 */
module Reconstructor {
  import opened JsStrings
  import opened Verifier
  import opened Segments

  /** The two warnings the pass emits on the console, as events. */
  datatype Warning =
    | VerificationFailed(segmentId: int, text: string)
    | FallbackFailed(text: string)

  /** The loop's state: the string built so far, `offsetAdjustment`, and the
      warnings emitted so far. */
  datatype Progress = Progress(html: string, offset: int, warnings: seq<Warning>)

  /** `fallbackReplace`: replace the first literal occurrence of the raw text;
      the flag says whether there was one. */
  function FallbackReplace(html: string, originalText: string, translated: string): (string, bool) {
    match IndexOf(html, originalText, 0)
    case Some(k) => (html[..k] + translated + html[k + |originalText|..], true)
    case None => (html, false)
  }

  /** The fallback succeeds exactly when the raw text occurs somewhere, and
      then replaces its first occurrence; otherwise it changes nothing. */
  lemma FallbackReplaceSpec(html: string, originalText: string, translated: string)
    ensures var r := FallbackReplace(html, originalText, translated);
      && (r.1 <==> exists k :: OccursAt(html, originalText, k))
      && (!r.1 ==> r.0 == html)
      && (r.1 ==> exists k ::
            && OccursAt(html, originalText, k)
            && (forall j :: 0 <= j < k ==> !OccursAt(html, originalText, j))
            && r.0 == html[..k] + translated + html[k + |originalText|..])
  {
  }

  /** The text currently at the segment's range shifted by `offset`. */
  function CurrentText(html: string, offset: int, s: Segment): string {
    Substring(html, s.startPos + offset, s.endPos + offset)
  }

  /** Cutting `[a, b)` out of `h` and putting `t` in its place, written with
      the clamping `substring` calls the loop uses. */
  lemma SpliceShape(h: string, a: int, b: int, t: string)
    requires 0 <= a <= b <= |h|
    ensures var r := Substring(h, 0, a) + t + SubstringFrom(h, b);
      && |r| == |h| - (b - a) + |t|
      && r[..a] == h[..a]
      && r[a..a + |t|] == t
      && r[a + |t|..] == h[b..]
  {
    var r := Substring(h, 0, a) + t + SubstringFrom(h, b);
    assert r == h[..a] + t + h[b..];
  }

  /** The verified branch: splice `t` over the shifted range and grow the
      adjustment by the length difference. */
  function Splice(p: Progress, s: Segment, t: string): Progress {
    Progress(Substring(p.html, 0, s.startPos + p.offset) + t + SubstringFrom(p.html, s.endPos + p.offset),
             p.offset + |t| - |s.originalText|, p.warnings)
  }

  /** The unverified branch: warn, fall back to the first literal
      occurrence, and warn again when there is none. */
  function Fallback(p: Progress, s: Segment, t: string): Progress {
    var fb := FallbackReplace(p.html, s.originalText, t);
    var warned := p.warnings + [VerificationFailed(s.id, s.text)];
    Progress(fb.0, p.offset, if fb.1 then warned else warned + [FallbackFailed(s.text)])
  }

  /** One turn of the loop. */
  function ApplySegment(p: Progress, s: Segment, translations: map<int, string>): Progress {
    if s.id !in translations then p
    else if VerifyPosition(CurrentText(p.html, p.offset, s), s.originalText, s.verification.checksum) then
      Splice(p, s, translations[s.id])
    else
      Fallback(p, s, translations[s.id])
  }

  /** A segment without a translation is skipped. */
  lemma ApplySkipped(p: Progress, s: Segment, translations: map<int, string>)
    requires s.id !in translations
    ensures ApplySegment(p, s, translations) == p
  {
  }

  /** A verified segment has its shifted range replaced by the translation,
      everything around it kept, and the adjustment grows by the length
      difference; no warning is emitted. */
  lemma ApplyVerified(p: Progress, s: Segment, translations: map<int, string>)
    requires s.id in translations
    requires VerifyPosition(CurrentText(p.html, p.offset, s), s.originalText, s.verification.checksum)
    ensures var r := ApplySegment(p, s, translations);
      var a := s.startPos + p.offset;
      var b := s.endPos + p.offset;
      var t := translations[s.id];
      && r.offset == p.offset + |t| - |s.originalText|
      && r.warnings == p.warnings
      && (0 <= a <= b <= |p.html| ==>
            && |r.html| == |p.html| - (b - a) + |t|
            && r.html[..a] == p.html[..a]
            && r.html[a..a + |t|] == t
            && r.html[a + |t|..] == p.html[b..])
  {
    var a := s.startPos + p.offset;
    var b := s.endPos + p.offset;
    ApplySplices(p, s, translations);
    if 0 <= a <= b <= |p.html| {
      SpliceShape(p.html, a, b, translations[s.id]);
    }
  }

  /** An unverified segment goes through the fallback with the adjustment
      unchanged, and leaves one warning, or two when the fallback finds
      nothing. */
  lemma ApplyUnverified(p: Progress, s: Segment, translations: map<int, string>)
    requires s.id in translations
    requires !VerifyPosition(CurrentText(p.html, p.offset, s), s.originalText, s.verification.checksum)
    ensures var r := ApplySegment(p, s, translations);
      var fb := FallbackReplace(p.html, s.originalText, translations[s.id]);
      && r.offset == p.offset
      && r.html == fb.0
      && r.warnings == p.warnings + [VerificationFailed(s.id, s.text)] + (if fb.1 then [] else [FallbackFailed(s.text)])
  {
  }

  /** The loop over the segments in list order. */
  function ReplaySegments(p: Progress, segs: seq<Segment>, translations: map<int, string>): (r: Progress)
    ensures |p.warnings| <= |r.warnings| <= |p.warnings| + 2 * |segs|
    ensures r.warnings[..|p.warnings|] == p.warnings
    decreases |segs|
  {
    if |segs| == 0 then p
    else ReplaySegments(ApplySegment(p, segs[0], translations), segs[1..], translations)
  }

  const MetaTag: string := "<meta http-equiv=\"Content-Type\" content=\"text/html; charset=UTF-8\">"

  /** Where `/<head[^>]*>/i` matches: the first case-insensitive `<head` that
      has a `>` anywhere after it, and the first such `>`. Since the negated
      class cannot cross a `>`, a later `<head` could only close on the same
      `>`, so the first `<head` decides. */
  function HeadTag(html: string): (r: Option<(nat, nat)>)
    ensures r.Some? ==>
      var (k, e) := r.value;
      && OccursAtIgnoreCase(html, "<head", k)
      && (forall j :: 0 <= j < k ==> !OccursAtIgnoreCase(html, "<head", j))
      && k + 5 <= e < |html| && html[e] == '>'
      && (forall j :: k + 5 <= j < e ==> html[j] != '>')
    ensures r.None? <==>
      forall k, j :: OccursAtIgnoreCase(html, "<head", k) && k + 5 <= j < |html| ==> html[j] != '>'
  {
    match IndexOfIgnoreCase(html, "<head", 0)
    case None => None
    case Some(k) =>
      match IndexOf(html, ">", k + 5)
      case None =>
        assert forall j :: k + 5 <= j < |html| ==> html[j] != '>' by {
          forall j | k + 5 <= j < |html| ensures html[j] != '>' {
            assert !OccursAt(html, ">", j);
            assert html[j..j + 1] == [html[j]];
          }
        }
        None
      case Some(e) =>
        assert html[e..e + 1] == ">";
        assert forall j :: k + 5 <= j < e ==> html[j] != '>' by {
          forall j | k + 5 <= j < e ensures html[j] != '>' {
            assert !OccursAt(html, ">", j);
            assert html[j..j + 1] == [html[j]];
          }
        }
        Some((k, e))
  }

  /** `html.replace(/(<head[^>]*>)/i, "$1\n    " + metaTag)` behind the
      matching `test`: the declaration goes on its own line right after the
      tag; without a match the string is unchanged. */
  function InjectCharsetMeta(html: string): (r: string)
    ensures HeadTag(html).None? ==> r == html
    ensures HeadTag(html).Some? ==>
      var e := HeadTag(html).value.1 + 1;
      r == html[..e] + "\n    " + MetaTag + html[e..]
  {
    match HeadTag(html)
    case None => html
    case Some((_, e)) => html[..e + 1] + "\n    " + MetaTag + html[e + 1..]
  }

  /** `reconstructHtml`: the loop from the source string with a zero
      adjustment, then the charset injection; the warnings come out beside
      the result. */
  function ReconstructHtml(html: string, segs: seq<Segment>, translations: map<int, string>): (r: (string, seq<Warning>))
    ensures |r.1| <= 2 * |segs|
  {
    var p := ReplaySegments(Progress(html, 0, []), segs, translations);
    (InjectCharsetMeta(p.html), p.warnings)
  }

  // ---------------------------------------------------------------------
  // The loop against a reference splice
  // ---------------------------------------------------------------------

  /** Segments that each recover their text in `html`, in ascending disjoint
      ranges starting at or after `q`. */
  predicate InOrderFrom(html: string, segs: seq<Segment>, q: int)
    decreases |segs|
  {
    |segs| == 0 ||
      (q <= segs[0].startPos && Recovers(html, segs[0]) && InOrderFrom(html, segs[1..], segs[0].endPos))
  }

  /** Only the first range is checked against the starting point, so an
      earlier starting point is also fine. */
  lemma InOrderFromEarlier(html: string, segs: seq<Segment>, q: int, q2: int)
    requires q <= q2 && InOrderFrom(html, segs, q2)
    ensures InOrderFrom(html, segs, q)
  {
  }

  /** The reference result: from source position `q` on, each segment with a
      translation has its recorded range replaced by that translation, and
      everything between the ranges is copied from the source. */
  function Woven(html: string, segs: seq<Segment>, translations: map<int, string>, q: nat): string
    requires q <= |html| && InOrderFrom(html, segs, q)
    decreases |segs|
  {
    if |segs| == 0 then html[q..]
    else
      var s := segs[0];
      if s.id in translations then
        html[q..s.startPos] + translations[s.id] + Woven(html, segs[1..], translations, s.endPos)
      else
        InOrderFromEarlier(html, segs[1..], q, s.endPos);
        Woven(html, segs[1..], translations, q)
  }

  /** One splice step: with the built prefix `pre` in front of the untouched
      source tail `html[q..]`, a recovering segment at or after `q` verifies,
      and splicing it yields a longer prefix in front of `html[s.endPos..]`. */
  lemma SpliceStep(pre: string, html: string, q: nat, s: Segment, t: string)
    requires q <= s.startPos && Recovers(html, s)
    ensures var cur := pre + html[q..];
      var offset := |pre| - q;
      var next := pre + html[q..s.startPos] + t;
      && CurrentText(cur, offset, s) == s.originalText
      && Substring(cur, 0, s.startPos + offset) + t + SubstringFrom(cur, s.endPos + offset) == next + html[s.endPos..]
      && offset + |t| - |s.originalText| == |next| - s.endPos
  {
    var cur := pre + html[q..];
    var offset := |pre| - q;
    var a := s.startPos + offset;
    var b := s.endPos + offset;
    assert cur[a..b] == html[s.startPos..s.endPos];
    assert cur[..a] == pre + html[q..s.startPos];
    assert cur[b..] == html[s.endPos..];
  }

  /** The loop's turn on a segment with a translation, in the situation of
      `SpliceStep`. */
  lemma ApplyStep(pre: string, html: string, q: nat, s: Segment, translations: map<int, string>, w: seq<Warning>)
    requires q <= s.startPos && Recovers(html, s) && s.id in translations
    ensures var next := pre + html[q..s.startPos] + translations[s.id];
      ApplySegment(Progress(pre + html[q..], |pre| - q, w), s, translations)
        == Progress(next + html[s.endPos..], |next| - s.endPos, w)
  {
    var p := Progress(pre + html[q..], |pre| - q, w);
    SpliceStep(pre, html, q, s, translations[s.id]);
    UntouchedSpanVerifies(s.originalText, s.verification.checksum);
    ApplySplices(p, s, translations);
  }

  /** A turn whose shifted range verifies splices there. */
  lemma {:induction false} ApplySplices(p: Progress, s: Segment, translations: map<int, string>)
    requires s.id in translations
    requires VerifyPosition(CurrentText(p.html, p.offset, s), s.originalText, s.verification.checksum)
    ensures var t := translations[s.id];
      ApplySegment(p, s, translations) == Progress(
        Substring(p.html, 0, s.startPos + p.offset) + t + SubstringFrom(p.html, s.endPos + p.offset),
        p.offset + |t| - |s.originalText|, p.warnings)
  {
  }

  /** The loop computes the reference splice: started on `pre + html[q..]`
      with the matching adjustment, every segment verifies, no warning is
      emitted, and the result is `pre` followed by the woven tail. */
  lemma {:induction false} ReplayIsWoven(pre: string, html: string, segs: seq<Segment>, translations: map<int, string>, q: nat, w: seq<Warning>)
    requires q <= |html| && InOrderFrom(html, segs, q)
    ensures ReplaySegments(Progress(pre + html[q..], |pre| - q, w), segs, translations)
      == Progress(pre + Woven(html, segs, translations, q), |pre| + |Woven(html, segs, translations, q)| - |html|, w)
    decreases |segs|
  {
    if |segs| > 0 {
      var s := segs[0];
      var p := Progress(pre + html[q..], |pre| - q, w);
      if s.id in translations {
        ApplyStep(pre, html, q, s, translations, w);
        var next := pre + html[q..s.startPos] + translations[s.id];
        ReplayIsWoven(next, html, segs[1..], translations, s.endPos, w);
      } else {
        InOrderFromEarlier(html, segs[1..], q, s.endPos);
        ReplayIsWoven(pre, html, segs[1..], translations, q, w);
      }
    } else {
      assert |html[q..]| == |html| - q;
    }
  }

  /** Reconstruction over ordered, recovering segments is the woven source
      with the charset declaration injected, and emits no warning. */
  lemma ReconstructIsWoven(html: string, segs: seq<Segment>, translations: map<int, string>)
    requires InOrderFrom(html, segs, 0)
    ensures ReconstructHtml(html, segs, translations) == (InjectCharsetMeta(Woven(html, segs, translations, 0)), [])
  {
    var empty: string := [];
    ReplayIsWoven(empty, html, segs, translations, 0, []);
    assert empty + html[0..] == html;
    var woven := Woven(html, segs, translations, 0);
    assert empty + woven == woven;
    assert ReplaySegments(Progress(html, 0, []), segs, translations).html == woven;
  }

  /** Splicing a recovering segment's own raw text back over it, with no
      adjustment, leaves the page as it was. */
  lemma SelfSplice(html: string, s: Segment, w: seq<Warning>)
    requires Recovers(html, s)
    ensures CurrentText(html, 0, s) == s.originalText
    ensures Splice(Progress(html, 0, w), s, s.originalText) == Progress(html, 0, w)
  {
    assert html == html[..s.startPos] + html[s.startPos..s.endPos] + html[s.endPos..];
  }

  /** Translating every segment to its own raw text changes nothing but the
      charset line, whatever the order of the segments, as long as each one
      recovers its text. */
  lemma {:induction false} ReplayIdentity(html: string, segs: seq<Segment>, translations: map<int, string>, w: seq<Warning>)
    requires forall i :: 0 <= i < |segs| ==> Recovers(html, segs[i])
    requires forall i :: 0 <= i < |segs| && segs[i].id in translations ==> translations[segs[i].id] == segs[i].originalText
    ensures ReplaySegments(Progress(html, 0, w), segs, translations) == Progress(html, 0, w)
    decreases |segs|
  {
    if |segs| > 0 {
      var s := segs[0];
      var p := Progress(html, 0, w);
      if s.id in translations {
        SelfSplice(html, s, w);
        UntouchedSpanVerifies(s.originalText, s.verification.checksum);
        assert ApplySegment(p, s, translations) == p;
      }
      ReplayIdentity(html, segs[1..], translations, w);
    }
  }

  lemma ReconstructIdentity(html: string, segs: seq<Segment>, translations: map<int, string>)
    requires forall i :: 0 <= i < |segs| ==> Recovers(html, segs[i])
    requires forall i :: 0 <= i < |segs| && segs[i].id in translations ==> translations[segs[i].id] == segs[i].originalText
    ensures ReconstructHtml(html, segs, translations) == (InjectCharsetMeta(html), [])
  {
    ReplayIdentity(html, segs, translations, []);
  }
}

=== FILE: segmenter.dfy ===
/**
 * The extraction pass of the position-preserving translator: walk the
 * document's text nodes, keep the translatable ones, locate each in the raw
 * source moving strictly forward, and record its range. The result is then
 * sorted by start position and renumbered, both of which turn out to leave it
 * unchanged.
 */
module Segmenter {
  import opened JsStrings
  import opened Escape
  import opened Verifier
  import opened Dom
  import opened Segments

  /** Characters the "numbers and punctuation only" pattern accepts: ASCII
      digits, whitespace and `. , ; : ! ? - ( )`. */
  predicate IsNumberish(c: char) {
    IsDigit(c) || IsWhitespace(c)
    || c == '.' || c == ',' || c == ';' || c == ':' || c == '!' || c == '?'
    || c == '-' || c == '(' || c == ')'
  }

  /** `/^\s*$/`: the starred class matched one character at a time. */
  predicate MatchesBlank(s: string)
    decreases |s|
  {
    |s| == 0 || (IsWhitespace(s[0]) && MatchesBlank(s[1..]))
  }

  /** `/^[\d\s\.,;:!?\-()]*$/`. */
  predicate MatchesNumberish(s: string)
    decreases |s|
  {
    |s| == 0 || (IsNumberish(s[0]) && MatchesNumberish(s[1..]))
  }

  /** The three rejections in the order they are tried: shorter than two code
      units, whitespace only, digits/whitespace/punctuation only. */
  predicate IsTranslatable(text: string) {
    if |text| < 2 then false
    else if MatchesBlank(text) then false
    else if MatchesNumberish(text) then false
    else true
  }

  /** The scan for the numeric pattern fails exactly at a character outside
      its class. */
  lemma {:induction false} MatchesNumberishIff(s: string)
    ensures MatchesNumberish(s) <==> forall i :: 0 <= i < |s| ==> IsNumberish(s[i])
    decreases |s|
  {
    if |s| > 0 {
      MatchesNumberishIff(s[1..]);
      assert forall i :: 1 <= i < |s| ==> s[1..][i - 1] == s[i];
    }
  }

  /** A blank string also matches the numeric pattern. */
  lemma {:induction false} BlankIsNumberish(s: string)
    requires MatchesBlank(s)
    ensures MatchesNumberish(s)
    decreases |s|
  {
    if |s| > 0 {
      BlankIsNumberish(s[1..]);
    }
  }

  /** The whitespace test is subsumed by the punctuation test: a text is
      translatable exactly when it has two or more code units and at least one
      of them is neither a digit, whitespace nor listed punctuation. */
  lemma TranslatableIff(text: string)
    ensures IsTranslatable(text) <==> |text| >= 2 && exists i :: 0 <= i < |text| && !IsNumberish(text[i])
  {
    MatchesNumberishIff(text);
    if MatchesBlank(text) {
      BlankIsNumberish(text);
    }
  }

  /** `findExactPosition`: the first occurrence of the raw data at or after
      `offset`, and only when there is none, the first occurrence of its
      escaped form. */
  function FindExactPosition(html: string, data: string, offset: nat): (r: Option<nat>)
    requires offset <= |html|
    ensures r.Some? ==> offset <= r.value && r.value + |data| <= |html| && FoundAt(html, data, r.value)
  {
    match IndexOf(html, data, offset)
    case Some(p) => Some(p)
    case None =>
      EscapeHtmlPerChar(data);
      IndexOf(html, EscapeHtml(data), offset)
  }

  /** The raw data, or failing that its escaped form, starts at `k`. */
  predicate FoundAt(html: string, data: string, k: int) {
    OccursAt(html, data, k) || OccursAt(html, EscapeHtml(data), k)
  }

  /** The raw form is preferred: when it occurs at or after the offset the
      result is its first such occurrence; otherwise the result is the first
      occurrence of the escaped form; and the search fails exactly when
      neither form occurs there. */
  lemma FindExactPositionChoice(html: string, data: string, offset: nat)
    requires offset <= |html|
    ensures (exists k :: offset <= k && OccursAt(html, data, k)) ==>
      var r := FindExactPosition(html, data, offset);
      r.Some? && OccursAt(html, data, r.value) && forall k :: offset <= k < r.value ==> !OccursAt(html, data, k)
    ensures (forall k :: offset <= k ==> !OccursAt(html, data, k)) ==>
      var r := FindExactPosition(html, data, offset);
      r.Some? ==> OccursAt(html, EscapeHtml(data), r.value)
                  && forall k :: offset <= k < r.value ==> !OccursAt(html, EscapeHtml(data), k)
    ensures FindExactPosition(html, data, offset).None? <==>
      forall k :: offset <= k ==> !OccursAt(html, data, k) && !OccursAt(html, EscapeHtml(data), k)
  {
  }

  /** The record built for a text node found at `position`. */
  function MakeSegment(html: string, data: string, position: nat, id: int): Segment {
    Segment(id, Trim(data), data, position, position + |data|, CreateVerification(html, data, position))
  }

  /** What a segment located in `html` satisfies on its own: trimmed
      translatable text, a range of the raw data's length that starts where
      the data or its escaped form occurs, and the context record of that
      position. */
  predicate WellFormed(html: string, s: Segment) {
    && s.text == Trim(s.originalText)
    && IsTranslatable(s.text)
    && 0 <= s.startPos
    && s.endPos == s.startPos + |s.originalText| <= |html|
    && FoundAt(html, s.originalText, s.startPos)
    && s.verification == CreateVerification(html, s.originalText, s.startPos)
  }

  /** A text node the walk located: its place among the visited texts, its
      data and where it was found. */
  datatype Hit = Hit(index: nat, data: string, position: nat)

  /** Where the search cursor moves after a hit. */
  function EndOf(h: Hit): nat {
    h.position + |h.data|
  }

  /** A hit the fold may report when started at `offset` over `texts`:
      translatable data taken from `texts`, found at or after `offset`, with
      its whole raw length inside the source. */
  predicate HitOk(html: string, texts: seq<string>, offset: nat, h: Hit) {
    && offset <= h.position
    && h.data in texts
    && IsTranslatable(Trim(h.data))
    && 0 < |h.data|
    && EndOf(h) <= |html|
    && FoundAt(html, h.data, h.position)
  }

  /** Hit ranges are non-empty, ascending and disjoint. */
  predicate HitsOrdered(hits: seq<Hit>) {
    forall i, j :: 0 <= i < j < |hits| ==> EndOf(hits[i]) <= hits[j].position
  }

  predicate HitsFrom(html: string, texts: seq<string>, offset: nat, hits: seq<Hit>) {
    && (forall i :: 0 <= i < |hits| ==> HitOk(html, texts, offset, hits[i]))
    && HitsOrdered(hits)
  }

  /** A hit ending where the later hits begin their search goes in front. */
  lemma HitsFromCons(html: string, texts: seq<string>, offset: nat, h: Hit, tail: seq<Hit>)
    requires HitOk(html, texts, offset, h)
    requires HitsFrom(html, texts, EndOf(h), tail)
    ensures HitsFrom(html, texts, offset, [h] + tail)
  {
    var hits := [h] + tail;
    forall i | 0 <= i < |hits| ensures HitOk(html, texts, offset, hits[i]) {
      if i > 0 {
        assert hits[i] == tail[i - 1];
        assert HitOk(html, texts, EndOf(h), tail[i - 1]);
      }
    }
    forall i, j | 0 <= i < j < |hits| ensures EndOf(hits[i]) <= hits[j].position {
      assert hits[j] == tail[j - 1];
      assert HitOk(html, texts, EndOf(h), tail[j - 1]);
      if i > 0 {
        assert hits[i] == tail[i - 1];
      }
    }
  }

  /** The search cursor in front of hit `i`: the start offset, then the end
      of the previous hit. */
  function CursorBefore(hits: seq<Hit>, i: nat, offset: nat): nat
    requires i <= |hits|
  {
    if i == 0 then offset else EndOf(hits[i - 1])
  }

  /** The text indices passed over in front of hit `i` run from `GapStart`
      up to, not including, `GapEnd`. */
  function GapStart(hits: seq<Hit>, i: nat, from: nat): nat
    requires i <= |hits|
  {
    if i == 0 then from else hits[i - 1].index + 1
  }

  function GapEnd(hits: seq<Hit>, i: nat, n: nat): nat
    requires i <= |hits|
  {
    if i < |hits| then hits[i].index else n
  }

  /** The callback lets a text go: it is not translatable once trimmed, or
      neither its raw nor its escaped form occurs from the cursor on. */
  predicate PassedOver(html: string, d: string, cursor: nat) {
    !IsTranslatable(Trim(d)) || (cursor <= |html| && FindExactPosition(html, d, cursor).None?)
  }

  /** Hits come from increasing text indices at or after `from`. */
  predicate HitsIndexed(texts: seq<string>, from: nat, hits: seq<Hit>) {
    && (forall i :: 0 <= i < |hits| ==> from <= hits[i].index < |texts| && hits[i].data == texts[hits[i].index])
    && (forall i, j :: 0 <= i < j < |hits| ==> hits[i].index < hits[j].index)
  }

  /** Each hit is translatable and sits where `findExactPosition` puts it
      from the cursor current at that hit. */
  predicate HitsPositioned(html: string, offset: nat, hits: seq<Hit>) {
    forall i :: 0 <= i < |hits| ==>
      && IsTranslatable(Trim(hits[i].data))
      && CursorBefore(hits, i, offset) <= |html|
      && FindExactPosition(html, hits[i].data, CursorBefore(hits, i, offset)) == Some(hits[i].position)
  }

  /** Every text in a gap between hits was passed over at that gap's
      cursor. */
  predicate GapsPassed(html: string, texts: seq<string>, from: nat, offset: nat, hits: seq<Hit>) {
    forall i, j :: 0 <= i <= |hits| && GapStart(hits, i, from) <= j < GapEnd(hits, i, |texts|) && j < |texts| ==>
      PassedOver(html, texts[j], CursorBefore(hits, i, offset))
  }

  /** The hits are exactly what the walk's callback reports over
      `texts[from..]` from cursor `offset`. */
  predicate HitsExact(html: string, texts: seq<string>, from: nat, offset: nat, hits: seq<Hit>) {
    HitsIndexed(texts, from, hits) && HitsPositioned(html, offset, hits) && GapsPassed(html, texts, from, offset, hits)
  }

  /** A text passed over at the cursor joins the first gap. */
  lemma ExactSkip(html: string, texts: seq<string>, from: nat, offset: nat, rest: seq<Hit>)
    requires from < |texts|
    requires PassedOver(html, texts[from], offset)
    requires HitsExact(html, texts, from + 1, offset, rest)
    ensures HitsExact(html, texts, from, offset, rest)
  {
    forall i, j | 0 <= i <= |rest| && GapStart(rest, i, from) <= j < GapEnd(rest, i, |texts|) && j < |texts|
      ensures PassedOver(html, texts[j], CursorBefore(rest, i, offset))
    {
      if i > 0 || j > from {
        assert GapStart(rest, i, from + 1) <= j;
      }
    }
  }

  /** Putting a hit in front shifts the cursors and gaps of the later hits
      by one place. */
  lemma ShiftedGaps(texts: seq<string>, from: nat, offset: nat, h: Hit, tail: seq<Hit>)
    ensures var hits := [h] + tail;
      forall i :: 1 <= i <= |hits| ==>
        && CursorBefore(hits, i, offset) == CursorBefore(tail, i - 1, EndOf(h))
        && (h.index == from ==> GapStart(hits, i, from) == GapStart(tail, i - 1, from + 1))
        && GapEnd(hits, i, |texts|) == GapEnd(tail, i - 1, |texts|)
  {
    var hits := [h] + tail;
    forall i | 1 <= i <= |hits|
      ensures CursorBefore(hits, i, offset) == CursorBefore(tail, i - 1, EndOf(h))
      ensures h.index == from ==> GapStart(hits, i, from) == GapStart(tail, i - 1, from + 1)
      ensures GapEnd(hits, i, |texts|) == GapEnd(tail, i - 1, |texts|)
    {
      if i > 1 {
        assert hits[i - 1] == tail[i - 2];
      }
      if i < |hits| {
        assert hits[i] == tail[i - 1];
      }
    }
  }

  lemma IndexedCons(texts: seq<string>, from: nat, h: Hit, tail: seq<Hit>)
    requires from < |texts| && h.index == from && h.data == texts[from]
    requires HitsIndexed(texts, from + 1, tail)
    ensures HitsIndexed(texts, from, [h] + tail)
  {
    var hits := [h] + tail;
    forall i | 0 <= i < |hits|
      ensures from <= hits[i].index < |texts| && hits[i].data == texts[hits[i].index]
    {
      if i > 0 { assert hits[i] == tail[i - 1]; }
    }
    forall i, j | 0 <= i < j < |hits| ensures hits[i].index < hits[j].index {
      assert hits[j] == tail[j - 1];
      if i > 0 { assert hits[i] == tail[i - 1]; }
    }
  }

  lemma PositionedCons(html: string, texts: seq<string>, from: nat, offset: nat, h: Hit, tail: seq<Hit>)
    requires offset <= |html| && IsTranslatable(Trim(h.data))
    requires FindExactPosition(html, h.data, offset) == Some(h.position)
    requires HitsPositioned(html, EndOf(h), tail)
    ensures HitsPositioned(html, offset, [h] + tail)
  {
    var hits := [h] + tail;
    ShiftedGaps(texts, from, offset, h, tail);
    forall i | 0 <= i < |hits|
      ensures && IsTranslatable(Trim(hits[i].data))
              && CursorBefore(hits, i, offset) <= |html|
              && FindExactPosition(html, hits[i].data, CursorBefore(hits, i, offset)) == Some(hits[i].position)
    {
      if i > 0 { assert hits[i] == tail[i - 1]; }
    }
  }

  lemma GapsCons(html: string, texts: seq<string>, from: nat, offset: nat, h: Hit, tail: seq<Hit>)
    requires h.index == from
    requires GapsPassed(html, texts, from + 1, EndOf(h), tail)
    ensures GapsPassed(html, texts, from, offset, [h] + tail)
  {
    var hits := [h] + tail;
    ShiftedGaps(texts, from, offset, h, tail);
    forall i, j | 0 <= i <= |hits| && GapStart(hits, i, from) <= j < GapEnd(hits, i, |texts|) && j < |texts|
      ensures PassedOver(html, texts[j], CursorBefore(hits, i, offset))
    {
      assert i > 0;
    }
  }

  /** A text found at the cursor becomes the first hit. */
  lemma ExactCons(html: string, texts: seq<string>, from: nat, offset: nat, h: Hit, tail: seq<Hit>)
    requires from < |texts| && offset <= |html|
    requires h.index == from && h.data == texts[from] && IsTranslatable(Trim(h.data))
    requires FindExactPosition(html, h.data, offset) == Some(h.position)
    requires HitsExact(html, texts, from + 1, EndOf(h), tail)
    ensures HitsExact(html, texts, from, offset, [h] + tail)
  {
    IndexedCons(texts, from, h, tail);
    PositionedCons(html, texts, from, offset, h, tail);
    GapsCons(html, texts, from, offset, h, tail);
  }

  /** The walk's callback folded over the visited text data from index
      `from`: translatable texts are searched for from `searchOffset`, which
      moves to the end of each text found; the others are passed over. The
      hits are sound (each is a translatable visited text occurring where it
      is reported, in ascending disjoint ranges) and complete (every text
      without a hit was untranslatable or not found from the cursor). */
  function LocateHits(html: string, texts: seq<string>, from: nat, offset: nat): (hits: seq<Hit>)
    requires from <= |texts| && offset <= |html|
    ensures |hits| <= |texts| - from
    ensures HitsFrom(html, texts, offset, hits)
    ensures HitsExact(html, texts, from, offset, hits)
    decreases |texts| - from
  {
    if from == |texts| then []
    else
      var d := texts[from];
      var found := if IsTranslatable(Trim(d)) then FindExactPosition(html, d, offset) else None;
      match found
      case None =>
        var rest := LocateHits(html, texts, from + 1, offset);
        ExactSkip(html, texts, from, offset, rest);
        rest
      case Some(p) =>
        var h := Hit(from, d, p);
        var tail := LocateHits(html, texts, from + 1, EndOf(h));
        TrimLength(d);
        HitsFromCons(html, texts, offset, h, tail);
        ExactCons(html, texts, from, offset, h, tail);
        [h] + tail
  }

  lemma TrimLength(s: string)
    ensures |Trim(s)| <= |s|
  {
    TrimStartShape(s);
    TrimEndShape(TrimStart(s));
  }

  /** The located texts as segment records, numbered in walk order. */
  function Locate(html: string, texts: seq<string>): seq<Segment> {
    SegmentsOf(html, LocateHits(html, texts, 0, 0))
  }

  /** One segment per hit, numbered by list position. */
  function SegmentsOf(html: string, hits: seq<Hit>): (r: seq<Segment>)
    ensures |r| == |hits|
    ensures forall i :: 0 <= i < |hits| ==> r[i] == MakeSegment(html, hits[i].data, hits[i].position, i)
  {
    seq(|hits|, i requires 0 <= i < |hits| => MakeSegment(html, hits[i].data, hits[i].position, i))
  }

  /** The walk's segments come out numbered 0..n-1, in ascending disjoint
      ranges, each well formed and made from one of the visited texts. */
  lemma LocateProperties(html: string, texts: seq<string>)
    ensures DenseIds(Locate(html, texts)) && Ordered(Locate(html, texts))
    ensures |Locate(html, texts)| <= |texts|
    ensures forall i :: 0 <= i < |Locate(html, texts)| ==>
      WellFormed(html, Locate(html, texts)[i]) && Locate(html, texts)[i].originalText in texts
  {
    SegmentsOfHits(html, texts, LocateHits(html, texts, 0, 0));
  }

  /** Hits in ascending disjoint order, each found in `html`, make segments
      numbered 0..n-1 in ascending disjoint ranges, each well formed. */
  lemma SegmentsOfHits(html: string, texts: seq<string>, hits: seq<Hit>)
    requires HitsFrom(html, texts, 0, hits)
    ensures DenseIds(SegmentsOf(html, hits)) && Ordered(SegmentsOf(html, hits))
    ensures forall i :: 0 <= i < |hits| ==>
      WellFormed(html, SegmentsOf(html, hits)[i]) && SegmentsOf(html, hits)[i].originalText in texts
  {
    var segs := SegmentsOf(html, hits);
    forall i | 0 <= i < |segs| ensures WellFormed(html, segs[i]) && segs[i].originalText in texts {
      assert HitOk(html, texts, 0, hits[i]);
    }
    forall i, j | 0 <= i < j < |segs| ensures segs[i].endPos <= segs[j].startPos {
      assert HitsOrdered(hits);
    }
  }

  /** Segments ordered by start position, ties kept in list order. */
  predicate SortedByStart(segs: seq<Segment>) {
    forall i, j :: 0 <= i < j < |segs| ==> segs[i].startPos <= segs[j].startPos
  }

  /** Appending an element that starts no earlier than any other keeps the
      order. */
  lemma AppendSorted(front: seq<Segment>, last: Segment)
    requires SortedByStart(front)
    requires forall i :: 0 <= i < |front| ==> front[i].startPos <= last.startPos
    ensures SortedByStart(front + [last])
  {
  }

  /** Insertion after every element that does not start later: the stable
      placement the engine's comparator sort gives. */
  function InsertByStart(sorted: seq<Segment>, x: Segment): (r: seq<Segment>)
    ensures multiset(r) == multiset(sorted) + multiset{x}
    decreases |sorted|
  {
    if |sorted| == 0 then [x]
    else
      var n := |sorted| - 1;
      if sorted[n].startPos <= x.startPos then sorted + [x]
      else
        assert sorted == sorted[..n] + [sorted[n]];
        InsertByStart(sorted[..n], x) + [sorted[n]]
  }

  /** Inserting into a sorted list gives a sorted list. */
  lemma {:induction false} InsertKeepsSorted(sorted: seq<Segment>, x: Segment)
    requires SortedByStart(sorted)
    ensures SortedByStart(InsertByStart(sorted, x))
    decreases |sorted|
  {
    if |sorted| > 0 {
      var n := |sorted| - 1;
      var last := sorted[n];
      if last.startPos <= x.startPos {
        AppendSorted(sorted, x);
      } else {
        var init := sorted[..n];
        InsertKeepsSorted(init, x);
        var front := InsertByStart(init, x);
        InsertBelow(init, x, last.startPos);
        AppendSorted(front, last);
      }
    }
  }

  /** Inserting an element that starts no later than a bound into a list
      whose elements all do gives such a list. */
  lemma InsertBelow(sorted: seq<Segment>, x: Segment, bound: int)
    requires forall i :: 0 <= i < |sorted| ==> sorted[i].startPos <= bound
    requires x.startPos <= bound
    ensures forall i :: 0 <= i < |InsertByStart(sorted, x)| ==> InsertByStart(sorted, x)[i].startPos <= bound
  {
    var r := InsertByStart(sorted, x);
    forall i | 0 <= i < |r| ensures r[i].startPos <= bound {
      assert r[i] in multiset(r);
      if r[i] != x {
        assert r[i] in multiset(sorted);
        var k :| 0 <= k < |sorted| && sorted[k] == r[i];
      }
    }
  }

  /** `segments.sort((a, b) => a.startPos - b.startPos)`. */
  function SortByStart(segs: seq<Segment>): (r: seq<Segment>)
    ensures SortedByStart(r)
    ensures multiset(r) == multiset(segs)
    decreases |segs|
  {
    if |segs| == 0 then []
    else
      var n := |segs| - 1;
      var front := SortByStart(segs[..n]);
      InsertKeepsSorted(front, segs[n]);
      assert segs == segs[..n] + [segs[n]];
      InsertByStart(front, segs[n])
  }

  /** The sort's last step: insert the last element into the sorted front. */
  lemma SortByStartLast(segs: seq<Segment>)
    requires |segs| > 0
    ensures SortByStart(segs) == InsertByStart(SortByStart(segs[..|segs| - 1]), segs[|segs| - 1])
  {
  }

  /** An element starting no earlier than the last one is appended. */
  lemma InsertAtEnd(sorted: seq<Segment>, x: Segment)
    requires sorted == [] || sorted[|sorted| - 1].startPos <= x.startPos
    ensures InsertByStart(sorted, x) == sorted + [x]
  {
  }

  /** The front of a list in start order is in start order and ends no
      later than the last element starts. */
  lemma SortedFront(segs: seq<Segment>)
    requires SortedByStart(segs) && |segs| > 0
    ensures var n := |segs| - 1;
      SortedByStart(segs[..n]) && (n > 0 ==> segs[..n][n - 1].startPos <= segs[n].startPos)
  {
  }

  lemma SplitLast<T>(xs: seq<T>)
    requires |xs| > 0
    ensures xs == xs[..|xs| - 1] + [xs[|xs| - 1]]
  {
  }

  /** Sorting a list already in start order changes nothing. */
  lemma {:induction false} SortSortedIsIdentity(segs: seq<Segment>)
    requires SortedByStart(segs)
    ensures SortByStart(segs) == segs
    decreases |segs|
  {
    if |segs| > 0 {
      var n := |segs| - 1;
      var front := segs[..n];
      SortedFront(segs);
      SortSortedIsIdentity(front);
      SortByStartLast(segs);
      InsertAtEnd(front, segs[n]);
      SplitLast(segs);
    }
  }

  /** `segment.id = index` over the sorted list. */
  function Renumber(segs: seq<Segment>): (r: seq<Segment>)
    ensures |r| == |segs| && DenseIds(r)
    ensures forall i :: 0 <= i < |segs| ==> r[i] == segs[i].(id := i)
  {
    seq(|segs|, i requires 0 <= i < |segs| => segs[i].(id := i))
  }

  /** Renumbering a densely numbered list changes nothing. */
  lemma RenumberDenseIsIdentity(segs: seq<Segment>)
    requires DenseIds(segs)
    ensures Renumber(segs) == segs
  {
    var r := Renumber(segs);
    forall i | 0 <= i < |segs| ensures r[i] == segs[i] {
      assert segs[i].id == i;
    }
  }

  /** `findTextPositions` over a parsed document. */
  function FindTextPositions(html: string, doc: seq<Node>): seq<Segment> {
    Renumber(SortByStart(Locate(html, VisitedTexts(doc))))
  }

  /** The sort and the renumbering are no-ops: the segments come out of the
      walk already in start order and numbered 0..n-1, so the final list is the
      walk's own list, ordered, densely numbered and well formed. */
  lemma FindTextPositionsIsLocate(html: string, doc: seq<Node>)
    ensures FindTextPositions(html, doc) == Locate(html, VisitedTexts(doc))
    ensures Ordered(FindTextPositions(html, doc)) && DenseIds(FindTextPositions(html, doc))
    ensures forall i :: 0 <= i < |FindTextPositions(html, doc)| ==> WellFormed(html, FindTextPositions(html, doc)[i])
  {
    var segs := Locate(html, VisitedTexts(doc));
    LocateProperties(html, VisitedTexts(doc));
    assert SortedByStart(segs);
    SortSortedIsIdentity(segs);
    RenumberDenseIsIdentity(segs);
  }

  /** A segment located through its raw data holds it at its recorded range. */
  lemma RawMatchRecovers(html: string, s: Segment)
    requires s.endPos == s.startPos + |s.originalText| && OccursAt(html, s.originalText, s.startPos)
    ensures Recovers(html, s)
  {
    assert html[s.startPos..s.endPos] == s.originalText;
  }

  /** A text without any of the five characters the escaper rewrites. */
  predicate Plain(s: string) {
    forall i :: 0 <= i < |s| ==> !IsSpecial(s[i])
  }

  /** Every segment `findTextPositions` reports for a plain text holds that
      text at its recorded range, so only a text with one of `& < > " '` can
      fail validation. */
  lemma PlainSegmentsRecover(html: string, doc: seq<Node>)
    ensures var segs := FindTextPositions(html, doc);
      forall i :: 0 <= i < |segs| && Plain(segs[i].originalText) ==> Recovers(html, segs[i])
  {
    var segs := FindTextPositions(html, doc);
    FindTextPositionsIsLocate(html, doc);
    forall i | 0 <= i < |segs| && Plain(segs[i].originalText) ensures Recovers(html, segs[i]) {
      PlainRecovers(html, segs[i]);
    }
  }

  /** A well-formed segment of plain text recovers it: escaping leaves the
      text alone, so it was found raw. */
  lemma PlainRecovers(html: string, s: Segment)
    requires WellFormed(html, s) && Plain(s.originalText)
    ensures Recovers(html, s)
  {
    EscapeHtmlPerChar(s.originalText);
    RawMatchRecovers(html, s);
  }

  /** Escaping `a<b` around two plain characters. */
  lemma EscapeAroundLt(a: char, b: char)
    requires !IsSpecial(a) && !IsSpecial(b)
    ensures EscapeHtml([a, '<', b]) == [a] + "&lt;" + [b]
  {
    var x, y, z := [a], ['<'], [b];
    assert [a, '<', b] == x + (y + z);
    EscapeHtmlAppend(x, y + z);
    EscapeHtmlAppend(y, z);
    EscapeHtmlChar(a);
    EscapeHtmlChar('<');
    EscapeHtmlChar(b);
  }

  /** When only the escaped form is found, the range still has the raw
      data's length: data `a<b` found as `a&lt;b` gets a range three long,
      which holds `a&l`, so the segment does not recover its text. */
  lemma EscapedHitMissesRange(a: char, b: char)
    requires !IsSpecial(a) && !IsSpecial(b)
    ensures var html := [a] + "&lt;" + [b];
      && FindExactPosition(html, [a, '<', b], 0) == Some(0)
      && !Recovers(html, MakeSegment(html, [a, '<', b], 0, 0))
  {
    var html := [a] + "&lt;" + [b];
    var data := [a, '<', b];
    assert '<' !in html;
    forall k | 0 <= k ensures !OccursAt(html, data, k) {
      if k + 3 <= |html| {
        assert html[k..k + 3][1] == html[k + 1];
      }
    }
    EscapeAroundLt(a, b);
    assert OccursAt(html, html, 0) by { assert html[0..|html|] == html; }
    assert html[0..3][1] == '&';
  }

  /** One mismatch `validateRecovery` reports. */
  datatype Issue = Issue(segmentId: int, expected: string, found: string, position: int)

  /** The source still holds the segment's raw text at its recorded range,
      read with `substring`'s clamping. */
  predicate RangeHolds(html: string, s: Segment) {
    Substring(html, s.startPos, s.endPos) == s.originalText
  }

  function IssueFor(html: string, s: Segment): Issue {
    Issue(s.id, s.originalText, Substring(html, s.startPos, s.endPos), s.startPos)
  }

  /** The issues list of `validateRecovery`, in segment order. */
  function RecoveryIssues(html: string, segs: seq<Segment>): (issues: seq<Issue>)
    ensures |issues| == 0 <==> forall i :: 0 <= i < |segs| ==> RangeHolds(html, segs[i])
    ensures forall i :: 0 <= i < |segs| && !RangeHolds(html, segs[i]) ==> IssueFor(html, segs[i]) in issues
    ensures |issues| <= |segs|
    decreases |segs|
  {
    if |segs| == 0 then []
    else
      var rest := RecoveryIssues(html, segs[1..]);
      assert forall i :: 1 <= i < |segs| ==> segs[1..][i - 1] == segs[i];
      if RangeHolds(html, segs[0]) then rest else [IssueFor(html, segs[0])] + rest
  }

  /** Every reported issue is the mismatch of a segment whose range no longer
      holds its text. */
  lemma {:induction false} RecoveryIssuesSound(html: string, segs: seq<Segment>)
    ensures forall x :: x in RecoveryIssues(html, segs) ==>
      exists s :: s in segs && !RangeHolds(html, s) && x == IssueFor(html, s)
    decreases |segs|
  {
    if |segs| > 0 {
      RecoveryIssuesSound(html, segs[1..]);
      forall x | x in RecoveryIssues(html, segs)
        ensures exists s :: s in segs && !RangeHolds(html, s) && x == IssueFor(html, s)
      {
        if x in RecoveryIssues(html, segs[1..]) {
          var s :| s in segs[1..] && !RangeHolds(html, s) && x == IssueFor(html, s);
          assert s in segs;
        } else {
          assert segs[0] in segs;
        }
      }
    }
  }

  /** `idx` lists, in increasing order, exactly the indices of the segments
      whose range no longer holds their text, and `issues` holds their issues
      in that order. */
  ghost predicate IssuesIndexed(html: string, segs: seq<Segment>, issues: seq<Issue>, idx: seq<nat>) {
    && Increasing(idx)
    && IssuesAt(html, segs, issues, idx)
    && forall i :: 0 <= i < |segs| ==> (!RangeHolds(html, segs[i]) <==> i in idx)
  }

  predicate Increasing(idx: seq<nat>) {
    forall a, b :: 0 <= a < b < |idx| ==> idx[a] < idx[b]
  }

  predicate IssuesAt(html: string, segs: seq<Segment>, issues: seq<Issue>, idx: seq<nat>) {
    && |idx| == |issues|
    && forall k :: 0 <= k < |idx| ==> idx[k] < |segs| && issues[k] == IssueFor(html, segs[idx[k]])
  }

  /** `validateRecovery` pushes one issue per failing segment, in segment
      order, and nothing else. */
  lemma RecoveryIssuesInOrder(html: string, segs: seq<Segment>)
    ensures exists idx :: IssuesIndexed(html, segs, RecoveryIssues(html, segs), idx)
  {
    var idx := FailingFrom(html, segs, 0);
    FailingFromIssues(html, segs, 0);
    assert segs[0..] == segs;
    assert IssuesIndexed(html, segs, RecoveryIssues(html, segs), idx);
  }

  /** The indices from `from` on whose segments fail, in increasing order. */
  ghost function FailingFrom(html: string, segs: seq<Segment>, from: nat): (r: seq<nat>)
    requires from <= |segs|
    ensures Increasing(r)
    ensures forall k :: 0 <= k < |r| ==> from <= r[k] < |segs|
    ensures forall i :: from <= i < |segs| ==> (!RangeHolds(html, segs[i]) <==> i in r)
    decreases |segs| - from
  {
    if from == |segs| then []
    else
      var rest := FailingFrom(html, segs, from + 1);
      if RangeHolds(html, segs[from]) then
        assert from !in rest;
        rest
      else
        PrependIncreasing(from, rest);
        [from] + rest
  }

  lemma PrependIncreasing(i: nat, idx: seq<nat>)
    requires Increasing(idx) && forall k :: 0 <= k < |idx| ==> i < idx[k]
    ensures Increasing([i] + idx)
  {
    var r := [i] + idx;
    forall a, b | 0 <= a < b < |r| ensures r[a] < r[b] {
      assert r[b] == idx[b - 1];
      if a > 0 { assert r[a] == idx[a - 1]; }
    }
  }

  /** The issues of the segments from `from` on are those of the failing
      indices, in order. */
  lemma {:induction false} FailingFromIssues(html: string, segs: seq<Segment>, from: nat)
    requires from <= |segs|
    ensures IssuesAt(html, segs, RecoveryIssues(html, segs[from..]), FailingFrom(html, segs, from))
    decreases |segs| - from
  {
    if from < |segs| {
      FailingFromIssues(html, segs, from + 1);
      var tail := segs[from..];
      assert tail[0] == segs[from] && tail[1..] == segs[from + 1..];
      PrependIssue(html, segs, from, RecoveryIssues(html, segs[from + 1..]), FailingFrom(html, segs, from + 1));
    }
  }

  lemma PrependIssue(html: string, segs: seq<Segment>, i: nat, issues: seq<Issue>, idx: seq<nat>)
    requires i < |segs| && IssuesAt(html, segs, issues, idx)
    ensures IssuesAt(html, segs, [IssueFor(html, segs[i])] + issues, [i] + idx)
  {
  }

  /** `validateRecovery`: valid exactly when no issue was found. */
  function ValidateRecovery(html: string, segs: seq<Segment>): (r: (bool, seq<Issue>))
    ensures r.0 <==> forall i :: 0 <= i < |segs| ==> RangeHolds(html, segs[i])
  {
    var issues := RecoveryIssues(html, segs);
    (|issues| == 0, issues)
  }

  /** For ranges inside the source, validation passes exactly when every
      segment recovers its raw text. */
  lemma ValidateRecoveryIff(html: string, segs: seq<Segment>)
    requires forall i :: 0 <= i < |segs| ==> 0 <= segs[i].startPos <= segs[i].endPos <= |html|
    ensures ValidateRecovery(html, segs).0 <==> forall i :: 0 <= i < |segs| ==> Recovers(html, segs[i])
  {
  }

  /** `getTranslationMap`: each segment's id mapped to its trimmed text. */
  function GetTranslationMap(segs: seq<Segment>): map<int, string> {
    MapById(segs, seq(|segs|, i requires 0 <= i < |segs| => segs[i].text))
  }

  /** On a densely numbered list the map is id `i` to the `i`-th text. */
  lemma TranslationMapDense(segs: seq<Segment>)
    requires DenseIds(segs)
    ensures forall k :: k in GetTranslationMap(segs) <==> 0 <= k < |segs|
    ensures forall i :: 0 <= i < |segs| ==> GetTranslationMap(segs)[i] == segs[i].text
  {
    MapByIdDense(segs, seq(|segs|, i requires 0 <= i < |segs| => segs[i].text));
  }
}

=== FILE: segments.dfy ===
/**
 * The segment record the extraction pass produces and the reconstruction pass
 * consumes, with the invariants both sides rely on.
 */
module Segments {
  import opened JsStrings
  import opened Verifier

  /** One translatable fragment: `text` is the trimmed content sent for
      translation, `originalText` the raw text-node data, and
      `[startPos, endPos)` its range in the source string. Segments loaded
      back from their serialised form may carry any values, so the fields are
      not constrained here. The diagnostic snapshot of the parent element is
      not part of the model. */
  datatype Segment = Segment(
    id: int,
    text: string,
    originalText: string,
    startPos: int,
    endPos: int,
    verification: Verification)

  /** The recorded range holds the segment's raw text: the check
      `validateRecovery` performs. */
  predicate Recovers(html: string, s: Segment) {
    0 <= s.startPos <= s.endPos <= |html| && html[s.startPos..s.endPos] == s.originalText
  }

  /** Ranges are non-empty, ascending and pairwise disjoint. */
  predicate Ordered(segs: seq<Segment>) {
    && (forall i :: 0 <= i < |segs| ==> 0 <= segs[i].startPos < segs[i].endPos)
    && (forall i, j :: 0 <= i < j < |segs| ==> segs[i].endPos <= segs[j].startPos)
  }

  /** Ids are the list positions 0..n-1. */
  predicate DenseIds(segs: seq<Segment>) {
    forall i :: 0 <= i < |segs| ==> segs[i].id == i
  }

  /** No later segment shares the id of the one at `i`. */
  predicate LastWithId(segs: seq<Segment>, i: int)
    requires 0 <= i < |segs|
  {
    forall j :: i < j < |segs| ==> segs[j].id != segs[i].id
  }

  /** The object `{}` filled by `map[segment.id] = value` in list order. */
  function MapById(segs: seq<Segment>, values: seq<string>): map<int, string>
    requires |values| == |segs|
    decreases |segs|
  {
    if |segs| == 0 then map[]
    else
      var n := |segs| - 1;
      MapById(segs[..n], values[..n])[segs[n].id := values[n]]
  }

  /** Every id gets a key and there are no other keys; when ids repeat, the
      last write wins. */
  lemma {:induction false} MapByIdContents(segs: seq<Segment>, values: seq<string>)
    requires |values| == |segs|
    ensures forall i :: 0 <= i < |segs| ==> segs[i].id in MapById(segs, values)
    ensures forall k :: k in MapById(segs, values) ==> exists i :: 0 <= i < |segs| && segs[i].id == k
    ensures forall i :: 0 <= i < |segs| && LastWithId(segs, i) ==> MapById(segs, values)[segs[i].id] == values[i]
    decreases |segs|
  {
    if |segs| > 0 {
      var n := |segs| - 1;
      var ps, pv := segs[..n], values[..n];
      MapByIdContents(ps, pv);
      var pm := MapById(ps, pv);
      var m := MapById(segs, values);
      assert m == pm[segs[n].id := values[n]];
      forall i | 0 <= i < |segs| ensures segs[i].id in m {
        if i < n { assert ps[i] == segs[i]; }
      }
      forall k | k in m ensures exists i :: 0 <= i < |segs| && segs[i].id == k {
        if k != segs[n].id {
          var i :| 0 <= i < n && ps[i].id == k;
          assert segs[i].id == k;
        }
      }
      forall i | 0 <= i < |segs| && LastWithId(segs, i) ensures m[segs[i].id] == values[i] {
        if i < n {
          assert segs[n].id != segs[i].id;
          assert ps[i] == segs[i] && pv[i] == values[i];
          assert LastWithId(ps, i) by {
            forall j | i < j < n ensures ps[j].id != ps[i].id { assert ps[j] == segs[j]; }
          }
        }
      }
    }
  }

  /** With dense ids the map is positional: its keys are 0..n-1 and id `i`
      holds `values[i]`. */
  lemma MapByIdDense(segs: seq<Segment>, values: seq<string>)
    requires |values| == |segs| && DenseIds(segs)
    ensures forall k :: k in MapById(segs, values) <==> 0 <= k < |segs|
    ensures forall i :: 0 <= i < |segs| ==> MapById(segs, values)[i] == values[i]
  {
    MapByIdContents(segs, values);
    var m := MapById(segs, values);
    forall i | 0 <= i < |segs| ensures LastWithId(segs, i) && i in m && m[i] == values[i] {
      assert segs[i].id == i;
    }
  }
}

=== FILE: verifier.dfy ===
/**
 * The verifier: a 32-bit rolling checksum of a text span and the three-way
 * test that decides whether the span found at reconstruction time is still
 * the one recorded at extraction time.
 */
module Verifier {
  import opened JsStrings

  const TwoTo32: int := 0x1_0000_0000
  const TwoTo31: int := 0x8000_0000

  /** ECMAScript ToInt32: the value modulo 2^32, read as a signed 32-bit
      integer. */
  function ToInt32(x: int): (r: int)
    ensures -TwoTo31 <= r < TwoTo31
    ensures (r - x) % TwoTo32 == 0
  {
    var m := x % TwoTo32;
    if m >= TwoTo31 then m - TwoTo32 else m
  }

  /** ToInt32 only sees its argument modulo 2^32. */
  lemma ToInt32Congruent(x: int, y: int)
    requires (x - y) % TwoTo32 == 0
    ensures ToInt32(x) == ToInt32(y)
  {
    var q := (x - y) / TwoTo32;
    assert x == y + TwoTo32 * q;
    assert x % TwoTo32 == y % TwoTo32;
  }

  /** A multiple of a multiple of 2^32 is one too. */
  lemma ScaledMultiple(d: int, k: int)
    requires d % TwoTo32 == 0
    ensures (k * d) % TwoTo32 == 0
  {
    var q := d / TwoTo32;
    assert d == TwoTo32 * q;
    assert k * d == TwoTo32 * (k * q);
  }

  /** `h << 5`: the operand is taken to 32 bits, shifted five places, and the
      result read back as a signed 32-bit value. */
  function ShiftLeft5(h: int): int {
    ToInt32(ToInt32(h) * 32)
  }

  /** One turn of the checksum loop: `hash = (hash << 5) - hash + char`
      computed exactly, then `hash = hash & hash`, which is ToInt32. */
  function ChecksumStep(h: int, code: int): int {
    ToInt32(ShiftLeft5(h) - h + code)
  }

  /** The shift-and-subtract turn is multiplication by 31 modulo 2^32. */
  lemma ChecksumStepIsMultiplyAdd(h: int, code: int)
    ensures ChecksumStep(h, code) == ToInt32(31 * h + code)
  {
    var t := ToInt32(h);
    var s := ToInt32(t * 32);
    ScaledMultiple(t - h, 32);
    SumMultiple(s - t * 32, 32 * (t - h));
    assert (s - h + code) - (31 * h + code) == (s - t * 32) + 32 * (t - h);
    ToInt32Congruent(s - h + code, 31 * h + code);
  }

  /** The sum of two multiples of 2^32 is one too. */
  lemma SumMultiple(a: int, b: int)
    requires a % TwoTo32 == 0 && b % TwoTo32 == 0
    ensures (a + b) % TwoTo32 == 0
  {
    var p, q := a / TwoTo32, b / TwoTo32;
    assert a == TwoTo32 * p && b == TwoTo32 * q;
    assert a + b == TwoTo32 * (p + q);
  }

  /** The code units read as a base-31 numeral, without any bound. */
  function Polynomial(s: string): int
    decreases |s|
  {
    if |s| == 0 then 0 else 31 * Polynomial(s[..|s| - 1]) + (s[|s| - 1] as int)
  }

  /** Closed form of the checksum: the base-31 value reduced to 32 bits. */
  function Checksum(s: string): int {
    ToInt32(Polynomial(s))
  }

  /** Extending the text by one code unit is one turn of the loop. */
  lemma ChecksumAppend(s: string, c: char)
    ensures Checksum(s + [c]) == ChecksumStep(Checksum(s), c as int)
  {
    var p := Polynomial(s);
    assert (s + [c])[..|s|] == s;
    assert Polynomial(s + [c]) == 31 * p + c as int;
    ChecksumStepIsMultiplyAdd(Checksum(s), c as int);
    ScaledMultiple(Checksum(s) - p, 31);
    ToInt32Congruent(31 * Checksum(s) + c as int, 31 * p + c as int);
  }

  /** The checksum loop as the source runs it, one code unit at a time. */
  method SimpleChecksum(text: string) returns (hash: int)
    ensures hash == Checksum(text)
    ensures -TwoTo31 <= hash < TwoTo31
  {
    hash := 0;
    var i := 0;
    while i < |text|
      invariant 0 <= i <= |text|
      invariant hash == Checksum(text[..i])
    {
      var code := text[i] as int;
      hash := ShiftLeft5(hash) - hash + code;
      hash := ToInt32(hash);
      ChecksumAppend(text[..i], text[i]);
      assert text[..i + 1] == text[..i] + [text[i]];
      i := i + 1;
    }
    assert text[..|text|] == text;
  }

  /** Context recorded beside each segment: up to ten code units on either
      side of the span, its length, and the checksum of its text. */
  datatype Verification = Verification(before: string, after: string, length: int, checksum: int)

  function CreateVerification(html: string, originalText: string, position: int): (v: Verification)
    ensures v.length == |originalText| && v.checksum == Checksum(originalText)
    ensures 0 <= position <= |html| ==>
      |v.before| == (if position < 10 then position else 10) && EndsWith(html[..position], v.before)
    ensures 0 <= position && position + |originalText| <= |html| ==>
      var rest := html[position + |originalText|..];
      |v.after| == (if |rest| < 10 then |rest| else 10) && v.after == rest[..|v.after|]
  {
    var start := if position - 10 < 0 then 0 else position - 10;
    var before := Substring(html, start, position);
    var after := Substring(html, position + |originalText|, position + |originalText| + 10);
    Verification(before, after, |originalText|, Checksum(originalText))
  }

  /** `verifyPosition`: the span still counts as the recorded one when it is
      identical, when its checksum matches the recorded one, or when both agree
      once trimmed. */
  predicate VerifyPosition(current: string, originalText: string, recordedChecksum: int) {
    || current == originalText
    || Checksum(current) == recordedChecksum
    || Trim(current) == Trim(originalText)
  }

  /** An untouched span always verifies, whatever checksum was recorded. */
  lemma UntouchedSpanVerifies(originalText: string, recordedChecksum: int)
    ensures VerifyPosition(originalText, originalText, recordedChecksum)
  {
  }

  /** Whitespace drift around the text is tolerated: the trimmed text with any
      whitespace put back around it still verifies. */
  lemma WhitespaceDriftVerifies(pre: string, post: string, originalText: string, recordedChecksum: int)
    requires AllWhitespace(pre) && AllWhitespace(post)
    ensures VerifyPosition(pre + Trim(originalText) + post, originalText, recordedChecksum)
  {
    TrimIsTrimmed(originalText);
    TrimStripsPadding(pre, Trim(originalText), post);
  }

  /** The checksum is weak: "BB" passes for a span recorded as "Aa", because
      both read 2112 in base 31. */
  lemma ChecksumCollision()
    ensures Checksum("Aa") == Checksum("BB") == 2112
    ensures VerifyPosition("BB", "Aa", Checksum("Aa"))
  {
    assert "Aa"[..1] == "A" && "A"[..0] == [];
    assert "BB"[..1] == "B" && "B"[..0] == [];
    assert Polynomial("Aa") == 2112;
    assert Polynomial("BB") == 2112;
  }
}
